=== FILE: README.md ===
# Tutor-mate, modelled in Dafny

Tutor-mate is a tutoring service. It has a Python backend, an HTTP API over SQLite stores and LLM-backed agents, and a React client. This project models the service's core:

- **The daily challenge.** A game rotates every 120-second window from a table of 20 puzzles. Answers are graded by puzzle type and turned into a reward tier. A player may play once per window, with a one-hour cooldown that the `/game/current` endpoint reports. The client widget (`Game.jsx`) fetches, times, builds and submits an answer.
- **The chat tutor.**
  - The chat agent builds its prompts: a level prompt, a five-message history window, and the weak-concept list.
  - The client chat session (`ChatInterface.jsx`) completes after five questions.
  - `/chat/analyze` scores a session from the AI's correctness flags, or from a keyword heuristic. It applies a floor, saves the session and produces recommendations.
  - The analysis panel (`AnalysisView.jsx`) requests the analysis once and shows a score-dependent headline.
- **The accounts.** The user store registers (unique e-mail, hashed password) and logs in. It lists the newest sessions, computes the day streak, and records and looks up game attempts. The API validates registrations, and the client router (`App.jsx`) moves between screens.
- **The practice pipeline.**
  1. The ingest agent joins a student's responses with the answer key.
  2. The diagnostic, explanation and practice agents fill a prompt template, ask the model, clean the reply of code fences and decode it.
  3. The quiz runner grades a practice set concept by concept.
  4. The progress tracker turns each graded question into a mastery update in the memory bank, clamped to [0, 1] and keyed by (student, concept).
  5. The scheduler picks the three weakest concepts by a stable sort.

The model represents its sources as follows:

- **Pure computations** are functions and lemmas over datatypes.
- **Classes with mutable state become Dafny classes** whose methods state the whole new state:
  - the Python stores: `UserDb`, `Bank`, `Tracker`;
  - the React components: `Widget`, `ChatSession`, `Router`, `Panel`.
- **Loops** in the source (`grade_quiz`, `normalize_responses`, `calculate_streak`, `update_progress`, the MCQ count, the session listing) are methods with invariants. Each is proved equal to a specification function.

Everything outside the program's own logic is a parameter:

- **The model call** is a function from the prompt to a reply or a raised message.
- **JSON decoding** and the answer checker's equivalence test are functions.
- **The password hash** is a function.
- **Clocks** are integers: seconds, or day numbers.

## Model

| member | source | states |
|---|---|---|
| GameService.AllGamesWellFormed | agents/game_service.py:196-202 | The rotation has exactly 20 games, and every multiple-choice set in it has at least one question. |
| GameService.GameAtWellFormed | agents/game_service.py:221-222 | The game chosen for any window id, negative ids included, is one `validate_answer` can score. |
| GameService.CurrentGameAt | agents/game_service.py:204-217 | The window id is the 120-second window containing the clock, and the remaining time is the seconds until that window ends, between 1 and 120. The game is the window id's slot in the rotation. |
| GameService.RewardMonotone | agents/game_service.py:263-269 | A higher score never earns a lower reward tier. |
| GameService.RewardBands | agents/game_service.py:263-269 | For scores in [0, 100]: gold exactly at 100, silver on [66, 100), bronze on [33, 66), no reward below 33. |
| GameService.CountCorrect | agents/game_service.py:234-237 | The number of correctly answered MCQ questions never exceeds the number asked. |
| GameService.CountCorrectFull | agents/game_service.py:234-237 | All questions are counted correct exactly when every question's key carries its correct option. |
| GameService.McqScoreRange | agents/game_service.py:239-240 | The MCQ percentage lies in [0, 100] and is 100 exactly when every question is right. |
| GameService.GradeFacts | agents/game_service.py:224-269 | For every game and answer: correct iff the score is 100; the score is in [0, 100]; non-MCQ games score 0 or 100; the reward is the tier of the score; the correct answer shown is the game's. |
| GameService.McqAllOrPartial | agents/game_service.py:229-241 | An MCQ answer passes iff it is a dict holding the right option under every question's decimal index. An answer that is not a dict scores 0. |
| GameService.LogicNeedsExactAnswer | agents/game_service.py:243-246 | A logic puzzle passes only on the exact answer text, with no trimming and no case folding. |
| GameService.WordScrambleIgnoresPaddingAndCase | agents/game_service.py:253-256 | A word-scramble answer passes regardless of surrounding whitespace and letter case. |
| GameService.TrimmedGamesIgnorePadding | agents/game_service.py:248-261 | Shape and sentence answers are compared after stripping, so padding never changes the grade. |
| GameService.ValidateAnswer | agents/game_service.py:219-276 | The result is the grade of the window's own game: correct iff the score is 100, with the score in [0, 100]. |
| GameService.GradeGame | agents/game_service.py:224-269 | Grading by puzzle type agrees with the grading specification for every game and answer. |
| GameService.CountRight | agents/game_service.py:231-237 | The counting loop returns the number of correctly answered questions. |
| UserDatabase.GradeOrDefault | tools/user_database.py:106 | The grade level reported is never empty: an empty stored grade reads as "College Year 1", and a non-empty one is kept. |
| UserDatabase.FindLogin | tools/user_database.py:91-97 | The row found is the first one matching both e-mail and hash. None is found iff no row matches. |
| UserDatabase.NewestIndices | tools/user_database.py:135-141 | It chooses min(limit, n) rows (all rows for a negative LIMIT), newest first and ties in stored order. No row left out is newer than one chosen. |
| UserDatabase.SessionsOf | tools/user_database.py:135-141 | Exactly the rows of that user. |
| UserDatabase.NewestSessions | tools/user_database.py:135-141 | Exactly min(limit, n) of the user's n sessions (all n when the limit is negative), each a stored row of that user, in non-increasing completion time. |
| UserDatabase.NewestSessionsComplete | tools/user_database.py:135-141 | A session of the user that is not listed is no newer than any listed one. |
| UserDatabase.DaysOf | tools/user_database.py:165-173 | The day numbers are exactly those of the stored completion times. |
| UserDatabase.Infos | tools/user_database.py:144-153 | One summary per row, in row order. |
| UserDatabase.CopyInfos | tools/user_database.py:144-153 | The copying loop yields the summaries of all rows in order. |
| UserDatabase.DescendingDistinct | tools/user_database.py:165-173 | SELECT DISTINCT ... ORDER BY date DESC: strictly decreasing, with the same set of days. |
| UserDatabase.ConsecutiveRun | tools/user_database.py:194-205 | The length of the leading run of days that each follow the next by exactly one; the loop breaks at the first gap. |
| UserDatabase.RunIsConsecutiveDays | tools/user_database.py:194-205 | Within the run, the i-th day is i days before the most recent one. |
| UserDatabase.StreakOf | tools/user_database.py:175-205 | The streak loop computes the streak of the distinct session days for today. |
| UserDatabase.StreakFacts | tools/user_database.py:175-205 | A streak never exceeds the number of distinct days. It is positive only if the last session day is at most one day before today (a UTC session day later than the local today included), and it counts consecutive days back from that session. |
| UserDatabase.Latest | tools/user_database.py:333-349 | None iff the user has no attempt; otherwise an attempt of that user with the greatest completion time. |
| UserDatabase.UserDb.constructor | tools/user_database.py:8-58 | A fresh store has no users, sessions or attempts, and the first id is 1. |
| UserDatabase.UserDb.LoginUser | tools/user_database.py:85-112 | Login succeeds iff some user has that e-mail and the hash of that password. It then reports a matching row's id, name and e-mail, with its grade level or "College Year 1" when that is empty; otherwise the result is "Invalid credentials". |
| UserDatabase.UserDb.RegisterUser | tools/user_database.py:64-83 | A taken e-mail gives "Email already registered" and no change. Otherwise one user is appended with the next id and the hashed password, and logging in with the same credentials returns that user. |
| UserDatabase.UserDb.SaveSession | tools/user_database.py:114-127 | Exactly one session row is appended, stamped with the clock. |
| UserDatabase.UserDb.GetUserSessions | tools/user_database.py:129-156 | The summaries of the user's newest sessions: exactly min(limit, n) of the user's n sessions (all n for a negative limit), most recent first. |
| UserDatabase.UserDb.SessionDays | tools/user_database.py:165-173 | The user's distinct session days, most recent first. |
| UserDatabase.UserDb.CalculateStreak | tools/user_database.py:158-209 | The streak of the user's session days for today. |
| UserDatabase.UserDb.RecordGameAttempt | tools/user_database.py:260-286 | One attempt row is appended. Afterwards the user has played that window, and whether any other user or window has been played is unchanged (has_played_window, 288-313). |
| UserDatabase.UserDb.LastGameAttempt | tools/user_database.py:315-352 | None iff the user has no attempt; otherwise the window, score and time of the user's latest attempt. |
| Api.RegistrationError | api.py:103-111 | No error iff the e-mail ends in "@gmail.com" and the password has at least 5 characters. Every refusal is a 400. |
| Api.Register | api.py:103-117 | A refused request leaves the store unchanged, and a taken e-mail gives a 400 "Email already registered". On success exactly one user is added, and logging in with the same credentials succeeds. |
| Api.Login | api.py:119-126 | Succeeds iff a stored user matches the e-mail and the password's hash, and then returns exactly the store's login result (the row's id, name, e-mail and defaulted grade); otherwise a 401 "Invalid credentials". |
| Api.Elapsed | api.py:272-276 | The time since the last attempt, never negative (a clock behind the stored time counts as 0). |
| Api.GetCurrentGame | api.py:252-308 | Played iff the user has an attempt less than 3600 seconds old. In both cases the window id and game are the current window's. When played, the remaining cooldown is int(3600 - elapsed), the elapsed seconds since the latest attempt clamped at 0, so it lies in [0, 3600]. The last result is rebuilt from that attempt: correct iff its score is 100, with the reward tier of its score and "See previous result" as the correct answer. When not played, the remaining time is the rest of the 120-second window and there is no last result. |
| Api.SubmitGame | api.py:313-333 | Missing fields give 400 "Missing required fields", and a replay of a played window gives 400 "Already played this round"; neither changes the store. Otherwise the result is the grade of the window's game, exactly one attempt is recorded, and the window counts as played. |
| Api.Tally | api.py:357-383 | With flagged AI replies: correct counts at most the flagged ones, and total equals them. Without flags: total is the number of user messages. |
| Api.PercentBounds | api.py:385-388 | The truncated percentage p satisfies p·t ≤ 100·c < (p+1)·t, and is at most 100 when c ≤ t. |
| Api.FlooredScoreInRange | api.py:385-392 | When the correct count is at most the total, the score is in [0, 100], and 100 exactly when every question is correct. |
| Api.FlaggedScoreInRange | api.py:357-392 | With flags, the session score is in [0, 100] and is 100 iff every flagged reply is correct. |
| Api.ScoreFloor | api.py:389-392 | No questions and fewer than 3 correct scores 0. Three or more correct always scores above 50. Otherwise the score is the truncated percentage. |
| Api.BareCorrectSoundsCorrect | api.py:378-383 | An AI reply containing "correct" counts as a correct answer in the heuristic. |
| Api.UnflaggedScoreCanExceedHundred | api.py:369-388 | Concrete witness: a session with two unflagged "correct" AI replies around one user message scores 200. |
| Api.CountFlaggedCorrect | api.py:360-367 | The counting loop over flagged replies counts exactly the replies marked correct. |
| Api.CountSoundsCorrect | api.py:378-383 | The heuristic loop counts exactly the AI replies whose lower-cased text mentions correctness. |
| Api.ScoreSession | api.py:357-392 | The counts are the tally of the messages, and the score is the floored percentage of those counts. |
| Api.FallbackRecommendations | api.py:408-414 | Three link recommendations, each with a search query that starts with the subject. |
| Api.AnalyzeSession | api.py:341-428 | The score is the session score of the messages, and the session is saved iff the user id is truthy (defaults "General" and "intermediate"). Strengths and weaknesses are fixed, and the recommendations come from the model's reply or the fallback list. |
| GameWidget.EncodePicks | frontend/src/components/Game.jsx:83-89 | The picked options keyed by their decimal index: a key is present iff that question was picked. |
| GameWidget.EncodePicksEmpty | frontend/src/components/Game.jsx:83-89 | The encoded answer is empty iff nothing was picked. |
| GameWidget.McqPickGraded | agents/game_service.py:234-237 | A question sent from the widget is graded right iff its picked option is the correct one. |
| GameWidget.EmptyDraftRefused | api.py:321-322 | The server sees an answer iff the draft for the game's type is non-empty. |
| GameWidget.SentenceInOrderIsCorrect | frontend/src/components/Game.jsx:85-86 | Building the sentence from the words in the correct order is graded correct. |
| GameWidget.WithoutIndex | frontend/src/components/Game.jsx:211 | Removing a word drops exactly the word at that index, and an index out of range changes nothing. |
| GameWidget.CountdownFloor | frontend/src/components/Game.jsx:59-67 | After k ticks from n the timer shows max(n - k, 0). |
| GameWidget.PadStart2 | frontend/src/components/Game.jsx:74 | The padded text has length at least 2. |
| GameWidget.TwoDigitSeconds | frontend/src/components/Game.jsx:71-75 | Seconds below 60 are shown as exactly two digits with their value. |
| GameWidget.FormatTimeShape | frontend/src/components/Game.jsx:71-75 | The display is minutes, a colon, and two digits that read back as the seconds. |
| GameWidget.FormatTimeInjective | frontend/src/components/Game.jsx:71-75 | Different non-negative times are displayed differently. |
| GameWidget.Widget.constructor | frontend/src/components/Game.jsx:6-18 | The initial state: loading, no game, no result, no error, empty drafts. |
| GameWidget.Widget.CurrentScreen | frontend/src/components/Game.jsx:239-325 | Each screen is characterised exactly. The spinner shows iff loading. The error shows iff loading is over and there is an error. With no error, the start screen shows iff the game is neither started nor played, the cooldown iff the window is played, and the puzzle iff the game is started and not played. The puzzle always has game data. |
| GameWidget.Widget.FetchStarted | frontend/src/components/Game.jsx:22 | Sets loading. |
| GameWidget.Widget.FetchCompleted | frontend/src/components/Game.jsx:20-45 | A response installs the game, the timer and the last result and resets the drafts; a failure sets the error. Loading ends either way. |
| GameWidget.Widget.StartGame | frontend/src/components/Game.jsx:270 | From the start screen, starts the game. |
| GameWidget.Widget.PickOption | frontend/src/components/Game.jsx:126 | Records the option for that question only. |
| GameWidget.Widget.SetText | frontend/src/components/Game.jsx:152 | Replaces the text draft. |
| GameWidget.Widget.AddWord | frontend/src/components/Game.jsx:224 | Appends the word to the sentence draft. |
| GameWidget.Widget.RemoveWord | frontend/src/components/Game.jsx:211 | Removes exactly the word at that index. |
| GameWidget.Widget.Tick | frontend/src/components/Game.jsx:59-67 | At 1 second or less the timer stops at 0 and asks for a refetch; otherwise it counts down by one. |
| GameWidget.Widget.SubmitStarted | frontend/src/components/Game.jsx:77-97 | Marks submitting. It sends the user id, the window id and the draft of the game's type. |
| GameWidget.Widget.SubmitCompleted | frontend/src/components/Game.jsx:99-107 | A reply becomes the shown result, marks the game played and sets the timer to the 3600-second cooldown; a failure sets the error and leaves the game, result and timer unchanged. Submitting ends in both cases, and the drafts are kept. |
| ChatInterface.History | frontend/src/components/ChatInterface.jsx:54 | One history entry per message, keeping each message's role and content. |
| ChatInterface.CompletesOnFifthReply | frontend/src/components/ChatInterface.jsx:66-87 | After a successful start, the session completes exactly at the fifth answer reply, and the count stops at 5. |
| ChatInterface.CompletesOnSixthReplyAfterFailedStart | frontend/src/components/ChatInterface.jsx:33-87 | If the start failed, the count begins at 0 and completion needs a sixth reply. |
| ChatInterface.ChatSession.constructor | frontend/src/components/ChatInterface.jsx:7-13 | An empty conversation with no pending request, not complete. |
| ChatInterface.ChatSession.StartSession | frontend/src/components/ChatInterface.jsx:24-32 | Sets loading and sends subject, difficulty and grade level. |
| ChatInterface.ChatSession.StartCompleted | frontend/src/components/ChatInterface.jsx:33-41 | A reply becomes the first AI message and the question count is set; a failure shows the start-failure message. |
| ChatInterface.ChatSession.SetInput | frontend/src/components/ChatInterface.jsx:174 | Replaces the input text. |
| ChatInterface.ChatSession.Send | frontend/src/components/ChatInterface.jsx:45-62 | Blank input sends nothing and changes nothing. Otherwise the user message is appended, the input is cleared, and the request carries the history and the answer. |
| ChatInterface.ChatSession.ReplyArrived | frontend/src/components/ChatInterface.jsx:64-106 | A failure only ends loading and clears the pending request: the user message stays, and the count, session data and completion are kept. A reply either completes the session with the final feedback or appends the next question and counts it. |
| ChatInterface.ChatSession.EndSessionPayload | frontend/src/components/ChatInterface.jsx:119 | The End Session payload wraps the data one level too deep, so the result view finds no messages and no subject. |
| ChatInterface.ChatSession.ViewResultsPayload | frontend/src/components/ChatInterface.jsx:154-164 | View Results passes the current messages, subject, difficulty and grade level. |
| App.UserIdOf | frontend/src/components/Game.jsx:23 | The first truthy of `id` and `user_id`; none when both are missing or 0. |
| App.GradeLevelOf | frontend/src/App.jsx:199 | Never empty; a stored non-empty grade level is kept. |
| App.DifficultyOf | frontend/src/App.jsx:172 | Lower-casing keeps the caption's length. |
| App.DifficultyLabels | frontend/src/App.jsx:169-172 | The three buttons send "beginner", "intermediate" and "advanced". |
| App.Router.constructor | frontend/src/App.jsx:12-18 | No user, login view, nothing selected, sidebar closed. |
| App.Router.LoadStoredUser | frontend/src/App.jsx:21-27 | A stored user is restored onto the dashboard; without one nothing changes. |
| App.Router.CurrentPage | frontend/src/App.jsx:68-203 | Without a user only the login or register form shows. The chat page gets the user's grade level, defaulted. |
| App.Router.SwitchAuthForm | frontend/src/App.jsx:69-72 | Toggles between the register and login forms. |
| App.Router.HandleLogin | frontend/src/App.jsx:29-33 | Stores the user and opens the dashboard. |
| App.Router.HandleLogout | frontend/src/App.jsx:35-43 | Forgets the user, the stored copy, the selections and the session data, and returns to the login view. |
| App.Router.HandleSubjectSelect | frontend/src/App.jsx:45-49 | Records the subject and opens the difficulty view with the sidebar closed. |
| App.Router.HandleDifficultySelect | frontend/src/App.jsx:51-55 | Records the difficulty, keeps the subject, and opens the chat. |
| App.Router.HandleChatComplete | frontend/src/App.jsx:57-60 | Keeps the session data and opens the result view. |
| App.Router.HandleViewChange | frontend/src/App.jsx:62-65 | Switches view and closes the sidebar. |
| App.Router.SetSidebar | frontend/src/App.jsx:85 | Opens or closes the sidebar. |
| AnalysisView.Headline | frontend/src/components/AnalysisView.jsx:88 | The encouragement shows iff the displayed score is below 50. |
| AnalysisView.PanelsExclusive | frontend/src/components/AnalysisView.jsx:88-95 | Strengths show iff the encouragement does not. Neither a missing analysis nor the client fallback ever shows strengths. |
| AnalysisView.Panel.constructor | frontend/src/components/AnalysisView.jsx:7-10 | Loading, no analysis, no request made. |
| AnalysisView.Panel.Generate | frontend/src/components/AnalysisView.jsx:12-27 | At most one request is ever sent. The first call sends the session, or the default session when there is none. |
| AnalysisView.Panel.Completed | frontend/src/components/AnalysisView.jsx:29-44 | The reply, or the fallback analysis on failure, is shown; a failure displays 0. Loading ends. |
| ChatAgent.LevelPrompt | agents/chat_agent.py:23-29 | The prompt of a known difficulty, or the intermediate one for any other difficulty. |
| ChatAgent.HistoryWindow | agents/chat_agent.py:59 | The last five messages, or all of them when there are fewer. |
| ChatAgent.WindowSlides | agents/chat_agent.py:59 | One more message enters the window, and once the window is full the oldest leaves. |
| ChatAgent.ConceptsText | agents/chat_agent.py:94 | No weak concepts gives the "general topics" text. |
| ChatAgent.ConceptsTextRoundTrip | agents/chat_agent.py:94 | Concept names without commas can be read back from the prompt text. |
| ChatAgent.Generate | agents/chat_agent.py:119-142 | Without configuration it is the simulation reply. With configuration it is an error iff the model raises or the cleaned reply does not decode, carrying the exception's or the decoder's message, and otherwise the decoded reply. |
| ChatAgent.GenerateFencedReply | agents/chat_agent.py:133-139 | A fenced reply is decoded from its body alone, and an undecodable body is the error. |
| ChatAgent.StartSession | agents/chat_agent.py:19-53 | The simulation reply iff not configured. Otherwise the model is asked with the subject, grade, difficulty and the level instruction: an error iff it raises or its cleaned reply does not decode, carrying the exception's or the decoder's message, else the decoded reply. |
| ChatAgent.UnknownDifficultyAsksIntermediate | agents/chat_agent.py:29 | A difficulty with no instruction of its own is asked with the "intermediate" instruction; the setting itself still goes into the prompt. |
| ChatAgent.ProcessResponse | agents/chat_agent.py:55-88 | Asks the model with only the last five history messages and the answer. |
| ChatAgent.OldHistoryIsIgnored | agents/chat_agent.py:59 | Messages older than the last five never change the reply. |
| ChatAgent.GenerateRecommendations | agents/chat_agent.py:90-117 | The simulation reply iff not configured. Otherwise the model is asked with the subject, difficulty and weak-concept text: an error iff it raises or its cleaned reply does not decode, carrying the exception's or the decoder's message, else the decoded reply. |
| ChatAgent.NoWeakConceptsAskGeneralTopics | agents/chat_agent.py:94 | With no weak concepts the model is asked about "general topics". |
| ChatAgent.RecommendationPromptNamesConcepts | agents/chat_agent.py:94 | With weak concepts whose names have no comma, the concepts in the prompt read back as exactly those names, in order. |
| ModelOutput.CleanResponse | agents/diagnostic_agent.py:54-58 | The cleaned text is a slice of the stripped reply, and a reply without fences is only stripped. |
| ModelOutput.CleanFencedReply | agents/diagnostic_agent.py:54-58 | A "```json ... ```" reply with padding cleans to exactly its body. |
| ModelOutput.EmptyFenceCleansToNothing | agents/diagnostic_agent.py:54-58 | The opening fence is removed before the closing one is sought, so an empty fenced block cleans to "". |
| ModelOutput.ParseResponse | agents/diagnostic_agent.py:52-63 | Raw text iff decoding the cleaned reply fails, and then it is the cleaned text; otherwise the decoded value. |
| ModelOutput.ParseFencedReply | agents/diagnostic_agent.py:52-63 | A fenced reply is parsed from its body alone. |
| ModelOutput.FillReplacesEverySlot | agents/diagnostic_agent.py:41 | Filling is the template cut at every slot occurrence and rejoined with the value. No piece contains the slot, and rejoining with the slot gives the template back. |
| ModelOutput.FillTrailingSlot | agents/diagnostic_agent.py:41 | A template ending in its only slot is filled by appending the value. |
| ModelOutput.JoinConceptsSplitsBack | agents/explanation_agent.py:36 | Comma-free concept names can be read back from the joined list. |
| ModelOutput.Ask | agents/diagnostic_agent.py:31-50 | Without configuration it is the agent's own dict. It is an error iff the model raises, with the raised message, and otherwise the parsed reply. |
| DiagnosticAgent.LoadPrompt | agents/diagnostic_agent.py:24-29 | The prompt file's text when it exists, else the default template ending in the data slot. |
| DiagnosticAgent.LeadHasNoBrace | agents/diagnostic_agent.py:29 | The default template has no brace before its slot. |
| DiagnosticAgent.DefaultTemplateTakesData | agents/diagnostic_agent.py:29-41 | Filling the default template appends the data to its fixed lead. |
| DiagnosticAgent.Diagnose | agents/diagnostic_agent.py:31-50 | The offline dict iff not configured. Otherwise an error carrying the exception's message iff the model raises on the filled prompt, else its parsed reply. |
| ExplanationAgent.LoadPrompt | agents/explanation_agent.py:20-25 | The prompt file's text when it exists, else the default template ending in the concepts slot. |
| ExplanationAgent.LeadHasNoBrace | agents/explanation_agent.py:25 | The default template has no brace before its slot. |
| ExplanationAgent.DefaultTemplateTakesConcepts | agents/explanation_agent.py:25-37 | Filling the default template appends the joined concept names. |
| ExplanationAgent.GenerateExplanations | agents/explanation_agent.py:27-44 | The offline dict iff not configured. Otherwise an error carrying the exception's message iff the model raises on the filled prompt, else its parsed reply. |
| PracticeAgent.LoadPrompt | agents/practice_agent.py:20-25 | The prompt file's text when it exists, else the default template ending in the concepts slot. |
| PracticeAgent.LeadHasNoBrace | agents/practice_agent.py:25 | The default template has no brace before its slot. |
| PracticeAgent.DefaultTemplateTakesConcepts | agents/practice_agent.py:25-37 | Filling the default template appends the joined concept names. |
| PracticeAgent.GeneratePractice | agents/practice_agent.py:27-44 | The offline dict iff not configured. Otherwise an error carrying the exception's message iff the model raises on the filled prompt, else its parsed reply. |
| IngestAgent.KeyMap | agents/ingest_agent.py:31 | Has a key for exactly the ids of the answer key, each mapped to a question with that id. |
| IngestAgent.KeyMapLastWins | agents/ingest_agent.py:31 | Of several questions sharing an id, the last one is kept. |
| IngestAgent.KnownResponses | agents/ingest_agent.py:33-35 | Exactly the responses whose question id is in the key. |
| IngestAgent.Entries | agents/ingest_agent.py:33-43 | One entry per known response, never more than the responses. |
| IngestAgent.EntriesAppend | agents/ingest_agent.py:33-43 | One more response adds its entry iff it is known. |
| IngestAgent.AllKnownKeepsPositions | agents/ingest_agent.py:33-43 | When every response is known, the entries line up with the responses position by position. |
| IngestAgent.EntriesComeFromKey | agents/ingest_agent.py:36-43 | Every entry takes its text, answer and concepts from the key's question with its id, and its student answer from a response to that id. |
| IngestAgent.NormalizeResponses | agents/ingest_agent.py:20-45 | Keeps the student and quiz ids; the loop produces the entries of the known responses in order. |
| MemoryBank.Clamp | tools/memory_bank.py:75 | The result is in [0, 1], equal to the input inside it and to the nearer bound outside it. |
| MemoryBank.Lookup | tools/memory_bank.py:64-65 | Finds a row for that (student, concept) pair, or reports that none exists. |
| MemoryBank.RewrittenFacts | tools/memory_bank.py:67-80 | The new row is the old score plus the delta, clamped to [0, 1], with the old history followed by one entry for this update. A new pair starts from 0.0 with an empty history. |
| MemoryBank.NullConceptStartsOver | tools/memory_bank.py:64-85 | A null concept never matches a stored row, so every update for it adds a fresh row. |
| MemoryBank.UpdateTouchesOnlyItsRow | tools/memory_bank.py:82-85 | Every other row survives, and the only new row is the rewritten one, which replaces the old row for that pair. |
| MemoryBank.AfterUpdateKeepsInvariant | tools/memory_bank.py:59-88 | An update keeps the (student, concept) primary key unique and every score in [0, 1]. |
| MemoryBank.Bank.constructor | tools/memory_bank.py:7-50 | Empty tables. |
| MemoryBank.Bank.AddStudent | tools/memory_bank.py:52-57 | Inserts or replaces that student's row. |
| MemoryBank.Bank.UpdateConceptMastery | tools/memory_bank.py:59-88 | The table becomes the updated table, and the key and range invariant is kept. |
| MemoryBank.Bank.StudentMastery | tools/memory_bank.py:90-96 | Exactly the reports of that student's rows, each with a score in [0, 1]. |
| MemoryBank.Bank.LogSession | tools/memory_bank.py:98-105 | Logged iff the session id is new, and then stored under it; a duplicate id changes nothing. |
| ProgressTracker.UpdateFor | agents/progress_tracker.py:19-24 | The delta is positive iff the answer was correct. A mistake is recorded iff it was wrong, naming the question. |
| ProgressTracker.UpdatesFor | agents/progress_tracker.py:18-26 | One update per graded question, in order. |
| ProgressTracker.ApplyAllKeepsInvariant | agents/progress_tracker.py:18-26 | A whole batch of updates keeps the primary key unique and the scores in [0, 1]. |
| ProgressTracker.UntouchedRowsSurvive | agents/progress_tracker.py:18-26 | A row whose concept no update names survives the batch. |
| ProgressTracker.Tracker.constructor | agents/progress_tracker.py:11-12 | The tracker uses the given memory bank. |
| ProgressTracker.Tracker.UpdateProgress | agents/progress_tracker.py:14-26 | The mastery table becomes the batch of updates applied in order, and the bank's invariant is kept. |
| ProgressTracker.Tracker.StudentStatus | agents/progress_tracker.py:28-29 | Exactly the memory bank's reports for that student. |
| QuizRunner.GroupDetails | agents/quiz_runner.py:26-43 | One judgment per question of the group, in order. |
| QuizRunner.OneDetailPerQuestion | agents/quiz_runner.py:25-43 | The grading has exactly one detail per question of the set. |
| QuizRunner.DetailsInOrder | agents/quiz_runner.py:25-43 | The detail of question q of group g sits after all earlier groups' details, at offset q. |
| QuizRunner.UnansweredJudgedAgainstEmpty | agents/quiz_runner.py:29 | A question the student did not answer is judged with "" as the answer. |
| QuizRunner.GradeQuiz | agents/quiz_runner.py:15-45 | The details are all judgments in order, the total is the number of questions, and the score counts the correct details. A missing set grades 0 of 0. |
| QuizRunner.GradeGroup | agents/quiz_runner.py:26-43 | Appends the group's judgments, adds its size to the total and its correct count to the score. |
| Ranking.Lowest | agents/scheduler_agent.py:15-18 | The positions of the k lowest keys under a stable ascending sort: distinct, ordered, and none above a key left out. |
| Ranking.LowestIsStable | agents/scheduler_agent.py:15 | Of two equal keys, the later is chosen only if the earlier is, and it comes first. |
| SchedulerAgent.FocusPositions | agents/scheduler_agent.py:15-18 | min(3, n) distinct concepts, weakest first, none with a higher score than a concept left out. |
| SchedulerAgent.NextSessionFocus | agents/scheduler_agent.py:15-21 | The concept ids of those positions, in that order. |
| SchedulerAgent.FocusIsStable | agents/scheduler_agent.py:15 | Equally weak concepts keep their order from the status list. |
| Text.Strip | agents/game_service.py:249 | `str.strip`: a slice of the text with only whitespace cut from either end, which is empty or begins and ends with a non-whitespace character. |
| Text.StripIgnoresPadding | agents/game_service.py:249 | Whitespace padding never changes the stripped text. |
| Text.StripIdempotent | agents/game_service.py:249 | Stripping twice equals stripping once. |
| Text.Upper | agents/game_service.py:254 | Upper-casing keeps the length and maps each character by itself, ASCII letters only. |
| Text.Lower | api.py:380 | Lower-casing keeps the length and maps each character by itself, ASCII letters only. |
| Text.UpperIgnoresCase | agents/game_service.py:254 | Upper-casing a lower-cased text gives the same as upper-casing the original. |
| Text.StripLower | agents/game_service.py:254 | Stripping commutes with lower-casing. |
| Text.ContainsIffOccurs | api.py:382 | `in` on strings holds iff the needle occurs at some position. |
| Text.SplitJoin | agents/diagnostic_agent.py:41 | Rejoining the pieces of a split with the separator gives the text back. |
| Text.ReplaceIsJoinOfSplit | agents/diagnostic_agent.py:41 | Replacing is splitting at the old text and joining with the new. |
| Text.SplitPiecesAreFree | agents/diagnostic_agent.py:41 | No piece of a split contains the separator. |
| Text.NatToString | agents/game_service.py:236 | `str(i)` of a natural number is a non-empty digit string. |
| Text.DecimalRoundTrip | agents/game_service.py:236 | The decimal text reads back as the number. |
| Text.NatToStringInjective | agents/game_service.py:236 | Different indices give different keys. |
| Text.JoinSplit | agents/explanation_agent.py:36 | Pieces without the separator's first character split back from their join. |
| Seqs.Filter | api.py:357 | The list comprehension keeps exactly the elements that pass the test, and is shorter whenever one fails. |

## Left out

- **The transport.** HTTP routing, CORS, request parsing, axios calls and React rendering are left out. Requests and replies are datatypes, and each asynchronous call is split into a "started" and a "completed" method.
- **The model call (Gemini)** is a parameter: a function from the prompt to a reply or a raised message. The wording of the prompts is left out; only their inputs are modelled. Whether the agents are configured (API key present, client module importable) is a boolean.
- **JSON.** Decoding (`json.loads`) is a parameter function. Encoding dicts into prompts and into stored session text (`json.dumps`, `str(dict)`) is a parameter string.
- **Math answers.** The answer checker's symbolic equivalence (SymPy) is a parameter relation.
- **The password hash.** SHA-256 is an opaque function held by the user store. It is not assumed injective.
- **SQLite mechanics** are left out: connections, WAL mode, transactions, the retry loop, the schema text. Tables are sequences or maps of rows, and the UNIQUE e-mail constraint becomes an explicit check. The order among rows with equal keys follows storage order. A NULL grade level reads as the empty string.
- **Clocks** are parameters: seconds for the game and the sessions, day numbers for the streak. The scheduler's `suggested_time` is left out.
- **Floating point** is not modelled bit for bit. MCQ scores and mastery values are exact reals. `int((correct / total) * 100)` in the analysis is computed exactly, as a truncating division.
- **Exception paths that return HTTP 500**, or that print and swallow the error, are left out:
  - the outer fallback of `/chat/analyze` (api.py:429-438);
  - a failing `save_session`;
  - a concept group without `"concept"`;
  - a practice question missing an answer.
- **`get_user_stats`** (tools/user_database.py:211-258) is left out: it is built on floating-point `AVG` and `round`. `get_user_sessions` keeps each session's data as stored text and does not decode it.
- **The demo glue around `CURRENT_DATA`** (api.py:130-221) only threads the practice pipeline's values through module globals, and is left out. These endpoints are `/ingest/quiz`, `/ingest/responses`, `/diagnose`, `/explain`, `/practice`, `/submit_practice`, `/student/{student_id}/summary` and `/dashboard/{user_id}`; the last one reads the user statistics. `/chat/start` and `/chat/message` only forward to the chat agent, which is modelled. The file reads of `load_quiz` are left out too.
- **Other source not part of this model:**
  - QuizView.jsx and api_analysis_endpoint.py;
  - the render-only components (Dashboard, Login form layout, ProfileModal, selectors);
  - the teacher summary agent and the small tools;
  - console and print logging.
- **Client timers and races** are left out: the interval's cleanup, the 2-second retry, and overlapping requests. A tick is a method call.
- **Case folding** covers ASCII letters only.
- **Python default arguments** are filled by the callers.
- **The `_id` alternative** for the client user id is left out; without `id` or `user_id` the id is absent.
- IngestAgent.KeyMap: its contract says only that each id maps to a question with that id; which one (the last) is stated separately by IngestAgent.KeyMapLastWins.
- GameWidget.FormatTimeInjective: proved for non-negative times only. The timer never shows a negative count.
- ProgressTracker.Tracker.UpdateProgress: reads the clock once for the whole batch, where the source reads it once per update.
- Api.ScoreSession: the percentage is exact. Python's float `int((c / t) * 100)` can be one lower, for example 28 for 29 of 100.
- Api.AnalyzeSession: the weak concepts passed to the recommender are fixed at ["General Understanding"], as in api.py:405. The recommender's reply is an input.

=== FILE: analysis_view.dfy ===
/** The analysis page of the web client: on mount it asks the server once
    for an analysis of the session, shows a fixed analysis when that fails,
    and picks its panels by the overall score. */
module AnalysisView {
  import opened Wrappers
  import opened Transcript
  import Api

  /** Session sent when the page was opened without one. */
  const DefaultSession: SessionData := SessionData(Some("General"), Some("intermediate"), None, Some([]))

  /** Score from which the strengths panel is shown. */
  const PassMark: int := 50

  const Encouragement: string := "Don't give up! Every expert was once a beginner."
  const Praise: string := "Great job! Keep up the good work."

  /** The analysis shown when the request fails. */
  const ClientFallback: Analysis := Analysis(
    0,
    ["Good conceptual understanding", "Clear explanations"],
    ["Need more practice with advanced topics", "Could improve speed"],
    [Note("Review fundamental concepts"), Note("Practice more complex problems"), Note("Focus on time management")])

  /** `analysis?.overall_score ?? 0`. */
  function DisplayScore(analysis: Option<Analysis>): int {
    if analysis.Some? then analysis.value.overallScore else 0
  }

  /** The line under the score: encouragement below the pass mark. */
  function Headline(analysis: Option<Analysis>): (s: string)
    ensures s == Encouragement <==> DisplayScore(analysis) < PassMark
  {
    if DisplayScore(analysis) < PassMark then Encouragement else Praise
  }

  /** The strengths panel is shown from the pass mark on. */
  predicate ShowStrengths(analysis: Option<Analysis>) {
    DisplayScore(analysis) >= PassMark
  }

  /** Exactly one of the strengths panel and the encouragement is shown,
      and neither the missing analysis nor the fallback reaches the panel. */
  lemma PanelsExclusive(analysis: Option<Analysis>)
    ensures ShowStrengths(analysis) <==> Headline(analysis) != Encouragement
    ensures analysis == None || analysis == Some(ClientFallback) ==> !ShowStrengths(analysis)
  {
  }

  class Panel {
    const sessionData: Option<SessionData>
    const userId: Option<int>
    var analysis: Option<Analysis>
    var loading: bool
    /** `analysisRequested.current`. */
    var requested: bool
    /** Requests issued since mount. */
    ghost var requests: nat

    /** At most one request per mount, issued exactly when the latch is set. */
    ghost predicate Valid()
      reads this
    {
      requests <= 1 && (requests == 1 <==> requested)
    }

    constructor (sessionData: Option<SessionData>, userId: Option<int>)
      ensures Valid()
      ensures this.sessionData == sessionData && this.userId == userId
      ensures analysis == None && loading && !requested && requests == 0
    {
      this.sessionData := sessionData;
      this.userId := userId;
      analysis := None;
      loading := true;
      requested := false;
      requests := 0;
    }

    /** `generateAnalysis`, run by the effect (possibly more than once): the
        latch is set before the request, so only the first run sends one,
        with the default session when there is none. */
    method Generate() returns (req: Option<Api.AnalyzeRequest>)
      requires Valid()
      modifies this`requested, this`loading, this`requests
      ensures Valid() && requested
      ensures old(requested) ==> req.None? && loading == old(loading) && requests == old(requests)
      ensures !old(requested) ==>
        && req == Some(Api.AnalyzeRequest(Some(sessionData.GetOr(DefaultSession)), userId))
        && loading && requests == 1
    {
      if requested {
        return None;
      }
      requested := true;
      requests := requests + 1;
      loading := true;
      req := Some(Api.AnalyzeRequest(Some(sessionData.GetOr(DefaultSession)), userId));
    }

    /** The reply (`None` on failure): the server's analysis or the fixed
        fallback with score 0; loading ends either way. */
    method Completed(reply: Option<Analysis>)
      requires Valid()
      modifies this`analysis, this`loading
      ensures Valid() && !loading
      ensures analysis == Some(reply.GetOr(ClientFallback))
      ensures reply.None? ==> DisplayScore(analysis) == 0
    {
      analysis := Some(reply.GetOr(ClientFallback));
      loading := false;
    }
  }
}

=== FILE: api.dfy ===
/** The request handlers of the backend that carry rules of their own:
    registration checks, the daily challenge's one-hour cooldown and replay
    guard, and the scoring of a finished chat session. The store is a
    `UserDb`; clocks and the recommendation generator are parameters. */
module Api {
  import opened Wrappers
  import opened Seqs
  import opened Text
  import opened GameService
  import opened UserDatabase
  import opened Transcript

  /** An `HTTPException`: status code and detail message. */
  datatype HttpError = HttpError(status: nat, detail: string)

  /** The only e-mail domain accepted at registration. */
  const AllowedDomain: string := "@gmail.com"
  const MinPasswordLength: nat := 5
  /** Seconds a user waits after an attempt before the next challenge. */
  const CooldownSeconds: nat := 3600

  // ---------------------------------------------------------------- accounts

  /** The request checks `register` makes before the store is consulted. */
  function RegistrationError(email: string, password: string): (e: Option<HttpError>)
    ensures e.None? <==> EndsWith(email, AllowedDomain) && |password| >= MinPasswordLength
    ensures e.Some? ==> e.value.status == 400
  {
    if !EndsWith(email, AllowedDomain) then
      Some(HttpError(400, "Only @gmail.com email addresses are allowed."))
    else if |password| < MinPasswordLength then
      Some(HttpError(400, "Password must be at least 5 characters long."))
    else None
  }

  /** `register`: a rejected e-mail or password leaves the store untouched;
      otherwise the account is created unless the e-mail is taken, and the
      new account can log in with the same password. */
  method Register(db: UserDb, name: string, email: string, password: string, gradeLevel: string)
    returns (r: Result<UserInfo, HttpError>)
    requires db.Valid()
    modifies db
    ensures db.Valid()
    ensures RegistrationError(email, password).Some? ==>
      r == Failure(RegistrationError(email, password).value) && unchanged(db)
    ensures RegistrationError(email, password).None? && old(db.EmailTaken(email)) ==>
      r == Failure(HttpError(400, "Email already registered")) && db.users == old(db.users)
    ensures r.Success? ==>
      && EndsWith(email, AllowedDomain) && |password| >= MinPasswordLength
      && !old(db.EmailTaken(email))
      && db.users == old(db.users) + [UserRow(r.value.id, name, email, db.hash(password), gradeLevel)]
      && db.LoginUser(email, password) == Success(UserInfo(r.value.id, name, email, GradeOrDefault(gradeLevel)))
    ensures db.sessions == old(db.sessions) && db.attempts == old(db.attempts)
  {
    var check := RegistrationError(email, password);
    if check.Some? {
      return Failure(check.value);
    }
    var res := db.RegisterUser(name, email, password, gradeLevel);
    match res
    case Success(info) => r := Success(info);
    case Failure(msg) => r := Failure(HttpError(400, msg));
  }

  /** `login`: the store's answer, with a failure reported as 401. */
  function Login(db: UserDb, email: string, password: string): (r: Result<UserInfo, HttpError>)
    reads db
    ensures r.Success? <==>
      exists i :: 0 <= i < |db.users| && db.users[i].email == email && db.users[i].passwordHash == db.hash(password)
    ensures r.Failure? ==> r.error == HttpError(401, "Invalid credentials")
    ensures r.Success? ==> r.value.email == email && r.value.gradeLevel != ""
    ensures r.Success? <==> db.LoginUser(email, password).Success?
    ensures r.Success? ==> r.value == db.LoginUser(email, password).value
  {
    match db.LoginUser(email, password)
    case Success(info) => Success(info)
    case Failure(msg) => Failure(HttpError(401, msg))
  }

  // ----------------------------------------------------- daily challenge

  /** The body of `/game/current`. */
  datatype GameStatus = GameStatus(
    played: bool,
    game: Game,
    timeRemaining: int,
    windowId: int,
    lastResult: Option<GameResult>)

  /** Seconds from `completedAt` to `nowUtc`, with a negative difference
      (clock skew between the store and the server) counted as 0. */
  function Elapsed(nowUtc: real, completedAt: int): (e: real)
    ensures e >= 0.0 && e >= nowUtc - completedAt as real
    ensures e == 0.0 || e == nowUtc - completedAt as real
  {
    var d := nowUtc - completedAt as real;
    if d < 0.0 then 0.0 else d
  }

  /** A result rebuilt from a stored score: only the score survives, so
      the correct answer is not shown again. */
  function RebuiltResult(score: real): GameResult {
    GameResult(score == 100.0, score, RewardFor(score), "See previous result")
  }

  /** `get_current_game` for `userId`, with the store's clock at `nowUtc`
      (`datetime.utcnow()`) and the game clock at `clock` (`time.time()`,
      whole seconds). The user has played exactly when one of their
      attempts lies less than an hour back. */
  function GetCurrentGame(db: UserDb, userId: int, nowUtc: real, clock: int): (s: GameStatus)
    reads db
    ensures s.played <==>
      exists x :: x in db.attempts && x.userId == userId && nowUtc - x.completedAt as real < CooldownSeconds as real
    ensures s.played ==>
      && 0 <= s.timeRemaining <= CooldownSeconds
      && s.lastResult.Some?
      && (s.lastResult.value.correct <==> s.lastResult.value.score == 100.0)
      && s.lastResult.value.reward == RewardFor(s.lastResult.value.score)
      && db.LastGameAttempt(userId).Some?
      && s.lastResult.value.score == db.LastGameAttempt(userId).value.score
      && s.lastResult.value.correctAnswer == "See previous result"
    ensures s.played ==>
      && db.LastGameAttempt(userId).Some?
      && var e := Elapsed(nowUtc, db.LastGameAttempt(userId).value.completedAt);
         s.timeRemaining as real <= CooldownSeconds as real - e < s.timeRemaining as real + 1.0
    ensures !s.played ==>
      && s.lastResult.None?
      && s.timeRemaining == CurrentGameAt(clock).timeRemaining
      && 1 <= s.timeRemaining <= WindowDuration
    ensures s.windowId == clock / WindowDuration && s.game == GameAt(s.windowId)
  {
    var current := CurrentGameAt(clock);
    var last := db.LastGameAttempt(userId);
    if last.Some? && Elapsed(nowUtc, last.value.completedAt) < CooldownSeconds as real then
      var remaining := CooldownSeconds as real - Elapsed(nowUtc, last.value.completedAt);
      GameStatus(true, current.game, remaining.Floor, current.windowId, Some(RebuiltResult(last.value.score)))
    else
      assert forall x :: x in db.attempts && x.userId == userId ==>
        nowUtc - x.completedAt as real >= CooldownSeconds as real;
      GameStatus(false, current.game, current.timeRemaining, current.windowId, None)
  }

  /** The body of `/game/submit`: each field is absent or a decoded value. */
  datatype SubmitRequest = SubmitRequest(userId: Option<int>, windowId: Option<int>, answer: Option<Answer>)

  /** Python truthiness of an optional integer field. */
  predicate IntTruthy(x: Option<int>) {
    x.Some? && x.value != 0
  }

  /** Python truthiness of a decoded answer: "" and {} are falsy. */
  predicate AnswerTruthy(a: Answer) {
    match a
    case Text(s) => s != ""
    case Dict(entries, _) => |entries| > 0
    case Other(_, truthy) => truthy
  }

  /** `all([user_id, window_id, answer])`. */
  predicate HasRequiredFields(req: SubmitRequest) {
    IntTruthy(req.userId) && IntTruthy(req.windowId) && req.answer.Some? && AnswerTruthy(req.answer.value)
  }

  /** `submit_game`: a request missing a field or replaying a window is
      refused without touching the attempts table; otherwise the answer is
      graded and exactly one attempt with its score is recorded, after
      which the same window counts as played. */
  method SubmitGame(db: UserDb, req: SubmitRequest, now: int) returns (r: Result<GameResult, HttpError>)
    modifies db`attempts
    ensures !HasRequiredFields(req) ==>
      r == Failure(HttpError(400, "Missing required fields")) && db.attempts == old(db.attempts)
    ensures HasRequiredFields(req) && old(db.HasPlayedWindow(req.userId.value, req.windowId.value)) ==>
      r == Failure(HttpError(400, "Already played this round")) && db.attempts == old(db.attempts)
    ensures HasRequiredFields(req) && !old(db.HasPlayedWindow(req.userId.value, req.windowId.value)) ==>
      && r == Success(Grade(GameAt(req.windowId.value), req.answer.value))
      && db.attempts == old(db.attempts) + [AttemptRow(req.userId.value, req.windowId.value, r.value.score, now)]
      && db.HasPlayedWindow(req.userId.value, req.windowId.value)
  {
    if !HasRequiredFields(req) {
      return Failure(HttpError(400, "Missing required fields"));
    }
    var userId, windowId, answer := req.userId.value, req.windowId.value, req.answer.value;
    if db.HasPlayedWindow(userId, windowId) {
      return Failure(HttpError(400, "Already played this round"));
    }
    var result := ValidateAnswer(windowId, answer);
    var _ := db.RecordGameAttempt(userId, windowId, result.score, now);
    r := Success(result);
  }

  // ------------------------------------------------------ session scoring

  /** An ai reply that carries an `is_correct` key. */
  predicate IsFlaggedAi(m: ChatMessage) {
    m.role == "ai" && m.isCorrect.Some?
  }

  /** A flag that counts as correct: `True`, or a string equal to "true" in
      any letter case. */
  predicate FlagCounts(f: Flag) {
    match f
    case FlagBool(b) => b
    case FlagText(s) => Lower(s) == "true"
    case FlagOther => false
  }

  predicate MarkedCorrect(m: ChatMessage) {
    m.isCorrect.Some? && FlagCounts(m.isCorrect.value)
  }

  predicate IsUser(m: ChatMessage) {
    m.role == "user"
  }

  /** The heuristic for unflagged transcripts: an ai message whose text
      contains "correct" but not "incorrect", ignoring case. */
  predicate SoundsCorrect(m: ChatMessage) {
    m.role == "ai" && Contains(Lower(m.content), "correct") && !Contains(Lower(m.content), "incorrect")
  }

  /** The pair (correct, total) `analyze_session` derives from a transcript:
      from the flagged ai replies when there are any, otherwise from the
      heuristic over ai messages against the number of user messages. */
  function Tally(messages: seq<ChatMessage>): (t: (nat, nat))
    ensures Filter(messages, IsFlaggedAi) != [] ==> t.0 <= t.1 && t.1 == |Filter(messages, IsFlaggedAi)|
    ensures Filter(messages, IsFlaggedAi) == [] ==> t.1 == |Filter(messages, IsUser)|
  {
    var flagged := Filter(messages, IsFlaggedAi);
    if flagged != [] then (Count(flagged, MarkedCorrect), |flagged|)
    else (Count(messages, SoundsCorrect), |Filter(messages, IsUser)|)
  }

  /** `int((c / t) * 100)` on exact rationals; 0 for an empty total. */
  function Percent(c: nat, t: nat): nat {
    if t == 0 then 0 else (100 * c) / t
  }

  /** The truncated percentage of `c` out of `t`, raised to 60 when three
      or more answers are correct and it is at most 50. */
  function FlooredScore(c: nat, t: nat): int {
    var s := Percent(c, t);
    if c >= 3 && s <= 50 then 60 else s
  }

  function OverallScore(messages: seq<ChatMessage>): int {
    FlooredScore(Tally(messages).0, Tally(messages).1)
  }

  lemma CancelFactor(a: int, b: int, t: int)
    requires t > 0 && a * t <= b * t
    ensures a <= b
  {
  }

  lemma CancelFactorStrict(a: int, b: int, t: int)
    requires t > 0 && a * t < b * t
    ensures a < b
  {
  }

  /** `Percent` truncates `100 * c / t` and stays within 100 when `c <= t`. */
  lemma PercentBounds(c: nat, t: nat)
    requires t > 0
    ensures Percent(c, t) * t <= 100 * c < (Percent(c, t) + 1) * t
    ensures c <= t ==> Percent(c, t) <= 100
  {
    var q := (100 * c) / t;
    assert 100 * c == q * t + (100 * c) % t;
    if c <= t {
      CancelFactor(q, 100, t);
    }
  }

  /** When no more are correct than were asked, the score is in [0, 100],
      and it is 100 exactly when all are correct. */
  lemma FlooredScoreInRange(c: nat, t: nat)
    requires c <= t
    ensures 0 <= FlooredScore(c, t) <= 100
    ensures t > 0 ==> (FlooredScore(c, t) == 100 <==> c == t)
  {
    if t > 0 {
      PercentBounds(c, t);
      var p := Percent(c, t);
      if c < t {
        assert p * t < 100 * t;
        CancelFactorStrict(p, 100, t);
      } else {
        assert 100 * t < (p + 1) * t;
        CancelFactorStrict(100, p + 1, t);
      }
    }
  }

  /** With flagged replies, the score is a percentage in [0, 100], and it is
      100 exactly when every flag counts as correct. */
  lemma FlaggedScoreInRange(messages: seq<ChatMessage>)
    requires Filter(messages, IsFlaggedAi) != []
    ensures 0 <= OverallScore(messages) <= 100
    ensures OverallScore(messages) == 100 <==> Tally(messages).0 == Tally(messages).1
  {
    FlooredScoreInRange(Tally(messages).0, Tally(messages).1);
  }

  /** The score is 0 for an empty total unless the floor lifts it, three or
      more correct answers always give more than 50, and otherwise the
      score never rounds up. */
  lemma ScoreFloor(c: nat, t: nat)
    ensures t == 0 && c < 3 ==> FlooredScore(c, t) == 0
    ensures c >= 3 ==> FlooredScore(c, t) > 50
    ensures c < 3 && t > 0 ==> FlooredScore(c, t) * t <= 100 * c
  {
    if t > 0 {
      PercentBounds(c, t);
    }
  }

  /** An ai message saying just "correct" passes the heuristic. */
  lemma BareCorrectSoundsCorrect()
    ensures SoundsCorrect(ChatMessage("ai", "correct", None))
  {
    assert Lower("correct") == "correct";
    assert OccursAt("correct", "correct", 0);
    ContainsIffOccurs("correct", "correct");
    ContainsNeedsRoom("correct", "incorrect");
  }

  /** Without flags, ai messages are weighed against user messages, so the
      score can exceed 100: two approving ai messages around one user
      answer give 200. */
  lemma UnflaggedScoreCanExceedHundred()
    ensures OverallScore([
      ChatMessage("ai", "correct", None),
      ChatMessage("user", "x", None),
      ChatMessage("ai", "correct", None)]) == 200
  {
    var a := ChatMessage("ai", "correct", None);
    var u := ChatMessage("user", "x", None);
    var m := [a, u, a];
    BareCorrectSoundsCorrect();
    assert |u.role| != |a.role|;
    assert !SoundsCorrect(u) && !IsFlaggedAi(u);
    assert a.isCorrect.None?;
    assert m[..2][..1] == [a] && m[..2] == [a, u] && m[..1] == [a];
    assert Filter(m, IsFlaggedAi) == [];
    assert Count(m[..1], SoundsCorrect) == 1;
    assert Count(m[..2], SoundsCorrect) == 1;
    assert Count(m, SoundsCorrect) == 2;
    assert Filter(m, IsUser) == [u];
  }

  /** The loop over the flagged replies: count the flags that are `True`
      or the string "true" in any case. */
  method CountFlaggedCorrect(aiResponses: seq<ChatMessage>) returns (correct: nat)
    requires forall i :: 0 <= i < |aiResponses| ==> IsFlaggedAi(aiResponses[i])
    ensures correct == Count(aiResponses, MarkedCorrect)
  {
    correct := 0;
    var i := 0;
    while i < |aiResponses|
      invariant 0 <= i <= |aiResponses|
      invariant correct == Count(aiResponses[..i], MarkedCorrect)
    {
      var flag := aiResponses[i].isCorrect.value;
      CountPrefixStep(aiResponses, MarkedCorrect, i);
      if flag == FlagBool(true) {
        correct := correct + 1;
      } else if flag.FlagText? && Lower(flag.s) == "true" {
        correct := correct + 1;
      }
      i := i + 1;
    }
    assert aiResponses[..i] == aiResponses;
  }

  /** The fallback loop over all messages: count the ai messages that
      sound approving. */
  method CountSoundsCorrect(messages: seq<ChatMessage>) returns (correct: nat)
    ensures correct == Count(messages, SoundsCorrect)
  {
    correct := 0;
    var i := 0;
    while i < |messages|
      invariant 0 <= i <= |messages|
      invariant correct == Count(messages[..i], SoundsCorrect)
    {
      CountPrefixStep(messages, SoundsCorrect, i);
      if messages[i].role == "ai" {
        var content := Lower(messages[i].content);
        if Contains(content, "correct") && !Contains(content, "incorrect") {
          correct := correct + 1;
        }
      }
      i := i + 1;
    }
    assert messages[..i] == messages;
  }

  /** The scoring steps of `analyze_session`, proved to compute `Tally`
      and `OverallScore`. */
  method ScoreSession(messages: seq<ChatMessage>) returns (score: int, correct: nat, total: nat)
    ensures (correct, total) == Tally(messages)
    ensures score == OverallScore(messages)
  {
    var aiResponses := Filter(messages, IsFlaggedAi);
    if aiResponses != [] {
      total := |aiResponses|;
      assert forall i :: 0 <= i < |aiResponses| ==> aiResponses[i] in aiResponses;
      correct := CountFlaggedCorrect(aiResponses);
    } else {
      total := |Filter(messages, IsUser)|;
      correct := CountSoundsCorrect(messages);
    }
    if total == 0 {
      score := 0;
    } else {
      score := (100 * correct) / total;
    }
    if correct >= 3 && score <= 50 {
      score := 60;
    }
  }

  /** The body of `/chat/analyze`. */
  datatype AnalyzeRequest = AnalyzeRequest(sessionData: Option<SessionData>, userId: Option<int>)

  /** What the recommendation generator gave back: it raised (its reply was
      not an object), or an object with or without a `recommendations` key. */
  datatype RecommendationReply = Raised | Replied(recommendations: Option<seq<Recommendation>>)

  const FixedStrengths: seq<string> := [
    "Good engagement with the material",
    "Thoughtful responses to questions",
    "Strong conceptual understanding"]

  const FixedWeaknesses: seq<string> := [
    "Could benefit from more practice",
    "Review fundamental concepts for better retention"]

  /** The three search suggestions used when the generator fails. */
  function FallbackRecommendations(subject: string): (r: seq<Recommendation>)
    ensures |r| == 3 && forall i :: 0 <= i < 3 ==> r[i].Link? && StartsWith(r[i].query, subject)
  {
    [Link(subject + " Fundamentals", "Crash Course", subject + " crash course"),
     Link("Advanced " + subject + " Concepts", "Khan Academy", subject + " khan academy"),
     Link(subject + " Practice Problems", "Organic Chemistry Tutor", subject + " practice problems")]
  }

  function Recommendations(subject: string, reply: RecommendationReply): seq<Recommendation> {
    match reply
    case Raised => FallbackRecommendations(subject)
    case Replied(recs) => recs.GetOr([])
  }

  /** `analyze_session`: score the transcript, save the session when a
      (truthy) user id is given, and report fixed strengths and weaknesses
      with the generated recommendations. `dataJson` is the stored JSON text
      of the session object; `now` stamps the saved row. */
  method AnalyzeSession(db: UserDb, req: AnalyzeRequest, dataJson: string, reply: RecommendationReply, now: int)
    returns (a: Analysis)
    modifies db`sessions
    ensures var data := req.sessionData.GetOr(NoSessionData);
      && a.overallScore == OverallScore(data.messages.GetOr([]))
      && (IntTruthy(req.userId) ==>
            db.sessions == old(db.sessions) + [SessionRow(req.userId.value, data.subject.GetOr("General"),
                                                          data.difficulty.GetOr("intermediate"), a.overallScore, now, dataJson)])
      && (!IntTruthy(req.userId) ==> db.sessions == old(db.sessions))
      && a.recommendations == Recommendations(data.subject.GetOr("General"), reply)
    ensures a.strengths == FixedStrengths && a.weaknesses == FixedWeaknesses
  {
    var data := req.sessionData.GetOr(NoSessionData);
    var messages := data.messages.GetOr([]);
    var difficulty := data.difficulty.GetOr("intermediate");
    var subject := data.subject.GetOr("General");
    var score, _, _ := ScoreSession(messages);
    if IntTruthy(req.userId) {
      db.SaveSession(req.userId.value, subject, difficulty, score, dataJson, now);
    }
    a := Analysis(score, FixedStrengths, FixedWeaknesses, Recommendations(subject, reply));
  }
}

=== FILE: app.dfy ===
/** The web client's top-level router: the signed-in user, the current view,
    the subject and difficulty chosen for a chat, the session handed to the
    analysis page, the mobile sidebar, and the user persisted in the
    browser's storage. */
module App {
  import opened Wrappers
  import opened Text
  import opened Transcript

  /** Grade level shown to the chat when the user has none. */
  const DefaultGradeLevel: string := "College Year 1"

  datatype View = LoginView | RegisterView | DashboardView | SubjectView | DifficultyView | ChatView | ResultView

  /** The signed-in user as the server reported it: a login reply carries
      `id`, a registration reply `user_id`. */
  datatype ClientUser = ClientUser(id: Option<int>, userId: Option<int>, gradeLevel: Option<string>)

  /** What the router renders in its content area. */
  datatype Page =
    | LoginPage
    | RegisterPage
    | DashboardPage
    | SubjectPage
    | DifficultyPage
    | ChatPage(subject: Option<string>, difficulty: Option<string>, gradeLevel: string)
    | AnalysisPage(sessionData: Option<SessionData>, userId: Option<int>)
    | EmptyPage

  /** `user.id || user.user_id || user._id`: the first truthy id; this
      backend never sends `_id`, so the chain ends in `undefined`. */
  function UserIdOf(u: ClientUser): (r: Option<int>)
    ensures r.Some? ==> r.value != 0 && (r == u.id || r == u.userId)
    ensures r.None? <==> (u.id.None? || u.id.value == 0) && (u.userId.None? || u.userId.value == 0)
  {
    if u.id.Some? && u.id.value != 0 then u.id
    else if u.userId.Some? && u.userId.value != 0 then u.userId
    else None
  }

  /** `user.grade_level || "College Year 1"`. */
  function GradeLevelOf(u: ClientUser): (g: string)
    ensures g != ""
    ensures u.gradeLevel.Some? && u.gradeLevel.value != "" ==> g == u.gradeLevel.value
  {
    if u.gradeLevel.Some? && u.gradeLevel.value != "" then u.gradeLevel.value else DefaultGradeLevel
  }

  /** The difficulty a level button passes: its label in lower case. */
  function DifficultyOf(caption: string): (d: string)
    ensures |d| == |caption|
  {
    Lower(caption)
  }

  lemma DifficultyLabels()
    ensures DifficultyOf("Beginner") == "beginner"
    ensures DifficultyOf("Intermediate") == "intermediate"
    ensures DifficultyOf("Advanced") == "advanced"
  {
  }

  class Router {
    var user: Option<ClientUser>
    var view: View
    var selectedSubject: Option<string>
    var selectedDifficulty: Option<string>
    var sessionData: Option<SessionData>
    var sidebarOpen: bool
    /** The `tutorMateUser` key of the browser's storage. */
    var stored: Option<ClientUser>

    /** A signed-in user is the persisted one; the chat has its subject and
        difficulty, and the analysis page its session. */
    ghost predicate Valid()
      reads this
    {
      && (user.Some? ==> stored == user)
      && (view == ChatView ==> selectedSubject.Some? && selectedDifficulty.Some?)
      && (view == ResultView ==> sessionData.Some?)
    }

    /** First render, before the storage is read. */
    constructor (stored: Option<ClientUser>)
      ensures Valid()
      ensures user == None && view == LoginView && selectedSubject == None && selectedDifficulty == None
      ensures sessionData == None && !sidebarOpen && this.stored == stored
    {
      user := None;
      view := LoginView;
      selectedSubject := None;
      selectedDifficulty := None;
      sessionData := None;
      sidebarOpen := false;
      this.stored := stored;
    }

    /** The mount effect: a stored user is signed in on the dashboard. */
    method LoadStoredUser()
      requires Valid()
      modifies this`user, this`view
      ensures Valid()
      ensures stored.Some? ==> user == stored && view == DashboardView
      ensures stored.None? ==> user == old(user) && view == old(view)
    {
      if stored.Some? {
        user := stored;
        view := DashboardView;
      }
    }

    /** The page rendered: without a user only the registration form (when
        asked for) or the login form. */
    function CurrentPage(): (p: Page)
      reads this
      ensures user.None? ==> (p == RegisterPage <==> view == RegisterView) && (p != RegisterPage ==> p == LoginPage)
      ensures user.Some? && view == ChatView ==> p.ChatPage? && p.gradeLevel == GradeLevelOf(user.value)
    {
      if user.None? then
        if view == RegisterView then RegisterPage else LoginPage
      else
        match view
        case DashboardView => DashboardPage
        case SubjectView => SubjectPage
        case DifficultyView => DifficultyPage
        case ChatView => ChatPage(selectedSubject, selectedDifficulty, GradeLevelOf(user.value))
        case ResultView => AnalysisPage(sessionData, UserIdOf(user.value))
        case _ => EmptyPage
    }

    /** The "register" and "sign in" links of the auth forms. */
    method SwitchAuthForm(toRegister: bool)
      requires Valid() && user.None?
      modifies this`view
      ensures Valid() && view == (if toRegister then RegisterView else LoginView)
    {
      view := if toRegister then RegisterView else LoginView;
    }

    /** `handleLogin` (also the registration callback): sign in, persist the
        user and open the dashboard. */
    method HandleLogin(u: ClientUser)
      requires Valid()
      modifies this`user, this`stored, this`view
      ensures Valid()
      ensures user == Some(u) && stored == Some(u) && view == DashboardView
    {
      user := Some(u);
      stored := Some(u);
      view := DashboardView;
    }

    /** `handleLogout`: forget the user and every choice, close the sidebar
        and return to the login form. */
    method HandleLogout()
      modifies this
      ensures Valid()
      ensures user == None && stored == None && view == LoginView
      ensures selectedSubject == None && selectedDifficulty == None && sessionData == None && !sidebarOpen
    {
      user := None;
      stored := None;
      view := LoginView;
      selectedSubject := None;
      selectedDifficulty := None;
      sessionData := None;
      sidebarOpen := false;
    }

    /** `handleSubjectSelect`: remember the subject, ask for a difficulty. */
    method HandleSubjectSelect(subject: string)
      requires Valid()
      modifies this`selectedSubject, this`view, this`sidebarOpen
      ensures Valid()
      ensures selectedSubject == Some(subject) && view == DifficultyView && !sidebarOpen
    {
      selectedSubject := Some(subject);
      view := DifficultyView;
      sidebarOpen := false;
    }

    /** `handleDifficultySelect`, reached from the difficulty page after a
        subject was chosen: remember the difficulty, open the chat. */
    method HandleDifficultySelect(difficulty: string)
      requires Valid() && selectedSubject.Some?
      modifies this`selectedDifficulty, this`view, this`sidebarOpen
      ensures Valid()
      ensures selectedDifficulty == Some(difficulty) && view == ChatView && !sidebarOpen
      ensures selectedSubject == old(selectedSubject)
    {
      selectedDifficulty := Some(difficulty);
      view := ChatView;
      sidebarOpen := false;
    }

    /** `handleChatComplete`: keep the session, open the analysis. */
    method HandleChatComplete(data: SessionData)
      requires Valid()
      modifies this`sessionData, this`view
      ensures Valid()
      ensures sessionData == Some(data) && view == ResultView
    {
      sessionData := Some(data);
      view := ResultView;
    }

    /** `handleViewChange`, which the sidebar, the dashboard and the
        analysis page call with the dashboard or the subject list: switch
        and close the sidebar. */
    method HandleViewChange(newView: View)
      requires Valid() && (newView == DashboardView || newView == SubjectView)
      modifies this`view, this`sidebarOpen
      ensures Valid()
      ensures view == newView && !sidebarOpen
    {
      view := newView;
      sidebarOpen := false;
    }

    method SetSidebar(open: bool)
      modifies this`sidebarOpen
      ensures sidebarOpen == open
    {
      sidebarOpen := open;
    }
  }
}

=== FILE: chat_agent.dfy ===
/** The chat tutor: it opens a session, judges a student's answer against
    the recent conversation, and asks for video recommendations. Every call
    hands the model a prompt built from its inputs and decodes the cleaned
    reply; unlike the other agents, a reply that does not decode becomes an
    error. The wording of the prompts is not modelled, only what goes into
    them: the model is a function of a `ChatPrompt`. */
module ChatAgent {
  import opened Wrappers
  import opened Text
  import opened ModelOutput
  import opened Transcript

  /** The instruction for each difficulty setting. */
  const LevelPrompts: map<string, string> := map[
    "beginner" := "Ask simple, foundational questions.",
    "intermediate" := "Ask conceptual questions.",
    "advanced" := "Ask challenging, advanced questions."]

  /** How many of the latest transcript entries a turn's prompt carries. */
  const HistoryWindowSize: nat := 5

  /** What stands for an empty list of weak concepts. */
  const NoConcepts: string := "general topics"

  /** The reply of every call without a key or the client module. */
  const SimulationReply: map<string, Field> := map[
    "message" := Str("Simulation: API Key missing."),
    "question" := Str("Simulation Question?"),
    "feedback" := Str("Simulation Feedback"),
    "next_question" := Str("Simulation Next Question"),
    "is_correct" := Bool(true),
    "concept" := Str("Simulation"),
    "difficulty" := Str("Easy")]

  /** The inputs of the three prompts. */
  datatype ChatPrompt =
    | StartPrompt(subject: string, gradeLevel: string, difficulty: string, instruction: string)
    | TurnPrompt(subject: string, gradeLevel: string, difficulty: string, history: seq<ChatMessage>, lastAnswer: string)
    | RecommendationPrompt(subject: string, difficulty: string, concepts: string)

  /** The instruction for a setting; an unknown setting is treated as
      "intermediate". */
  function LevelPrompt(difficulty: string): (p: string)
    ensures p in LevelPrompts.Values
    ensures difficulty in LevelPrompts ==> p == LevelPrompts[difficulty]
    ensures p != LevelPrompts["intermediate"] ==> difficulty == "beginner" || difficulty == "advanced"
  {
    assert LevelPrompts["intermediate"] in LevelPrompts.Values;
    if difficulty in LevelPrompts then LevelPrompts[difficulty] else LevelPrompts["intermediate"]
  }

  /** `history[-5:]`: the latest entries, at most five, in order. */
  function HistoryWindow<T>(history: seq<T>): (w: seq<T>)
    ensures |w| == if |history| < HistoryWindowSize then |history| else HistoryWindowSize
    ensures history == history[..|history| - |w|] + w
  {
    var n := if |history| < HistoryWindowSize then |history| else HistoryWindowSize;
    history[|history| - n..]
  }

  /** One more entry enters the window; when the window was full, its
      oldest entry leaves. */
  lemma WindowSlides<T>(history: seq<T>, x: T)
    ensures |history| < HistoryWindowSize ==> HistoryWindow(history + [x]) == HistoryWindow(history) + [x]
    ensures |history| >= HistoryWindowSize ==> HistoryWindow(history + [x]) == HistoryWindow(history)[1..] + [x]
  {
    var h := history + [x];
    if |history| < HistoryWindowSize {
      assert HistoryWindow(h) == h == history + [x];
    } else {
      var w := HistoryWindow(h);
      var v := HistoryWindow(history);
      assert |w| == |v| == HistoryWindowSize;
      forall i | 0 <= i < HistoryWindowSize
        ensures w[i] == (v[1..] + [x])[i]
      {
        assert w[i] == h[|h| - HistoryWindowSize + i];
        if i < HistoryWindowSize - 1 {
          assert v[i + 1] == history[|history| - HistoryWindowSize + i + 1];
        }
      }
    }
  }

  /** The weak concepts as they enter the recommendation prompt. */
  function ConceptsText(weakConcepts: seq<string>): (s: string)
    ensures weakConcepts == [] ==> s == NoConcepts
  {
    if weakConcepts == [] then NoConcepts else JoinConcepts(weakConcepts)
  }

  /** Concept names without commas can be read back from the text. */
  lemma ConceptsTextRoundTrip(weakConcepts: seq<string>)
    requires weakConcepts != [] && forall k :: 0 <= k < |weakConcepts| ==> Avoids(weakConcepts[k], ',')
    ensures Split(ConceptsText(weakConcepts), ", ") == weakConcepts
  {
    JoinConceptsSplitsBack(weakConcepts);
  }

  /** `_generate`: the simulation reply without a key or the client module;
      otherwise the cleaned reply is decoded, and an exception of the call
      or of the decoder becomes `{"error": message}`. A chat reply is never
      kept as raw text. */
  function Generate<J>(configured: bool, llm: ChatPrompt -> LlmReply, prompt: ChatPrompt,
                       decode: string -> Result<J, string>): (r: AgentReply<J>)
    ensures r.Fixed? <==> !configured
    ensures !configured ==> r.fields == SimulationReply
    ensures r.Answered? ==> r.parsed.Decoded? && llm(prompt).Replied?
                            && decode(CleanResponse(llm(prompt).text)) == Success(r.parsed.value)
    ensures r.Failed? <==> configured && (llm(prompt).Raised? || decode(CleanResponse(llm(prompt).text)).Failure?)
    ensures r.Failed? && llm(prompt).Raised? ==> r.error == llm(prompt).message
    ensures r.Failed? && llm(prompt).Replied? ==> r.error == decode(CleanResponse(llm(prompt).text)).error
  {
    if !configured then Fixed(SimulationReply)
    else
      match llm(prompt)
      case Raised(e) => Failed(e)
      case Replied(text) =>
        match decode(CleanResponse(text))
        case Success(v) => Answered(Decoded(v))
        case Failure(e) => Failed(e)
  }

  /** A fenced reply is decoded from the text between the fences; if that
      text does not decode, the decoder's message is the error. */
  lemma GenerateFencedReply<J>(llm: ChatPrompt -> LlmReply, prompt: ChatPrompt, before: string, body: string,
                               after: string, decode: string -> Result<J, string>)
    requires AllPyWhitespace(before) && AllPyWhitespace(after)
    requires llm(prompt) == Replied(before + JsonFence + body + Fence + after)
    ensures decode(body).Success? ==> Generate(true, llm, prompt, decode) == Answered(Decoded(decode(body).value))
    ensures decode(body).Failure? ==> Generate(true, llm, prompt, decode) == Failed(decode(body).error)
  {
    CleanFencedReply(before, body, after);
  }

  /** `start_session`: the model is asked for a greeting and a first
      question, given the subject, the grade and the instruction for the
      difficulty. */
  function StartSession<J>(subject: string, difficulty: string, gradeLevel: string, configured: bool,
                           llm: ChatPrompt -> LlmReply, decode: string -> Result<J, string>): (r: AgentReply<J>)
    ensures r.Fixed? <==> !configured
    ensures !configured ==> r == Fixed(SimulationReply)
    ensures var p := StartPrompt(subject, gradeLevel, difficulty, LevelPrompt(difficulty));
            && (r.Failed? <==> configured && (llm(p).Raised? || decode(CleanResponse(llm(p).text)).Failure?))
            && (r.Answered? ==> r.parsed.Decoded? && llm(p).Replied?
                                && decode(CleanResponse(llm(p).text)) == Success(r.parsed.value))
            && (r.Failed? && llm(p).Raised? ==> r.error == llm(p).message)
            && (r.Failed? && llm(p).Replied? ==> r.error == decode(CleanResponse(llm(p).text)).error)
  {
    Generate(configured, llm, StartPrompt(subject, gradeLevel, difficulty, LevelPrompt(difficulty)), decode)
  }

  /** A difficulty without an instruction of its own is asked with the
      "intermediate" instruction; the setting itself still enters the prompt. */
  lemma UnknownDifficultyAsksIntermediate<J>(subject: string, difficulty: string, gradeLevel: string, configured: bool,
                                             llm: ChatPrompt -> LlmReply, decode: string -> Result<J, string>)
    requires difficulty !in LevelPrompts
    ensures StartSession(subject, difficulty, gradeLevel, configured, llm, decode)
            == Generate(configured, llm, StartPrompt(subject, gradeLevel, difficulty, LevelPrompts["intermediate"]), decode)
  {
  }

  /** `process_response`: the model judges the last answer, seeing only the
      latest five transcript entries. */
  function ProcessResponse<J>(subject: string, history: seq<ChatMessage>, lastAnswer: string, difficulty: string,
                              gradeLevel: string, configured: bool, llm: ChatPrompt -> LlmReply,
                              decode: string -> Result<J, string>): (r: AgentReply<J>)
    ensures !configured ==> r == Fixed(SimulationReply)
    ensures configured ==>
              r == Generate(true, llm, TurnPrompt(subject, gradeLevel, difficulty, HistoryWindow(history), lastAnswer), decode)
  {
    Generate(configured, llm, TurnPrompt(subject, gradeLevel, difficulty, HistoryWindow(history), lastAnswer), decode)
  }

  /** Entries older than the latest five do not change a turn's outcome. */
  lemma OldHistoryIsIgnored<J>(subject: string, older: seq<ChatMessage>, recent: seq<ChatMessage>, lastAnswer: string,
                               difficulty: string, gradeLevel: string, configured: bool, llm: ChatPrompt -> LlmReply,
                               decode: string -> Result<J, string>)
    requires |recent| >= HistoryWindowSize
    ensures ProcessResponse(subject, older + recent, lastAnswer, difficulty, gradeLevel, configured, llm, decode)
            == ProcessResponse(subject, recent, lastAnswer, difficulty, gradeLevel, configured, llm, decode)
  {
    var h := older + recent;
    assert HistoryWindow(h) == h[|h| - HistoryWindowSize..];
    assert HistoryWindow(recent) == recent[|recent| - HistoryWindowSize..];
    assert h[|h| - HistoryWindowSize..] == recent[|recent| - HistoryWindowSize..];
  }

  /** `generate_recommendations`: the model is asked for videos on the
      weak concepts, or on general topics when there are none. */
  function GenerateRecommendations<J>(subject: string, weakConcepts: seq<string>, difficulty: string, configured: bool,
                                      llm: ChatPrompt -> LlmReply, decode: string -> Result<J, string>): (r: AgentReply<J>)
    ensures r.Fixed? <==> !configured
    ensures !configured ==> r == Fixed(SimulationReply)
    ensures var p := RecommendationPrompt(subject, difficulty, ConceptsText(weakConcepts));
            && (r.Failed? <==> configured && (llm(p).Raised? || decode(CleanResponse(llm(p).text)).Failure?))
            && (r.Answered? ==> r.parsed.Decoded? && llm(p).Replied?
                                && decode(CleanResponse(llm(p).text)) == Success(r.parsed.value))
            && (r.Failed? && llm(p).Raised? ==> r.error == llm(p).message)
            && (r.Failed? && llm(p).Replied? ==> r.error == decode(CleanResponse(llm(p).text)).error)
  {
    Generate(configured, llm, RecommendationPrompt(subject, difficulty, ConceptsText(weakConcepts)), decode)
  }

  /** Without weak concepts the model is asked about "general topics". */
  lemma NoWeakConceptsAskGeneralTopics<J>(subject: string, difficulty: string, configured: bool,
                                          llm: ChatPrompt -> LlmReply, decode: string -> Result<J, string>)
    ensures GenerateRecommendations(subject, [], difficulty, configured, llm, decode)
            == Generate(configured, llm, RecommendationPrompt(subject, difficulty, "general topics"), decode)
  {
  }

  /** With weak concepts whose names have no comma, the concepts the model
      is asked about read back as exactly those names, in order. */
  lemma RecommendationPromptNamesConcepts<J>(subject: string, weakConcepts: seq<string>, difficulty: string,
                                             configured: bool, llm: ChatPrompt -> LlmReply,
                                             decode: string -> Result<J, string>)
    requires weakConcepts != [] && forall k :: 0 <= k < |weakConcepts| ==> Avoids(weakConcepts[k], ',')
    ensures exists c :: Split(c, ", ") == weakConcepts
                        && GenerateRecommendations(subject, weakConcepts, difficulty, configured, llm, decode)
                           == Generate(configured, llm, RecommendationPrompt(subject, difficulty, c), decode)
  {
    ConceptsTextRoundTrip(weakConcepts);
    var c := ConceptsText(weakConcepts);
    assert Split(c, ", ") == weakConcepts;
  }
}

=== FILE: chat_interface.dfy ===
/** The tutoring chat of the web client: it opens a session, sends each
    answer with the transcript so far, counts questions up to five, and hands
    the transcript over for analysis. A request is split into the moment it
    is sent, which records the values the handler captured, and the moment
    its reply (or failure) arrives. */
module ChatInterface {
  import opened Wrappers
  import opened Text
  import opened Transcript

  /** Questions in one session. */
  const MaxQuestions: nat := 5

  const StartFailure: string := "Failed to start session. Please try again."

  /** Body of `/chat/start`. */
  datatype StartRequest = StartRequest(subject: string, difficulty: string, gradeLevel: string)
  /** Reply of `/chat/start`; a missing or empty question reads as "". */
  datatype StartReply = StartReply(message: string, question: Option<string>)

  /** Body of `/chat/message`. */
  datatype MessageRequest = MessageRequest(
    sessionId: string, message: string, history: seq<ChatMessage>, difficulty: string, gradeLevel: string)
  /** Reply of `/chat/message`; an absent field is `undefined` in the client. */
  datatype MessageReply = MessageReply(feedback: Option<string>, nextQuestion: Option<string>, isCorrect: Option<Flag>)

  /** What `handleSend` captured when it sent: the answer, the transcript
      and the question count of that render. */
  datatype Sent = Sent(userMessage: string, before: seq<ChatMessage>, count: nat)

  /** Question count and completion after one reply. */
  datatype Progress = Progress(count: nat, complete: bool)

  /** A template literal renders an absent field as "undefined". */
  function JsText(s: Option<string>): string {
    s.GetOr("undefined")
  }

  function AiMessage(content: string, flag: Option<Flag>): ChatMessage {
    ChatMessage("ai", content, flag)
  }

  function UserMessage(content: string): ChatMessage {
    ChatMessage("user", content, None)
  }

  /** The history sent with a request: role and content of each message. */
  function History(messages: seq<ChatMessage>): (h: seq<ChatMessage>)
    ensures |h| == |messages|
    ensures forall i :: 0 <= i < |h| ==>
              h[i].role == messages[i].role && h[i].content == messages[i].content && h[i].isCorrect.None?
  {
    seq(|messages|, i requires 0 <= i < |messages| => ChatMessage(messages[i].role, messages[i].content, None))
  }

  /** The closing message appended after the last question. */
  function FinalMessage(feedback: Option<string>): string {
    JsText(feedback) + "\n\n\U{1F389} You've completed all 5 questions! Click 'View Results' to see your analysis."
  }

  /** The reply's feedback followed by the next question. */
  function NextText(reply: MessageReply): string {
    JsText(reply.feedback) + "\n\n" + JsText(reply.nextQuestion)
  }

  /** The counter rule: a reply to question five or later completes the
      session, any earlier reply moves on to the next question. */
  function ReplyStep(count: nat): Progress {
    if count >= MaxQuestions then Progress(count, true) else Progress(count + 1, false)
  }

  /** Progress after `k` replies from `count`; once complete the input is
      gone, so nothing further is sent. */
  function AfterReplies(count: nat, k: nat): Progress {
    if k == 0 then Progress(count, false)
    else
      var p := AfterReplies(count, k - 1);
      if p.complete then p else ReplyStep(p.count)
  }

  /** After a successful start (count 1) the count never passes five and the
      session completes exactly at the fifth reply. */
  lemma {:induction false} CompletesOnFifthReply(k: nat)
    ensures AfterReplies(1, k).count == if k < MaxQuestions then 1 + k else MaxQuestions
    ensures AfterReplies(1, k).complete <==> k >= MaxQuestions
  {
    if k > 0 {
      CompletesOnFifthReply(k - 1);
    }
  }

  /** After a failed start (count 0) it takes six replies. */
  lemma {:induction false} CompletesOnSixthReplyAfterFailedStart(k: nat)
    ensures AfterReplies(0, k).count == if k <= MaxQuestions then k else MaxQuestions
    ensures AfterReplies(0, k).complete <==> k > MaxQuestions
  {
    if k > 0 {
      CompletesOnSixthReplyAfterFailedStart(k - 1);
    }
  }

  class ChatSession {
    const subject: string
    const difficulty: string
    const gradeLevel: string
    var messages: seq<ChatMessage>
    var input: string
    var loading: bool
    var questionCount: nat
    var sessionData: SessionData
    var isComplete: bool
    /** The suspended `handleSend`, while its request is out. */
    var pending: Option<Sent>

    /** The count stays within five and is five once complete; while an
        answer is out the input is disabled and the transcript is what the
        handler captured plus the answer. */
    ghost predicate Valid()
      reads this
    {
      && questionCount <= MaxQuestions
      && (isComplete ==> questionCount == MaxQuestions)
      && (pending.Some? ==>
            && loading
            && pending.value.count == questionCount
            && messages == pending.value.before + [UserMessage(pending.value.userMessage)])
    }

    constructor (subject: string, difficulty: string, gradeLevel: string)
      ensures Valid()
      ensures this.subject == subject && this.difficulty == difficulty && this.gradeLevel == gradeLevel
      ensures messages == [] && input == "" && !loading && questionCount == 0 && !isComplete && pending == None
      ensures sessionData == SessionData(Some(subject), Some(difficulty), None, Some([]))
    {
      this.subject := subject;
      this.difficulty := difficulty;
      this.gradeLevel := gradeLevel;
      messages := [];
      input := "";
      loading := false;
      questionCount := 0;
      sessionData := SessionData(Some(subject), Some(difficulty), None, Some([]));
      isComplete := false;
      pending := None;
    }

    /** `startSession` sends its request when the chat opens. */
    method StartSession() returns (req: StartRequest)
      requires Valid() && pending.None?
      modifies this`loading
      ensures Valid() && loading
      ensures req == StartRequest(subject, difficulty, gradeLevel)
    {
      loading := true;
      req := StartRequest(subject, difficulty, gradeLevel);
    }

    /** The start reply (`None` on failure): exactly one ai message either
        way; only a success sets the count to 1. */
    method StartCompleted(reply: Option<StartReply>)
      requires Valid() && pending.None? && !isComplete
      modifies this`messages, this`questionCount, this`loading
      ensures Valid() && !loading && |messages| == 1 && messages[0].role == "ai"
      ensures reply.Some? ==>
        && messages == [AiMessage(reply.value.message + " " + reply.value.question.GetOr(""), None)]
        && questionCount == 1
      ensures reply.None? ==> messages == [AiMessage(StartFailure, None)] && questionCount == old(questionCount)
    {
      match reply {
        case Some(r) =>
          messages := [AiMessage(r.message + " " + r.question.GetOr(""), None)];
          questionCount := 1;
        case None =>
          messages := [AiMessage(StartFailure, None)];
      }
      loading := false;
    }

    method SetInput(s: string)
      modifies this`input
      ensures input == s
    {
      input := s;
    }

    /** `handleSend` up to its request: blank input is ignored; otherwise the
        answer is appended at once and sent with the earlier transcript. */
    method Send() returns (req: Option<MessageRequest>)
      requires Valid() && !loading && !isComplete
      modifies this`input, this`messages, this`loading, this`pending
      ensures Valid()
      ensures IsBlankJs(old(input)) ==> req.None? && unchanged(this)
      ensures !IsBlankJs(old(input)) ==>
        && messages == old(messages) + [UserMessage(old(input))]
        && input == "" && loading
        && pending == Some(Sent(old(input), old(messages), questionCount))
        && req == Some(MessageRequest("demo_session", old(input), History(old(messages)), difficulty, gradeLevel))
    {
      if IsBlankJs(input) {
        return None;
      }
      var userMessage := input;
      input := "";
      pending := Some(Sent(userMessage, messages, questionCount));
      req := Some(MessageRequest("demo_session", userMessage, History(messages), difficulty, gradeLevel));
      messages := messages + [UserMessage(userMessage)];
      loading := true;
    }

    /** The reply to the pending answer (`None` on failure). A failure
        keeps the answer in the transcript and the count as it was. A reply
        appends the ai message carrying the verdict, stores the captured
        transcript plus answer and reply as the session's messages, and
        applies the counter rule. */
    method ReplyArrived(reply: Option<MessageReply>)
      requires Valid() && pending.Some?
      modifies this`messages, this`questionCount, this`sessionData, this`isComplete, this`loading, this`pending
      ensures Valid() && !loading && pending.None?
      ensures reply.None? ==>
        messages == old(messages) && questionCount == old(questionCount) &&
        sessionData == old(sessionData) && isComplete == old(isComplete)
      ensures reply.Some? ==>
        var sent := old(pending.value);
        var progress := ReplyStep(sent.count);
        var text := if progress.complete then FinalMessage(reply.value.feedback) else NextText(reply.value);
        var ai := AiMessage(text, reply.value.isCorrect);
        && messages == old(messages) + [ai]
        && sessionData == SessionData(Some(subject), Some(difficulty), None,
                                      Some(sent.before + [UserMessage(sent.userMessage), ai]))
        && questionCount == progress.count
        && isComplete == (old(isComplete) || progress.complete)
    {
      var sent := pending.value;
      pending := None;
      loading := false;
      if reply.None? {
        return;
      }
      var r := reply.value;
      if sent.count >= MaxQuestions {
        var finalMessage := FinalMessage(r.feedback);
        var ai := AiMessage(finalMessage, r.isCorrect);
        messages := messages + [ai];
        sessionData := SessionData(Some(subject), Some(difficulty), None, Some(sent.before + [UserMessage(sent.userMessage), ai]));
        isComplete := true;
        return;
      }
      questionCount := sent.count + 1;
      var ai := AiMessage(NextText(r), r.isCorrect);
      sessionData := SessionData(Some(subject), Some(difficulty), None, Some(sent.before + [UserMessage(sent.userMessage), ai]));
      messages := messages + [ai];
    }

    /** "End Session": the object handed over wraps the session data under a
        `session_data` key, so none of the keys the analysis reads are at
        its top level. */
    function EndSessionPayload(): (p: SessionData)
      reads this
      ensures p.messages.None? && p.subject.None?
    {
      NoSessionData
    }

    /** "View Results": subject, difficulty, grade level and the displayed
        transcript at the top level. */
    function ViewResultsPayload(): (p: SessionData)
      reads this
      ensures p.messages == Some(messages) && p.subject == Some(subject) && p.difficulty == Some(difficulty)
    {
      SessionData(Some(subject), Some(difficulty), Some(gradeLevel), Some(messages))
    }
  }
}

=== FILE: diagnostic_agent.dfy ===
/** The diagnostic agent: it fills the student's normalized responses into
    its prompt template and asks the model which concepts are weak. */
module DiagnosticAgent {
  import opened Wrappers
  import opened Text
  import opened ModelOutput

  const DataSlot: string := "{data}"
  /** The default template is this text followed by the slot. It is
      written in pieces so that the proof that it holds no brace stays
      small. */
  const DefaultLead: string := "Analyze the following " + "student responses and " + "identify weak concepts: "

  /** The reply without a key or the client module. */
  const Offline: map<string, Field> := map[
    "error" := Str("Missing API Key or genai module"),
    "diagnosis" := Str("Simulation: Weakness in Algebra detected.")]

  /** `_load_prompt`: the prompt file's text, or the default template when
      the file is missing; the default ends in the data slot. */
  function LoadPrompt(file: Option<string>): (template: string)
    ensures file.Some? ==> template == file.value
    ensures file.None? ==> EndsWith(template, DataSlot) && StartsWith(template, DefaultLead)
  {
    if file.Some? then file.value else DefaultLead + DataSlot
  }

  /** The lead text holds no `{`, so no slot starts inside it. */
  lemma LeadHasNoBrace()
    ensures Avoids(DefaultLead, '{')
  {
    assert Avoids("Analyze the following ", '{');
    assert Avoids("student responses and ", '{');
    assert Avoids("identify weak concepts: ", '{');
    AvoidsConcat("Analyze the following ", "student responses and ", '{');
    AvoidsConcat("Analyze the following " + "student responses and ", "identify weak concepts: ", '{');
  }


  /** With the default template the data is appended to the lead text. */
  lemma DefaultTemplateTakesData(data: string)
    ensures FillSlot(LoadPrompt(None), DataSlot, data) == DefaultLead + data
  {
    LeadHasNoBrace();
    FillTrailingSlot(DefaultLead, DataSlot, data);
  }

  /** `diagnose`: `data` is the JSON text of the normalized responses. The
      model is asked with every data slot of the template filled. */
  function Diagnose<J>(promptFile: Option<string>, data: string, configured: bool, llm: string -> LlmReply,
                       decode: string -> Result<J, string>): (r: AgentReply<J>)
    ensures r.Fixed? <==> !configured
    ensures !configured ==> r == Fixed(Offline)
    ensures configured ==> (r.Failed? <==> llm(FillSlot(LoadPrompt(promptFile), DataSlot, data)).Raised?)
    ensures r.Failed? ==> r.error == llm(FillSlot(LoadPrompt(promptFile), DataSlot, data)).message
    ensures r.Answered? ==> r.parsed == ParseResponse(llm(FillSlot(LoadPrompt(promptFile), DataSlot, data)).text, decode)
  {
    Ask(configured, Offline, llm, FillSlot(LoadPrompt(promptFile), DataSlot, data), decode)
  }
}

=== FILE: explanation_agent.dfy ===
/** The explanation agent: it fills the names of the weak concepts into its
    prompt template and asks the model to explain them. */
module ExplanationAgent {
  import opened Wrappers
  import opened Text
  import opened ModelOutput

  const ConceptsSlot: string := "{concepts}"
  /** The default template is this text followed by the slot. */
  const DefaultLead: string := "Explain the following concepts: "

  /** The reply without a key or the client module. */
  const Offline: map<string, Field> := map[
    "error" := Str("Missing API Key or genai module"),
    "explanations" := EmptyList]

  /** `_load_prompt`: the prompt file's text, or the default template. */
  function LoadPrompt(file: Option<string>): (template: string)
    ensures file.Some? ==> template == file.value
    ensures file.None? ==> EndsWith(template, ConceptsSlot) && StartsWith(template, DefaultLead)
  {
    if file.Some? then file.value else DefaultLead + ConceptsSlot
  }

  /** The lead text holds no `{`, so no slot starts inside it. */
  lemma LeadHasNoBrace()
    ensures Avoids(DefaultLead, '{')
  {
    assert DefaultLead == "Explain the " + "following concepts: ";
    assert Avoids("Explain the ", '{');
    assert Avoids("following concepts: ", '{');
    AvoidsConcat("Explain the ", "following concepts: ", '{');
  }


  /** With the default template the joined names are appended to the lead. */
  lemma DefaultTemplateTakesConcepts(names: seq<string>)
    ensures FillSlot(LoadPrompt(None), ConceptsSlot, JoinConcepts(names)) == DefaultLead + JoinConcepts(names)
  {
    LeadHasNoBrace();
    FillTrailingSlot(DefaultLead, ConceptsSlot, JoinConcepts(names));
  }

  /** `generate_explanations` for the weak concepts' names. */
  function GenerateExplanations<J>(promptFile: Option<string>, names: seq<string>, configured: bool,
                                   llm: string -> LlmReply, decode: string -> Result<J, string>): (r: AgentReply<J>)
    ensures r.Fixed? <==> !configured
    ensures !configured ==> r == Fixed(Offline)
    ensures configured ==> (r.Failed? <==> llm(FillSlot(LoadPrompt(promptFile), ConceptsSlot, JoinConcepts(names))).Raised?)
    ensures r.Failed? ==> r.error == llm(FillSlot(LoadPrompt(promptFile), ConceptsSlot, JoinConcepts(names))).message
    ensures r.Answered? ==>
              r.parsed == ParseResponse(llm(FillSlot(LoadPrompt(promptFile), ConceptsSlot, JoinConcepts(names))).text, decode)
  {
    Ask(configured, Offline, llm, FillSlot(LoadPrompt(promptFile), ConceptsSlot, JoinConcepts(names)), decode)
  }
}

=== FILE: game_service.dfy ===
/** The daily-challenge game service: a fixed rotation of 20 puzzles, one per
    120-second window, and the grading of an answer for the window's puzzle. */
module GameService {
  import opened Text

  /** Length of one game window, in seconds. */
  const WindowDuration: nat := 120

  datatype McqQuestion = McqQuestion(prompt: string, options: seq<string>, correct: string)

  /** The five puzzle types of the rotation, each with the fields it is shown with. */
  datatype Game =
    | McqSet(id: string, questions: seq<McqQuestion>)
    | LogicPuzzle(id: string, question: string, options: seq<string>, correctAnswer: string)
    | ShapeCount(id: string, question: string, image: string, correctAnswer: string)
    | WordScramble(id: string, question: string, scrambled: string, correctAnswer: string)
    | SentenceBuilder(id: string, question: string, words: seq<string>, correctOrder: seq<string>, correctAnswer: string)

  /** A decoded JSON answer as the server receives it: a string, an object, or
      any other JSON value, given by its Python `str()` rendering and its
      truthiness. An object also carries its `str()` rendering. */
  datatype Answer =
    | Text(s: string)
    | Dict(entries: map<string, Answer>, rendered: string)
    | Other(rendered: string, truthy: bool)

  /** Python `str(answer)`. */
  function PyStr(a: Answer): string {
    match a
    case Text(s) => s
    case Dict(_, rendered) => rendered
    case Other(rendered, _) => rendered
  }

  datatype Reward = Gold | Silver | Bronze | NoReward {
    /** The reward's name in a response body. */
    function Name(): string {
      match this
      case Gold => "Gold"
      case Silver => "Silver"
      case Bronze => "Bronze"
      case NoReward => "None"
    }
    /** Position in the order None < Bronze < Silver < Gold. */
    function Rank(): nat {
      match this
      case NoReward => 0
      case Bronze => 1
      case Silver => 2
      case Gold => 3
    }
  }

  datatype GameResult = GameResult(correct: bool, score: real, reward: Reward, correctAnswer: string)

  datatype CurrentGame = CurrentGame(game: Game, timeRemaining: int, windowId: int)

  /** The rotation, in the order mcq_sets + logic_puzzles + relation_puzzles
      + shape_games + word_games. */
  const AllGames: seq<Game> := [
    McqSet("mcq_science", [
      McqQuestion("Which gas is most abundant in the Earth's atmosphere?", ["Oxygen", "Nitrogen", "Carbon Dioxide", "Argon"], "Nitrogen"),
      McqQuestion("What is the chemical symbol for Gold?", ["Au", "Ag", "Fe", "Pb"], "Au"),
      McqQuestion("What is the powerhouse of the cell?", ["Nucleus", "Mitochondria", "Ribosome", "Endoplasmic Reticulum"], "Mitochondria")]),
    McqSet("mcq_math", [
      McqQuestion("A train running at 60km/hr crosses a pole in 9 seconds. What is the length of the train?", ["120m", "150m", "180m", "324m"], "150m"),
      McqQuestion("What is the square root of 144?", ["10", "11", "12", "14"], "12"),
      McqQuestion("If x + y = 10 and x - y = 2, what is x?", ["4", "5", "6", "8"], "6")]),
    McqSet("mcq_history", [
      McqQuestion("Who was the first President of the United States?", ["Thomas Jefferson", "George Washington", "Abraham Lincoln", "John Adams"], "George Washington"),
      McqQuestion("In which year did World War II end?", ["1942", "1945", "1948", "1950"], "1945"),
      McqQuestion("Who discovered America?", ["Christopher Columbus", "Vasco da Gama", "Marco Polo", "James Cook"], "Christopher Columbus")]),
    McqSet("mcq_tech", [
      McqQuestion("What does CPU stand for?", ["Central Processing Unit", "Computer Personal Unit", "Central Process Utility", "Central Processor Unit"], "Central Processing Unit"),
      McqQuestion("Which language is known as the backbone of the web?", ["Python", "Java", "HTML", "C++"], "HTML"),
      McqQuestion("What does 'HTTP' stand for?", ["HyperText Transfer Protocol", "High Transfer Text Protocol", "HyperText Transmission Protocol", "HyperText Transfer Platform"], "HyperText Transfer Protocol")]),
    McqSet("mcq_vocab", [
      McqQuestion("What is the synonym of 'Happy'?", ["Sad", "Joyful", "Angry", "Bored"], "Joyful"),
      McqQuestion("What is the antonym of 'Ancient'?", ["Old", "Modern", "Antique", "Past"], "Modern"),
      McqQuestion("Choose the correct spelling:", ["Recieve", "Receive", "Riceive", "Receve"], "Receive")]),
    LogicPuzzle("logic_painting",
      "A man looks at a painting in a museum and says, 'Brothers and sisters I have none, but that man's father is my father's son.' Who is in the painting?",
      ["His son", "His father", "Himself", "His nephew"], "His son"),
    LogicPuzzle("logic_boat",
      "You see a boat filled with people, yet there isn\U{2019}t a single person on board. How is that possible?",
      ["It's a ghost ship", "They are all married", "It's a model boat", "They are invisible"], "They are all married"),
    LogicPuzzle("logic_piano",
      "I have keys but no locks. I have a space but no room. You can enter, but can't go outside. What am I?",
      ["A Piano", "A Keyboard", "A Map", "A Crypt"], "A Keyboard"),
    LogicPuzzle("relation_photo",
      "Pointing to a photograph, a lady tells Pramod, 'I am the only daughter of this lady and her son is your maternal uncle.' How is the speaker related to Pramod's father?",
      ["Sister-in-law", "Wife", "Sister", "Mother"], "Wife"),
    LogicPuzzle("relation_girl_boy",
      "A girl introduced a boy as the son of the daughter of the father of her uncle. The boy is the girl's...",
      ["Brother", "Uncle", "Nephew", "Son"], "Brother"),
    LogicPuzzle("relation_husband",
      "If P is the husband of Q and R is the mother of S and Q, what is R to P?",
      ["Mother", "Sister", "Aunt", "Mother-in-law"], "Mother-in-law"),
    ShapeCount("shape_triangle", "How many triangles are in this image?", "/shapes_triangle_1.png", "8"),
    ShapeCount("shape_square", "How many squares are in this image?", "/shapes_squares_1.png", "10"),
    ShapeCount("shape_circle", "How many circles are in this image?", "/shapes_circles_1.png", "7"),
    WordScramble("word_scramble_1", "Unscramble this word: P H Y O S H I L O S", "PHYOSHILOS", "PHILOSOPHY"),
    WordScramble("word_scramble_2", "Unscramble this word: Y M O N O R T S A", "YMONORTSA", "ASTRONOMY"),
    WordScramble("word_scramble_3", "Unscramble this word: E R U T C E T I H C R A", "ERUTCETIHCRA", "ARCHITECTURE"),
    SentenceBuilder("sentence_1", "Form a correct sentence:",
      ["The", "quick", "brown", "fox", "jumps", "over", "the", "lazy", "dog"],
      ["The", "quick", "brown", "fox", "jumps", "over", "the", "lazy", "dog"],
      "The quick brown fox jumps over the lazy dog"),
    SentenceBuilder("sentence_2", "Form a correct sentence:",
      ["makes", "Practice", "perfect", "man", "a"],
      ["Practice", "makes", "a", "man", "perfect"],
      "Practice makes a man perfect"),
    SentenceBuilder("sentence_3", "Form a correct sentence:",
      ["louder", "Actions", "words", "speak", "than"],
      ["Actions", "speak", "louder", "than", "words"],
      "Actions speak louder than words")
  ]

  /** A game `validate_answer` can score: an MCQ set has at least one question. */
  predicate WellFormed(g: Game) {
    g.McqSet? ==> |g.questions| > 0
  }

  lemma AllGamesWellFormed()
    ensures |AllGames| == 20
    ensures forall i :: 0 <= i < |AllGames| ==> WellFormed(AllGames[i])
  {
  }

  lemma GameAtWellFormed(windowId: int)
    ensures WellFormed(GameAt(windowId))
  {
    AllGamesWellFormed();
  }

  /** The game shown in window `windowId`; Python's `%` by a positive divisor
      agrees with Dafny's, so negative ids rotate the same way. */
  function GameAt(windowId: int): Game {
    AllGames[windowId % |AllGames|]
  }

  /** The current window and its game at Unix time `now` (whole seconds). */
  function CurrentGameAt(now: int): (c: CurrentGame)
    ensures c.windowId * WindowDuration <= now < (c.windowId + 1) * WindowDuration
    ensures c.windowId * WindowDuration + (WindowDuration - c.timeRemaining) == now
    ensures 1 <= c.timeRemaining <= WindowDuration
    ensures c.game == GameAt(c.windowId)
  {
    var windowId := now / WindowDuration;
    CurrentGame(GameAt(windowId), WindowDuration - now % WindowDuration, windowId)
  }

  /** The reward tier of a score. */
  function RewardFor(score: real): Reward {
    if score == 100.0 then Gold
    else if score >= 66.0 then Silver
    else if score >= 33.0 then Bronze
    else NoReward
  }

  /** Within 0..100 a higher score never earns a lower tier, and each tier is
      exactly its band of scores. */
  lemma RewardMonotone(a: real, b: real)
    requires a <= b <= 100.0
    ensures RewardFor(a).Rank() <= RewardFor(b).Rank()
  {
  }

  lemma RewardBands(score: real)
    requires 0.0 <= score <= 100.0
    ensures RewardFor(score) == Gold <==> score == 100.0
    ensures RewardFor(score) == Silver <==> 66.0 <= score < 100.0
    ensures RewardFor(score) == Bronze <==> 33.0 <= score < 66.0
    ensures RewardFor(score) == NoReward <==> score < 33.0
  {
  }

  /** Key `str(i)` is present in the answer map and holds question `i`'s correct option. */
  predicate QuestionRight(qs: seq<McqQuestion>, entries: map<string, Answer>, i: nat)
    requires i < |qs|
  {
    NatToString(i) in entries && entries[NatToString(i)] == Text(qs[i].correct)
  }

  /** Number of the first `n` questions answered correctly. */
  function CountCorrect(qs: seq<McqQuestion>, entries: map<string, Answer>, n: nat): (c: nat)
    requires n <= |qs|
    ensures c <= n
  {
    if n == 0 then 0
    else CountCorrect(qs, entries, n - 1) + (if QuestionRight(qs, entries, n - 1) then 1 else 0)
  }

  /** All `n` questions count exactly when each of them is answered correctly. */
  lemma {:induction false} CountCorrectFull(qs: seq<McqQuestion>, entries: map<string, Answer>, n: nat)
    requires n <= |qs|
    ensures CountCorrect(qs, entries, n) == n <==> forall i :: 0 <= i < n ==> QuestionRight(qs, entries, i)
  {
    if n > 0 {
      CountCorrectFull(qs, entries, n - 1);
    }
  }

  /** Number of questions a (possibly non-object) answer gets right; anything
      but an object gets none. */
  function McqCount(qs: seq<McqQuestion>, a: Answer): nat {
    if a.Dict? then CountCorrect(qs, a.entries, |qs|) else 0
  }

  /** The score of `c` right out of `n`, as a percentage. */
  function McqScore(c: nat, n: nat): real
    requires 0 < n
  {
    (c as real / n as real) * 100.0
  }

  lemma McqScoreRange(c: nat, n: nat)
    requires c <= n && 0 < n
    ensures 0.0 <= McqScore(c, n) <= 100.0
    ensures McqScore(c, n) == 100.0 <==> c == n
  {
    var f := c as real / n as real;
    assert f * n as real == c as real;
    assert f <= 1.0;
    assert f == 1.0 <==> c == n;
  }

  /** The grade `validate_answer` gives `answer` for game `g`. */
  function Grade(g: Game, answer: Answer): GameResult
    requires WellFormed(g)
  {
    match g
    case McqSet(_, qs) =>
      var score := McqScore(McqCount(qs, answer), |qs|);
      GameResult(score == 100.0, score, RewardFor(score), "All correct answers required.")
    case LogicPuzzle(_, _, _, expected) =>
      PassFail(answer == Text(expected), expected)
    case ShapeCount(_, _, _, expected) =>
      PassFail(Strip(PyStr(answer)) == expected, expected)
    case WordScramble(_, _, _, expected) =>
      PassFail(Upper(Strip(PyStr(answer))) == Upper(expected), expected)
    case SentenceBuilder(_, _, _, _, expected) =>
      PassFail(Strip(PyStr(answer)) == expected, expected)
  }

  /** The result of an all-or-nothing game. */
  function PassFail(correct: bool, expected: string): GameResult {
    var score := if correct then 100.0 else 0.0;
    GameResult(correct, score, RewardFor(score), expected)
  }

  /** What every grade satisfies: correct exactly at a full score, scores in
      0..100, all-or-nothing outside MCQ sets, the reward is the score's tier,
      and the displayed answer is the game's own. */
  lemma GradeFacts(g: Game, answer: Answer)
    requires WellFormed(g)
    ensures Grade(g, answer).correct <==> Grade(g, answer).score == 100.0
    ensures 0.0 <= Grade(g, answer).score <= 100.0
    ensures !g.McqSet? ==> Grade(g, answer).score == 0.0 || Grade(g, answer).score == 100.0
    ensures Grade(g, answer).reward == RewardFor(Grade(g, answer).score)
    ensures Grade(g, answer).correctAnswer == if g.McqSet? then "All correct answers required." else g.correctAnswer
  {
    if g.McqSet? {
      McqScoreRange(McqCount(g.questions, answer), |g.questions|);
    }
  }

  /** An MCQ set is passed exactly when the answer is an object holding, under
      each key `str(i)`, question `i`'s correct option; any other answer value
      scores 0. */
  lemma McqAllOrPartial(g: Game, answer: Answer)
    requires g.McqSet? && WellFormed(g)
    ensures Grade(g, answer).correct <==>
      answer.Dict? && forall i :: 0 <= i < |g.questions| ==> QuestionRight(g.questions, answer.entries, i)
    ensures !answer.Dict? ==> Grade(g, answer).score == 0.0
  {
    McqScoreRange(McqCount(g.questions, answer), |g.questions|);
    if answer.Dict? {
      CountCorrectFull(g.questions, answer.entries, |g.questions|);
    }
  }

  /** A logic puzzle needs the exact option string: no trimming, no case folding. */
  lemma LogicNeedsExactAnswer(g: Game, answer: Answer)
    requires g.LogicPuzzle?
    ensures Grade(g, answer).correct <==> answer == Text(g.correctAnswer)
  {
  }

  /** A word scramble ignores surrounding whitespace and letter case. */
  lemma WordScrambleIgnoresPaddingAndCase(g: Game, p: string, s: string, q: string)
    requires g.WordScramble?
    requires AllPyWhitespace(p) && AllPyWhitespace(q)
    ensures Grade(g, Text(p + s + q)) == Grade(g, Text(s))
    ensures Grade(g, Text(Lower(s))) == Grade(g, Text(s))
  {
    StripIgnoresPadding(p, s, q);
    StripLower(s);
    UpperIgnoresCase(Strip(s));
  }

  /** Shape counts and sentences ignore surrounding whitespace but not case. */
  lemma TrimmedGamesIgnorePadding(g: Game, p: string, s: string, q: string)
    requires g.ShapeCount? || g.SentenceBuilder?
    requires AllPyWhitespace(p) && AllPyWhitespace(q)
    ensures Grade(g, Text(p + s + q)) == Grade(g, Text(s))
    ensures Grade(g, Text(s)).correct <==> Strip(s) == g.correctAnswer
  {
    StripIgnoresPadding(p, s, q);
  }

  /** Grade `answer` for the game of window `windowId`, as `validate_answer`
      does: local results are assigned per game type, the MCQ set is scored
      by counting right answers in a loop, then the reward is chosen. */
  method ValidateAnswer(windowId: int, answer: Answer) returns (r: GameResult)
    ensures r == Grade(GameAt(windowId), answer)
    ensures r.correct <==> r.score == 100.0
    ensures 0.0 <= r.score <= 100.0
  {
    var game := GameAt(windowId);
    GameAtWellFormed(windowId);
    r := GradeGame(game, answer);
    GradeFacts(game, answer);
  }

  /** The body of `validate_answer` once the game is chosen. */
  method GradeGame(game: Game, answer: Answer) returns (r: GameResult)
    requires WellFormed(game)
    ensures r == Grade(game, answer)
  {
    var isCorrect := false;
    var score := 0.0;
    var reward := NoReward;
    var display := "";
    match game {
      case McqSet(_, qs) =>
        var correctCount := 0;
        if answer.Dict? {
          correctCount := CountRight(qs, answer.entries);
        }
        score := (correctCount as real / |qs| as real) * 100.0;
        isCorrect := score == 100.0;
        display := "All correct answers required.";
      case LogicPuzzle(_, _, _, expected) =>
        isCorrect := answer == Text(expected);
        score := if isCorrect then 100.0 else 0.0;
        display := expected;
      case ShapeCount(_, _, _, expected) =>
        isCorrect := Strip(PyStr(answer)) == expected;
        score := if isCorrect then 100.0 else 0.0;
        display := expected;
      case WordScramble(_, _, _, expected) =>
        isCorrect := Upper(Strip(PyStr(answer))) == Upper(expected);
        score := if isCorrect then 100.0 else 0.0;
        display := expected;
      case SentenceBuilder(_, _, _, _, expected) =>
        isCorrect := Strip(PyStr(answer)) == expected;
        score := if isCorrect then 100.0 else 0.0;
        display := expected;
    }
    if score == 100.0 {
      reward := Gold;
    } else if score >= 66.0 {
      reward := Silver;
    } else if score >= 33.0 {
      reward := Bronze;
    }
    r := GameResult(isCorrect, score, reward, display);
  }

  /** The MCQ loop of `validate_answer`: the questions whose correct option
      the answer object holds under the key `str(i)`. */
  method CountRight(qs: seq<McqQuestion>, entries: map<string, Answer>) returns (correctCount: nat)
    ensures correctCount == CountCorrect(qs, entries, |qs|)
  {
    correctCount := 0;
    var i := 0;
    while i < |qs|
      invariant 0 <= i <= |qs|
      invariant correctCount == CountCorrect(qs, entries, i)
    {
      var key := NatToString(i);
      if key in entries && entries[key] == Text(qs[i].correct) {
        correctCount := correctCount + 1;
      }
      i := i + 1;
    }
  }
}

=== FILE: game_widget.dfy ===
/** The daily-challenge widget of the web client: it fetches the current
    challenge, keeps a draft answer for each puzzle type, counts the time
    down once per second, submits, and picks one of five screens. Network
    calls are split into the moment a request is issued and the moment its
    reply (or failure) arrives. */
module GameWidget {
  import opened Wrappers
  import opened Text
  import opened GameService
  import opened Api

  /** The answer body the widget sends: the MCQ selections keyed by
      question index, or one string. */
  datatype Payload = McqPicks(picks: map<nat, string>) | Typed(text: string)

  /** The body of a submit request. */
  datatype SubmitBody = SubmitBody(userId: Option<int>, windowId: int, answer: Payload)

  /** The screen the widget shows. */
  datatype Screen = Spinner | ErrorMessage | StartScreen | Cooldown | Puzzle

  const LoadError: string := "Failed to load the challenge."
  const SubmitError: string := "Failed to submit answer."

  /** The answer sent for game `g`: the MCQ map for an MCQ set, the built
      words joined by single spaces for a sentence builder, and the text
      draft for every other type. */
  function PayloadFor(g: Game, mcq: map<nat, string>, text: string, words: seq<string>): Payload {
    if g.McqSet? then McqPicks(mcq)
    else if g.SentenceBuilder? then Typed(Join(words, " "))
    else Typed(text)
  }

  /** Distinct indices have distinct keys. */
  lemma KeysInjective()
    ensures forall a: nat, b: nat :: NatToString(a) == NatToString(b) ==> a == b
  {
    forall a: nat, b: nat ensures NatToString(a) == NatToString(b) ==> a == b {
      NatToStringInjective(a, b);
    }
  }

  /** A JSON object's keys are strings: index `i` travels as `String(i)`. */
  function EncodePicks(picks: map<nat, string>): (m: map<string, Answer>)
    ensures forall i :: i in picks <==> NatToString(i) in m
    ensures forall i :: i in picks ==> m[NatToString(i)] == Text(picks[i])
  {
    KeysInjective();
    map i | i in picks :: NatToString(i) := Text(picks[i])
  }

  /** Nothing picked is exactly an empty object. */
  lemma EncodePicksEmpty(picks: map<nat, string>)
    ensures |picks| == 0 <==> |EncodePicks(picks)| == 0
  {
    var m := EncodePicks(picks);
    if |picks| > 0 {
      var i :| i in picks;
      assert NatToString(i) in m;
    } else {
      assert picks == map[];
      assert m == map[];
    }
  }

  /** The payload as the server decodes it; `rendering` is the Python
      `str()` of the decoded object, which only a non-MCQ game would read. */
  function Encode(p: Payload, rendering: string): Answer {
    match p
    case McqPicks(picks) => Dict(EncodePicks(picks), rendering)
    case Typed(s) => Text(s)
  }

  /** The server grades MCQ question `i` right exactly when the widget's
      selection for index `i` is that question's correct option. */
  lemma McqPickGraded(qs: seq<McqQuestion>, picks: map<nat, string>, i: nat)
    requires i < |qs|
    ensures QuestionRight(qs, EncodePicks(picks), i) <==> i in picks && picks[i] == qs[i].correct
  {
  }

  /** The widget does not block empty drafts; the server's required-field
      check refuses exactly those: an MCQ set with nothing picked, or an
      empty string. */
  lemma EmptyDraftRefused(p: Payload, rendering: string)
    ensures AnswerTruthy(Encode(p, rendering)) <==>
      match p
      case McqPicks(picks) => |picks| > 0
      case Typed(s) => s != ""
  {
    if p.McqPicks? {
      EncodePicksEmpty(p.picks);
    }
  }

  /** Building the correct word order of a sentence game whose joined order
      is its answer submits a correct answer. */
  lemma SentenceInOrderIsCorrect(g: Game, rendering: string)
    requires g.SentenceBuilder? && WellFormed(g)
    requires Join(g.correctOrder, " ") == g.correctAnswer && Strip(g.correctAnswer) == g.correctAnswer
    ensures Grade(g, Encode(PayloadFor(g, map[], "", g.correctOrder), rendering)).correct
  {
    assert Encode(PayloadFor(g, map[], "", g.correctOrder), rendering) == Text(g.correctAnswer);
    TrimmedGamesIgnorePadding(g, "", g.correctAnswer, "");
  }

  /** `words.filter((_, i) => i !== idx)`: drop position `idx`, if any. */
  function WithoutIndex(words: seq<string>, idx: int): (r: seq<string>)
    ensures 0 <= idx < |words| ==> r == words[..idx] + words[idx + 1..]
    ensures !(0 <= idx < |words|) ==> r == words
    decreases |words|
  {
    if words == [] then []
    else
      var rest := WithoutIndex(words[1..], idx - 1);
      if idx == 0 then rest
      else
        assert 0 < idx < |words| ==> words[1..][..idx - 1] == words[1..idx] && words[1..][idx..] == words[idx + 1..];
        [words[0]] + rest
  }

  /** One countdown step on the previous value: at or below 1 the counter
      stops at 0 and a refetch is due. */
  datatype Step = Step(next: int, refetch: bool)

  function TickValue(prev: int): Step {
    if prev <= 1 then Step(0, true) else Step(prev - 1, false)
  }

  /** The counter after `ticks` steps. */
  function Countdown(start: int, ticks: nat): int {
    if ticks == 0 then start else TickValue(Countdown(start, ticks - 1)).next
  }

  /** From a non-negative start the counter loses one per tick and never
      goes below 0. */
  lemma {:induction false} CountdownFloor(start: nat, ticks: nat)
    ensures Countdown(start, ticks) == if ticks < start then start - ticks else 0
  {
    if ticks > 0 {
      CountdownFloor(start, ticks - 1);
    }
  }

  /** JavaScript `n.toString()` for an integer. */
  function IntToString(n: int): string {
    if n < 0 then "-" + NatToString(-n) else NatToString(n)
  }

  /** JavaScript `a % b` for `b > 0`: the remainder takes the sign of `a`. */
  function JsRem(a: int, b: int): int
    requires b > 0
  {
    if a >= 0 then a % b else -((-a) % b)
  }

  /** `s.padStart(2, '0')`. */
  function PadStart2(s: string): (r: string)
    ensures |r| == if |s| < 2 then 2 else |s|
  {
    if |s| >= 2 then s else seq(2 - |s|, _ => '0') + s
  }

  /** `formatTime`: minutes (`Math.floor`, which for a positive divisor is
      Dafny's `/`), a colon, and the seconds padded to two places. */
  function FormatTime(seconds: int): string {
    IntToString(seconds / 60) + ":" + PadStart2(IntToString(JsRem(seconds, 60)))
  }

  /** Seconds below a minute render as two digits that read back as the
      same number. */
  lemma TwoDigitSeconds(x: nat)
    requires x < 60
    ensures |PadStart2(NatToString(x))| == 2 && IsDigits(PadStart2(NatToString(x)))
    ensures DecimalValue(PadStart2(NatToString(x))) == x
  {
    var s := PadStart2(NatToString(x));
    DecimalRoundTrip(x);
    if x < 10 {
      assert s == ['0', DigitChar(x)];
      assert s[..1] == ['0'];
    }
  }

  /** For a non-negative count, the rendering is "m:ss": the whole
      minutes, a colon, and two digits that read back as the remaining
      seconds. */
  lemma FormatTimeShape(a: nat)
    ensures FormatTime(a) == NatToString(a / 60) + ":" + PadStart2(NatToString(a % 60))
    ensures |PadStart2(NatToString(a % 60))| == 2 && DecimalValue(PadStart2(NatToString(a % 60))) == a % 60
  {
    TwoDigitSeconds(a % 60);
  }

  /** Minutes, a colon and two characters of seconds: the parts can be read
      back from the whole. */
  lemma MinutesColonSeconds(m1: string, s1: string, m2: string, s2: string)
    requires |s1| == 2 && |s2| == 2 && m1 + ":" + s1 == m2 + ":" + s2
    ensures m1 == m2 && s1 == s2
  {
    var x := m1 + ":" + s1;
    var y := m2 + ":" + s2;
    assert |m1| == |m2|;
    assert x[..|m1|] == m1 && y[..|m2|] == m2;
    assert x[|x| - 2..] == s1 && y[|y| - 2..] == s2;
  }

  /** Distinct non-negative counts render differently. */
  lemma FormatTimeInjective(a: nat, b: nat)
    ensures FormatTime(a) == FormatTime(b) ==> a == b
  {
    if FormatTime(a) == FormatTime(b) {
      FormatTimeShape(a);
      FormatTimeShape(b);
      MinutesColonSeconds(NatToString(a / 60), PadStart2(NatToString(a % 60)),
                          NatToString(b / 60), PadStart2(NatToString(b % 60)));
      NatToStringInjective(a / 60, b / 60);
      assert a % 60 == b % 60;
    }
  }

  class Widget {
    var gameData: Option<GameStatus>
    var loading: bool
    var timeLeft: int
    var result: Option<GameResult>
    var submitting: bool
    var error: Option<string>
    var gameStarted: bool
    var mcqAnswers: map<nat, string>
    var textInput: string
    var sentenceWords: seq<string>

    /** Once loading is over, either an error is shown or the challenge
        data is there. */
    ghost predicate Valid()
      reads this
    {
      loading || error.Some? || gameData.Some?
    }

    constructor ()
      ensures Valid()
      ensures gameData == None && loading && timeLeft == 0 && result == None && !submitting
      ensures error == None && !gameStarted && mcqAnswers == map[] && textInput == "" && sentenceWords == []
    {
      gameData := None;
      loading := true;
      timeLeft := 0;
      result := None;
      submitting := false;
      error := None;
      gameStarted := false;
      mcqAnswers := map[];
      textInput := "";
      sentenceWords := [];
    }

    predicate Played()
      reads this
    {
      gameData.Some? && gameData.value.played
    }

    /** The screen rendered: spinner, then error, then the start screen
        (not started and not played), then the cooldown, then the puzzle.
        The puzzle screen always has challenge data to show. */
    function CurrentScreen(): (s: Screen)
      reads this
      ensures s == Spinner <==> loading
      ensures s == ErrorMessage <==> !loading && error.Some?
      ensures s == StartScreen <==> !loading && error.None? && !gameStarted && !Played()
      ensures s == Cooldown <==> !loading && error.None? && Played()
      ensures s == Puzzle <==> !loading && error.None? && gameStarted && !Played()
      ensures Valid() && s == Puzzle ==> gameData.Some?
    {
      if loading then Spinner
      else if error.Some? then ErrorMessage
      else if !gameStarted && !Played() then StartScreen
      else if Played() then Cooldown
      else Puzzle
    }

    /** `fetchGame` issues its request. */
    method FetchStarted()
      modifies this`loading
      ensures loading
    {
      loading := true;
    }

    /** `fetchGame` gets its reply (`None` when the request failed). A reply
        replaces the data, sets the counter to the server's remaining time,
        keeps the last result only when the user has played, and clears
        all three drafts; a failure sets the error and keeps the rest. */
    method FetchCompleted(response: Option<GameStatus>)
      modifies this
      ensures Valid() && !loading
      ensures response.Some? ==>
        && gameData == response
        && timeLeft == response.value.timeRemaining
        && result == (if response.value.played && response.value.lastResult.Some? then response.value.lastResult else None)
        && mcqAnswers == map[] && textInput == "" && sentenceWords == []
        && error == old(error)
      ensures response.None? ==>
        && error == Some(LoadError)
        && gameData == old(gameData) && timeLeft == old(timeLeft) && result == old(result)
        && mcqAnswers == old(mcqAnswers) && textInput == old(textInput) && sentenceWords == old(sentenceWords)
      ensures gameStarted == old(gameStarted) && submitting == old(submitting)
    {
      match response {
        case Some(status) =>
          gameData := Some(status);
          timeLeft := status.timeRemaining;
          if status.played && status.lastResult.Some? {
            result := status.lastResult;
          } else {
            result := None;
          }
          mcqAnswers := map[];
          textInput := "";
          sentenceWords := [];
        case None =>
          error := Some(LoadError);
      }
      loading := false;
    }

    /** "Let's Play" on the start screen; the flag never goes back. */
    method StartGame()
      requires CurrentScreen() == StartScreen
      modifies this`gameStarted
      ensures gameStarted
    {
      gameStarted := true;
    }

    /** Choosing option `opt` for MCQ question `idx` replaces only that
        question's selection. */
    method PickOption(idx: nat, opt: string)
      modifies this`mcqAnswers
      ensures mcqAnswers == old(mcqAnswers)[idx := opt]
      ensures forall j :: j != idx ==>
                (j in mcqAnswers <==> j in old(mcqAnswers)) && (j in mcqAnswers ==> mcqAnswers[j] == old(mcqAnswers)[j])
    {
      mcqAnswers := mcqAnswers[idx := opt];
    }

    /** A logic option click or a keystroke in the text field. */
    method SetText(s: string)
      modifies this`textInput
      ensures textInput == s
    {
      textInput := s;
    }

    /** Clicking a bank word appends it to the built sentence. */
    method AddWord(word: string)
      modifies this`sentenceWords
      ensures sentenceWords == old(sentenceWords) + [word]
    {
      sentenceWords := sentenceWords + [word];
    }

    /** Clicking the built word at `idx` removes that position only. */
    method RemoveWord(idx: nat)
      requires idx < |sentenceWords|
      modifies this`sentenceWords
      ensures sentenceWords == old(sentenceWords)[..idx] + old(sentenceWords)[idx + 1..]
    {
      sentenceWords := WithoutIndex(sentenceWords, idx);
    }

    /** One second of the running countdown; `refetch` tells that the
        counter ran out and the challenge is fetched again. */
    method Tick() returns (refetch: bool)
      modifies this`timeLeft
      ensures refetch <==> old(timeLeft) <= 1
      ensures refetch ==> timeLeft == 0
      ensures !refetch ==> timeLeft == old(timeLeft) - 1 > 0
    {
      var step := TickValue(timeLeft);
      timeLeft := step.next;
      refetch := step.refetch;
    }

    /** `handleSubmit` sends the payload for the current puzzle type; the
        button is disabled while a submission is in flight. */
    method SubmitStarted(userId: Option<int>) returns (body: SubmitBody)
      requires Valid() && CurrentScreen() == Puzzle && !submitting
      modifies this`submitting
      ensures submitting
      ensures body == SubmitBody(userId, gameData.value.windowId,
                                 PayloadFor(gameData.value.game, mcqAnswers, textInput, sentenceWords))
    {
      submitting := true;
      var game := gameData.value.game;
      var answer: Payload;
      if game.McqSet? {
        answer := McqPicks(mcqAnswers);
      } else if game.SentenceBuilder? {
        answer := Typed(Join(sentenceWords, " "));
      } else {
        answer := Typed(textInput);
      }
      body := SubmitBody(userId, gameData.value.windowId, answer);
    }

    /** The submit reply (`None` when the request failed): a graded result
        is shown, the challenge counts as played and the hour-long cooldown
        starts; a failure sets the error and leaves `played` alone. */
    method SubmitCompleted(reply: Option<GameResult>)
      requires Valid() && gameData.Some?
      modifies this
      ensures Valid() && !submitting
      ensures reply.Some? ==>
        && result == reply && timeLeft == CooldownSeconds
        && gameData == Some(old(gameData.value).(played := true))
        && error == old(error)
      ensures reply.None? ==>
        && error == Some(SubmitError)
        && gameData == old(gameData) && result == old(result) && timeLeft == old(timeLeft)
      ensures loading == old(loading) && gameStarted == old(gameStarted)
      ensures mcqAnswers == old(mcqAnswers) && textInput == old(textInput) && sentenceWords == old(sentenceWords)
    {
      match reply {
        case Some(r) =>
          result := Some(r);
          gameData := Some(gameData.value.(played := true));
          timeLeft := CooldownSeconds;
        case None =>
          error := Some(SubmitError);
      }
      submitting := false;
    }
  }
}

=== FILE: ingest_agent.dfy ===
/** Joins a student's quiz responses with the quiz's answer key: responses
    to questions the key does not have are dropped, the rest keep their
    order and take the question's text, answer and concepts from the key. */
module IngestAgent {
  import opened Wrappers
  import opened Seqs

  /** A question of the answer key (`"concepts"` may be absent). */
  datatype KeyQuestion = KeyQuestion(id: string, text: Option<string>, correctAnswer: Option<string>,
                                     concepts: Option<seq<string>>)
  datatype QuizKey = QuizKey(quizId: Option<string>, questions: seq<KeyQuestion>)

  datatype Response = Response(questionId: Option<string>, answer: Option<string>)
  datatype StudentResponses = StudentResponses(studentId: Option<string>, responses: seq<Response>)

  datatype NormalizedQuestion = NormalizedQuestion(
    id: string, questionText: Option<string>, studentAnswer: Option<string>,
    correctAnswer: Option<string>, concepts: seq<string>)
  datatype Normalized = Normalized(studentId: Option<string>, quizId: Option<string>, questions: seq<NormalizedQuestion>)

  /** `{q["id"]: q for q in questions}`: every id of the key, each mapped to
      one of the questions with that id. */
  function KeyMap(questions: seq<KeyQuestion>): (m: map<string, KeyQuestion>)
    ensures forall id :: id in m <==> exists i :: 0 <= i < |questions| && questions[i].id == id
    ensures forall id :: id in m ==> m[id] in questions && m[id].id == id
  {
    if questions == [] then map[]
    else
      var init := questions[..|questions| - 1];
      var last := questions[|questions| - 1];
      var m := KeyMap(init);
      assert forall i :: 0 <= i < |init| ==> init[i] == questions[i];
      assert forall q :: q in init ==> q in questions;
      m[last.id := last]
  }

  /** Of several questions with one id, the last one is kept. */
  lemma {:induction false} KeyMapLastWins(questions: seq<KeyQuestion>, i: nat)
    requires i < |questions|
    requires forall j :: i < j < |questions| ==> questions[j].id != questions[i].id
    ensures questions[i].id in KeyMap(questions) && KeyMap(questions)[questions[i].id] == questions[i]
  {
    var init := questions[..|questions| - 1];
    if i < |questions| - 1 {
      assert forall j :: i < j < |init| ==> init[j] == questions[j];
      KeyMapLastWins(init, i);
    }
  }

  /** The response names a question of the key. */
  predicate Known(m: map<string, KeyQuestion>, r: Response) {
    r.questionId.Some? && r.questionId.value in m
  }

  /** The entry for a known response. */
  function Entry(m: map<string, KeyQuestion>, r: Response): NormalizedQuestion
    requires Known(m, r)
  {
    var q := m[r.questionId.value];
    NormalizedQuestion(r.questionId.value, q.text, r.answer, q.correctAnswer, q.concepts.GetOr([]))
  }

  /** The known responses, in order. */
  function KnownResponses(m: map<string, KeyQuestion>, responses: seq<Response>): (known: seq<Response>)
    ensures |known| <= |responses|
    ensures forall r :: r in known <==> r in responses && Known(m, r)
  {
    Filter(responses, r => Known(m, r))
  }

  /** The entries for the known responses, in response order. */
  function Entries(m: map<string, KeyQuestion>, responses: seq<Response>): (qs: seq<NormalizedQuestion>)
    ensures |qs| == |KnownResponses(m, responses)| <= |responses|
  {
    var known := KnownResponses(m, responses);
    assert forall i :: 0 <= i < |known| ==> known[i] in known;
    seq(|known|, i requires 0 <= i < |known| => Entry(m, known[i]))
  }

  /** One more response adds its entry when it is known and nothing otherwise. */
  lemma EntriesAppend(m: map<string, KeyQuestion>, responses: seq<Response>, x: Response)
    ensures Entries(m, responses + [x]) == Entries(m, responses) + (if Known(m, x) then [Entry(m, x)] else [])
  {
    FilterAppend(responses, x, r => Known(m, r));
    var before := KnownResponses(m, responses);
    var after := KnownResponses(m, responses + [x]);
    assert forall i :: 0 <= i < |before| ==> after[i] == before[i];
  }

  /** Responding to every question of the key gives one entry per response,
      position by position. */
  lemma AllKnownKeepsPositions(m: map<string, KeyQuestion>, responses: seq<Response>)
    requires forall i :: 0 <= i < |responses| ==> Known(m, responses[i])
    ensures |Entries(m, responses)| == |responses|
    ensures forall i :: 0 <= i < |responses| ==> Entries(m, responses)[i] == Entry(m, responses[i])
  {
    FilterAll(responses, r => Known(m, r));
  }

  /** An entry names a question of the key and takes its data from the
      key's question with that id. */
  lemma EntriesComeFromKey(m: map<string, KeyQuestion>, responses: seq<Response>)
    ensures forall i :: 0 <= i < |Entries(m, responses)| ==>
              var e := Entries(m, responses)[i];
              && e.id in m && e.questionText == m[e.id].text && e.correctAnswer == m[e.id].correctAnswer
              && e.concepts == m[e.id].concepts.GetOr([])
              && exists r :: r in responses && r.questionId == Some(e.id) && r.answer == e.studentAnswer
  {
    var known := KnownResponses(m, responses);
    assert forall i :: 0 <= i < |known| ==> known[i] in known;
  }

  /** `normalize_responses`. */
  method NormalizeResponses(student: StudentResponses, key: QuizKey) returns (n: Normalized)
    ensures n.studentId == student.studentId && n.quizId == key.quizId
    ensures n.questions == Entries(KeyMap(key.questions), student.responses)
    ensures |n.questions| <= |student.responses|
  {
    var keyMap := KeyMap(key.questions);
    var responses := student.responses;
    var questions: seq<NormalizedQuestion> := [];
    var i := 0;
    while i < |responses|
      invariant 0 <= i <= |responses|
      invariant questions == Entries(keyMap, responses[..i])
    {
      var resp := responses[i];
      EntriesAppend(keyMap, responses[..i], resp);
      PrefixStep(responses, i);
      if resp.questionId.Some? && resp.questionId.value in keyMap {
        var qData := keyMap[resp.questionId.value];
        questions := questions + [NormalizedQuestion(resp.questionId.value, qData.text, resp.answer,
                                                     qData.correctAnswer, qData.concepts.GetOr([]))];
      }
      i := i + 1;
    }
    assert responses[..|responses|] == responses;
    n := Normalized(student.studentId, key.quizId, questions);
  }
}

=== FILE: memory_bank.dfy ===
/** The practice pipeline's store: students (written with INSERT OR REPLACE
    on the id), concept mastery (one row per student and concept, rewritten
    by every update) and the session log (plain INSERT on the session id). */
module MemoryBank {
  import opened Wrappers
  import opened Seqs

  datatype Student = Student(name: string, gradeLevel: int)

  /** One entry of a mastery row's history. */
  datatype HistoryEntry = HistoryEntry(timestamp: int, scoreDelta: real, mistake: Option<string>)

  /** A `concept_mastery` row. The concept may be NULL (`None`): the table's
      key does not forbid it, and NULL keys never collide. */
  datatype MasteryRow = MasteryRow(
    studentId: string, conceptId: Option<string>, masteryScore: real,
    lastPracticed: int, lastMistake: Option<string>, history: seq<HistoryEntry>)

  /** What `get_student_mastery` reports of a row. */
  datatype Mastery = Mastery(conceptId: Option<string>, masteryScore: real, lastPracticed: int)

  /** A `session_history` row; the three payloads are their JSON texts. */
  datatype SessionLog = SessionLog(studentId: string, timestamp: int, quizData: string, responses: string, diagnosis: string)

  /** The arguments of one `update_concept_mastery` call after the student. */
  datatype Update = Update(conceptId: Option<string>, scoreDelta: real, mistake: Option<string>)

  /** `max(0.0, min(1.0, x))`: the point of [0, 1] nearest to `x`. */
  function Clamp(x: real): (r: real)
    ensures 0.0 <= r <= 1.0
    ensures 0.0 <= x <= 1.0 ==> r == x
    ensures x < 0.0 ==> r == 0.0
    ensures x > 1.0 ==> r == 1.0
  {
    if x < 0.0 then 0.0 else if x > 1.0 then 1.0 else x
  }

  /** `WHERE student_id=? AND concept_id=?`: a NULL concept matches nothing. */
  predicate Matches(row: MasteryRow, studentId: string, conceptId: Option<string>) {
    conceptId.Some? && row.studentId == studentId && row.conceptId == conceptId
  }

  /** Two rows with the same non-NULL key. */
  predicate SameKey(a: MasteryRow, b: MasteryRow) {
    Matches(b, a.studentId, a.conceptId)
  }

  /** The table's primary key: no two rows share a non-NULL key. */
  predicate KeysDistinct(rows: seq<MasteryRow>) {
    forall i, j :: 0 <= i < |rows| && 0 <= j < |rows| && i != j ==> !SameKey(rows[i], rows[j])
  }

  predicate ScoresClamped(rows: seq<MasteryRow>) {
    forall i :: 0 <= i < |rows| ==> 0.0 <= rows[i].masteryScore <= 1.0
  }

  /** The row the `SELECT` of an update fetches. */
  function Lookup(rows: seq<MasteryRow>, studentId: string, conceptId: Option<string>): (r: Option<MasteryRow>)
    ensures r.Some? ==> r.value in rows && Matches(r.value, studentId, conceptId)
    ensures r.None? ==> forall i :: 0 <= i < |rows| ==> !Matches(rows[i], studentId, conceptId)
  {
    if rows == [] then None
    else if Matches(rows[0], studentId, conceptId) then Some(rows[0])
    else
      var r := Lookup(rows[1..], studentId, conceptId);
      assert forall i :: 1 <= i < |rows| ==> rows[i] == rows[1..][i - 1];
      r
  }

  /** Rows that match nothing in front do not change what is fetched. */
  lemma {:induction false} LookupSkips(a: seq<MasteryRow>, b: seq<MasteryRow>, studentId: string, conceptId: Option<string>)
    requires forall i :: 0 <= i < |a| ==> !Matches(a[i], studentId, conceptId)
    ensures Lookup(a + b, studentId, conceptId) == Lookup(b, studentId, conceptId)
  {
    if a == [] {
      assert a + b == b;
    } else {
      assert (a + b)[0] == a[0] && (a + b)[1..] == a[1..] + b;
      assert !Matches(a[0], studentId, conceptId);
      LookupSkips(a[1..], b, studentId, conceptId);
    }
  }

  /** The rows an update keeps: every row but the one it replaces. */
  function Others(rows: seq<MasteryRow>, studentId: string, conceptId: Option<string>): seq<MasteryRow> {
    Filter(rows, (r: MasteryRow) => !Matches(r, studentId, conceptId))
  }

  /** The row an update writes: the fetched score (0.0 without a row) plus
      the delta, clamped, and the fetched history (empty without a row)
      with one entry appended. */
  function Rewritten(rows: seq<MasteryRow>, studentId: string, u: Update, now: int): MasteryRow {
    var prior := Lookup(rows, studentId, u.conceptId);
    var score := if prior.Some? then prior.value.masteryScore else 0.0;
    var history := if prior.Some? then prior.value.history else [];
    MasteryRow(studentId, u.conceptId, Clamp(score + u.scoreDelta), now, u.mistake,
               history + [HistoryEntry(now, u.scoreDelta, u.mistake)])
  }

  /** The table after an update: INSERT OR REPLACE deletes the row with the
      same key (there is none for a NULL concept) and adds the new one. */
  function AfterUpdate(rows: seq<MasteryRow>, studentId: string, u: Update, now: int): seq<MasteryRow> {
    Others(rows, studentId, u.conceptId) + [Rewritten(rows, studentId, u, now)]
  }

  /** The new row's score is clamped into [0, 1] and its history is the
      old one plus exactly one entry holding the delta and the mistake; a
      pair without a row starts from 0.0 and an empty history. */
  lemma RewrittenFacts(rows: seq<MasteryRow>, studentId: string, u: Update, now: int)
    ensures var row := Rewritten(rows, studentId, u, now);
            && 0.0 <= row.masteryScore <= 1.0
            && row.studentId == studentId && row.conceptId == u.conceptId
            && |row.history| >= 1
            && row.history[|row.history| - 1] == HistoryEntry(now, u.scoreDelta, u.mistake)
    ensures var prior := Lookup(rows, studentId, u.conceptId);
            var row := Rewritten(rows, studentId, u, now);
            && (prior.Some? ==> row.history[..|row.history| - 1] == prior.value.history
                                && row.masteryScore == Clamp(prior.value.masteryScore + u.scoreDelta))
            && (prior.None? ==> row.history == [HistoryEntry(now, u.scoreDelta, u.mistake)]
                                && row.masteryScore == Clamp(u.scoreDelta))
  {
  }

  /** An update with a NULL concept never finds its earlier rows, so it
      always starts over from 0.0. */
  lemma NullConceptStartsOver(rows: seq<MasteryRow>, studentId: string, u: Update, now: int)
    requires u.conceptId.None?
    ensures Rewritten(rows, studentId, u, now).masteryScore == Clamp(u.scoreDelta)
    ensures AfterUpdate(rows, studentId, u, now) == rows + [Rewritten(rows, studentId, u, now)]
  {
    FilterAll(rows, (r: MasteryRow) => !Matches(r, studentId, u.conceptId));
  }

  /** Only the updated pair's row changes: every other row is kept, nothing
      else is added, and reading the pair back gives the new row. */
  lemma UpdateTouchesOnlyItsRow(rows: seq<MasteryRow>, studentId: string, u: Update, now: int)
    ensures forall r :: r in rows && !Matches(r, studentId, u.conceptId) ==> r in AfterUpdate(rows, studentId, u, now)
    ensures forall r :: r in AfterUpdate(rows, studentId, u, now) ==>
              r == Rewritten(rows, studentId, u, now) || (r in rows && !Matches(r, studentId, u.conceptId))
    ensures u.conceptId.Some? ==>
              Lookup(AfterUpdate(rows, studentId, u, now), studentId, u.conceptId) == Some(Rewritten(rows, studentId, u, now))
  {
    var others := Others(rows, studentId, u.conceptId);
    var row := Rewritten(rows, studentId, u, now);
    assert forall i :: 0 <= i < |others| ==> others[i] in others;
    LookupSkips(others, [row], studentId, u.conceptId);
  }

  /** Dropping rows keeps the keys distinct. */
  lemma {:induction false} FilterKeepsKeysDistinct(rows: seq<MasteryRow>, p: MasteryRow -> bool)
    requires KeysDistinct(rows)
    ensures KeysDistinct(Filter(rows, p))
  {
    if rows != [] {
      var tail := rows[1..];
      assert forall i :: 0 <= i < |tail| ==> tail[i] == rows[i + 1];
      FilterKeepsKeysDistinct(tail, p);
      if p(rows[0]) {
        var f := Filter(tail, p);
        forall x | x in f
          ensures !SameKey(rows[0], x) && !SameKey(x, rows[0])
        {
          var j :| 0 <= j < |tail| && tail[j] == x;
          assert rows[j + 1] == x;
        }
        var r := [rows[0]] + f;
        forall i, j | 0 <= i < |r| && 0 <= j < |r| && i != j
          ensures !SameKey(r[i], r[j])
        {
          if i > 0 && j > 0 {
            assert r[i] == f[i - 1] && r[j] == f[j - 1];
          } else if i == 0 {
            assert r[j] == f[j - 1] && r[j] in f;
          } else {
            assert r[i] == f[i - 1] && r[i] in f;
          }
        }
      }
    }
  }

  /** An update keeps the primary key and the [0, 1] range of every score. */
  lemma AfterUpdateKeepsInvariant(rows: seq<MasteryRow>, studentId: string, u: Update, now: int)
    requires KeysDistinct(rows) && ScoresClamped(rows)
    ensures KeysDistinct(AfterUpdate(rows, studentId, u, now)) && ScoresClamped(AfterUpdate(rows, studentId, u, now))
  {
    var p := (r: MasteryRow) => !Matches(r, studentId, u.conceptId);
    var others := Others(rows, studentId, u.conceptId);
    var row := Rewritten(rows, studentId, u, now);
    var result := others + [row];
    FilterKeepsKeysDistinct(rows, p);
    assert forall i :: 0 <= i < |others| ==> others[i] in others && others[i] in rows && p(others[i]);
    forall i, j | 0 <= i < |result| && 0 <= j < |result| && i != j
      ensures !SameKey(result[i], result[j])
    {
      if i < |others| && j < |others| {
        assert result[i] == others[i] && result[j] == others[j];
      } else if i == |others| {
        assert result[j] == others[j];
      } else {
        assert result[i] == others[i];
      }
    }
    forall i | 0 <= i < |result|
      ensures 0.0 <= result[i].masteryScore <= 1.0
    {
      if i < |others| {
        assert result[i] == others[i];
        var k :| 0 <= k < |rows| && rows[k] == others[i];
      }
    }
  }

  /** What `get_student_mastery` reports of a row. */
  function Report(r: MasteryRow): Mastery {
    Mastery(r.conceptId, r.masteryScore, r.lastPracticed)
  }

  class Bank {
    var students: map<string, Student>
    var mastery: seq<MasteryRow>
    var sessions: map<string, SessionLog>

    ghost predicate Valid()
      reads this
    {
      KeysDistinct(mastery) && ScoresClamped(mastery)
    }

    /** A fresh database. */
    constructor ()
      ensures Valid()
      ensures students == map[] && mastery == [] && sessions == map[]
    {
      students := map[];
      mastery := [];
      sessions := map[];
    }

    /** `add_student`: INSERT OR REPLACE, so an existing id is overwritten. */
    method AddStudent(studentId: string, name: string, gradeLevel: int)
      modifies this`students
      ensures students == old(students)[studentId := Student(name, gradeLevel)]
    {
      students := students[studentId := Student(name, gradeLevel)];
    }

    /** `update_concept_mastery`: fetch the pair's row, clamp the new score,
        append to the history and write the row back. */
    method UpdateConceptMastery(studentId: string, conceptId: Option<string>, scoreDelta: real,
                                mistake: Option<string>, now: int)
      requires Valid()
      modifies this`mastery
      ensures Valid()
      ensures mastery == AfterUpdate(old(mastery), studentId, Update(conceptId, scoreDelta, mistake), now)
    {
      var row := Lookup(mastery, studentId, conceptId);
      var currentScore := 0.0;
      var history: seq<HistoryEntry> := [];
      if row.Some? {
        currentScore := row.value.masteryScore;
        history := row.value.history;
      }
      var newScore := Clamp(currentScore + scoreDelta);
      history := history + [HistoryEntry(now, scoreDelta, mistake)];
      AfterUpdateKeepsInvariant(mastery, studentId, Update(conceptId, scoreDelta, mistake), now);
      mastery := Others(mastery, studentId, conceptId)
                 + [MasteryRow(studentId, conceptId, newScore, now, mistake, history)];
    }

    /** `get_student_mastery`: the rows of that student and no others. */
    function StudentMastery(studentId: string): (rs: seq<Mastery>)
      reads this
      ensures |rs| <= |mastery|
      ensures forall m :: m in rs <==> exists r :: r in mastery && r.studentId == studentId && m == Report(r)
      ensures Valid() ==> forall i :: 0 <= i < |rs| ==> 0.0 <= rs[i].masteryScore <= 1.0
    {
      var mine := Filter(mastery, (r: MasteryRow) => r.studentId == studentId);
      var rs := seq(|mine|, i requires 0 <= i < |mine| => Report(mine[i]));
      assert forall i :: 0 <= i < |mine| ==> mine[i] in mine;
      assert forall r :: r in mine ==> exists i :: 0 <= i < |mine| && mine[i] == r;
      assert forall i :: 0 <= i < |rs| ==> rs[i] == Report(mine[i]);
      rs
    }

    /** `log_session`: a plain INSERT, so a repeated session id fails and
        changes nothing. */
    method LogSession(sessionId: string, studentId: string, quizData: string, responses: string,
                      diagnosis: string, now: int) returns (ok: bool)
      modifies this`sessions
      ensures ok <==> sessionId !in old(sessions)
      ensures ok ==> sessions == old(sessions)[sessionId := SessionLog(studentId, now, quizData, responses, diagnosis)]
      ensures !ok ==> sessions == old(sessions)
    {
      if sessionId in sessions {
        return false;
      }
      sessions := sessions[sessionId := SessionLog(studentId, now, quizData, responses, diagnosis)];
      ok := true;
    }
  }
}

=== FILE: model_output.dfy ===
/** What the LLM agents share: the shape of a model call's outcome, the
    cleaning of a reply before it is decoded (strip surrounding whitespace,
    drop a leading "```json" fence, then a trailing "```" fence), filling a
    prompt template, and the reply an agent returns. Decoding JSON is a
    parameter. */
module ModelOutput {
  import opened Wrappers
  import opened Text

  const JsonFence: string := "```json"
  const Fence: string := "```"

  /** The model call raised (with its message) or returned text. */
  datatype LlmReply = Raised(message: string) | Replied(text: string)

  /** `_parse_response`'s result: the decoded value, or `{"raw_text": text}`. */
  datatype Parsed<J> = Decoded(value: J) | RawText(text: string)

  /** A value in a reply dict that an agent builds itself. */
  datatype Field = Str(s: string) | Bool(b: bool) | EmptyList

  /** What an agent returns: a dict of its own, `{"error": message}` after an
      exception, or the model's parsed reply. */
  datatype AgentReply<J> = Fixed(fields: map<string, Field>) | Failed(error: string) | Answered(parsed: Parsed<J>)

  /** The reply text that is handed to the decoder. It is a slice of the
      stripped reply; a reply without fences is only stripped. */
  function CleanResponse(text: string): (t: string)
    ensures |t| <= |Strip(text)|
    ensures exists i :: OccursAt(Strip(text), t, i)
    ensures !StartsWith(Strip(text), JsonFence) && !EndsWith(Strip(text), Fence) ==> t == Strip(text)
  {
    var s := Strip(text);
    var a := if StartsWith(s, JsonFence) then s[|JsonFence|..] else s;
    assert a == s[|s| - |a|..];
    var t := if EndsWith(a, Fence) then a[..|a| - |Fence|] else a;
    assert OccursAt(s, t, |s| - |a|);
    t
  }

  /** A text that starts and ends with a non-whitespace character is its own strip. */
  lemma StripTight(x: string)
    requires |x| > 0 && !IsPyWhitespace(x[0]) && !IsPyWhitespace(x[|x| - 1])
    ensures Strip(x) == x
  {
    assert x[0..|x|] == x && x[..0] == [] && x[|x|..] == [];
    StripUnique(x, 0, x);
  }

  /** The fenced text is its own strip, and the padding around it goes. */
  lemma StripFenced(before: string, body: string, after: string)
    requires AllPyWhitespace(before) && AllPyWhitespace(after)
    ensures Strip(before + JsonFence + body + Fence + after) == JsonFence + body + Fence
  {
    var x := JsonFence + body + Fence;
    assert before + JsonFence + body + Fence + after == before + x + after;
    StripIgnoresPadding(before, x, after);
    assert x[0] == '`' && x[|x| - 1] == '`';
    StripTight(x);
  }

  /** A fenced reply, with any whitespace around it, cleans to exactly the
      text between the fences. */
  lemma CleanFencedReply(before: string, body: string, after: string)
    requires AllPyWhitespace(before) && AllPyWhitespace(after)
    ensures CleanResponse(before + JsonFence + body + Fence + after) == body
  {
    StripFenced(before, body, after);
    var x := JsonFence + body + Fence;
    assert StartsWith(x, JsonFence);
    var a := x[|JsonFence|..];
    assert a == body + Fence;
    assert EndsWith(a, Fence);
    assert a[..|a| - |Fence|] == body;
  }

  /** The prefix is removed before the suffix is looked for, so an empty
      fenced block cleans to nothing. */
  lemma EmptyFenceCleansToNothing()
    ensures CleanResponse("```json```") == ""
  {
    CleanFencedReply("", "", "");
    assert "" + JsonFence + "" + Fence + "" == "```json```";
  }

  /** `_parse_response`: decode the cleaned reply; when that fails, keep
      the cleaned text. */
  function ParseResponse<J>(text: string, decode: string -> Result<J, string>): (p: Parsed<J>)
    ensures p.RawText? <==> decode(CleanResponse(text)).Failure?
    ensures p.RawText? ==> p.text == CleanResponse(text)
    ensures p.Decoded? ==> decode(CleanResponse(text)) == Success(p.value)
  {
    match decode(CleanResponse(text))
    case Success(v) => Decoded(v)
    case Failure(_) => RawText(CleanResponse(text))
  }

  /** A fenced reply is decoded from its body alone. */
  lemma ParseFencedReply<J>(before: string, body: string, after: string, decode: string -> Result<J, string>)
    requires AllPyWhitespace(before) && AllPyWhitespace(after)
    ensures decode(body).Success? ==> ParseResponse(before + JsonFence + body + Fence + after, decode) == Decoded(decode(body).value)
    ensures decode(body).Failure? ==> ParseResponse(before + JsonFence + body + Fence + after, decode) == RawText(body)
  {
    CleanFencedReply(before, body, after);
  }

  /** `template.replace(slot, value)`. */
  function FillSlot(template: string, slot: string, value: string): string
    requires |slot| > 0
  {
    ReplaceAll(template, slot, value)
  }

  /** Every occurrence of the slot is replaced: the result is the template
      cut at each slot, with none left inside a piece, joined by the value. */
  lemma FillReplacesEverySlot(template: string, slot: string, value: string)
    requires |slot| > 0
    ensures FillSlot(template, slot, value) == Join(Split(template, slot), value)
    ensures Join(Split(template, slot), slot) == template
    ensures forall k :: 0 <= k < |Split(template, slot)| ==> !Contains(Split(template, slot)[k], slot)
  {
    ReplaceIsJoinOfSplit(template, slot, value);
    SplitJoin(template, slot);
    forall k | 0 <= k < |Split(template, slot)|
      ensures !Contains(Split(template, slot)[k], slot)
    {
      SplitPiecesAreFree(template, slot, k);
    }
  }

  /** A template that ends in its only slot, after text without `{`, is
      filled by appending the value. */
  lemma FillTrailingSlot(text: string, slot: string, value: string)
    requires |slot| > 0 && slot[0] == '{' && Avoids(text, '{')
    ensures FillSlot(text + slot, slot, value) == text + value
  {
    ReplaceSkipsFreePrefix(text, slot, slot, value);
    assert slot[..|slot|] == slot && slot[|slot|..] == "";
  }

  /** `", ".join(names)`: the concept list put into a prompt. */
  function JoinConcepts(names: seq<string>): string {
    Join(names, ", ")
  }

  /** Names without a comma can be read back from the joined list. */
  lemma JoinConceptsSplitsBack(names: seq<string>)
    requires |names| >= 1 && forall k :: 0 <= k < |names| ==> Avoids(names[k], ',')
    ensures Split(JoinConcepts(names), ", ") == names
  {
    JoinSplit(names, ", ");
  }

  /** The common flow of the diagnostic, explanation and practice agents:
      without a key or the client module they answer with their own dict;
      otherwise the model is asked with the prompt, an exception becomes
      `{"error": message}`, and a reply is parsed. */
  function Ask<J>(configured: bool, offline: map<string, Field>, llm: string -> LlmReply, prompt: string,
                  decode: string -> Result<J, string>): (r: AgentReply<J>)
    ensures r.Fixed? <==> !configured
    ensures !configured ==> r.fields == offline
    ensures r.Failed? <==> configured && llm(prompt).Raised?
    ensures r.Failed? ==> r.error == llm(prompt).message
    ensures r.Answered? ==> llm(prompt).Replied? && r.parsed == ParseResponse(llm(prompt).text, decode)
  {
    if !configured then Fixed(offline)
    else
      match llm(prompt)
      case Raised(e) => Failed(e)
      case Replied(text) => Answered(ParseResponse(text, decode))
  }
}

=== FILE: practice_agent.dfy ===
/** The practice agent: it fills the names of the weak concepts into its
    prompt template and asks the model for practice questions. */
module PracticeAgent {
  import opened Wrappers
  import opened Text
  import opened ModelOutput

  const ConceptsSlot: string := "{concepts}"
  /** The default template is this text followed by the slot. */
  const DefaultLead: string := "Generate practice questions for: "

  /** The reply without a key or the client module. */
  const Offline: map<string, Field> := map[
    "error" := Str("Missing API Key or genai module"),
    "practice_set" := EmptyList]

  /** `_load_prompt`: the prompt file's text, or the default template. */
  function LoadPrompt(file: Option<string>): (template: string)
    ensures file.Some? ==> template == file.value
    ensures file.None? ==> EndsWith(template, ConceptsSlot) && StartsWith(template, DefaultLead)
  {
    if file.Some? then file.value else DefaultLead + ConceptsSlot
  }

  /** The lead text holds no `{`, so no slot starts inside it. */
  lemma LeadHasNoBrace()
    ensures Avoids(DefaultLead, '{')
  {
    assert DefaultLead == "Generate practice " + "questions for: ";
    assert Avoids("Generate practice ", '{');
    assert Avoids("questions for: ", '{');
    AvoidsConcat("Generate practice ", "questions for: ", '{');
  }


  /** With the default template the joined names are appended to the lead. */
  lemma DefaultTemplateTakesConcepts(names: seq<string>)
    ensures FillSlot(LoadPrompt(None), ConceptsSlot, JoinConcepts(names)) == DefaultLead + JoinConcepts(names)
  {
    LeadHasNoBrace();
    FillTrailingSlot(DefaultLead, ConceptsSlot, JoinConcepts(names));
  }

  /** `generate_practice` for the weak concepts' names. */
  function GeneratePractice<J>(promptFile: Option<string>, names: seq<string>, configured: bool,
                                   llm: string -> LlmReply, decode: string -> Result<J, string>): (r: AgentReply<J>)
    ensures r.Fixed? <==> !configured
    ensures !configured ==> r == Fixed(Offline)
    ensures configured ==> (r.Failed? <==> llm(FillSlot(LoadPrompt(promptFile), ConceptsSlot, JoinConcepts(names))).Raised?)
    ensures r.Failed? ==> r.error == llm(FillSlot(LoadPrompt(promptFile), ConceptsSlot, JoinConcepts(names))).message
    ensures r.Answered? ==>
              r.parsed == ParseResponse(llm(FillSlot(LoadPrompt(promptFile), ConceptsSlot, JoinConcepts(names))).text, decode)
  {
    Ask(configured, Offline, llm, FillSlot(LoadPrompt(promptFile), ConceptsSlot, JoinConcepts(names)), decode)
  }
}

=== FILE: progress_tracker.dfy ===
/** Turns a graded practice set into mastery updates: one update per graded
    question, in order, raising the concept's mastery by 0.1 for a correct
    answer and lowering it by 0.05 otherwise, with the failed question
    recorded as the mistake. */
module ProgressTracker {
  import opened Wrappers
  import opened Seqs
  import opened MemoryBank
  import QuizRunner

  const CorrectDelta: real := 0.1
  const WrongDelta: real := -0.05

  /** Python's rendering of an optional text inside an f-string. */
  function PyText(s: Option<string>): string {
    if s.Some? then s.value else "None"
  }

  /** The update one graded question causes. */
  function UpdateFor(d: QuizRunner.Detail): (u: Update)
    ensures u.conceptId == d.concept
    ensures u.scoreDelta > 0.0 <==> d.isCorrect
    ensures u.mistake.None? <==> d.isCorrect
    ensures !d.isCorrect ==> u.mistake == Some("Failed question: " + PyText(d.question))
  {
    var delta := if d.isCorrect then CorrectDelta else WrongDelta;
    var mistake := if d.isCorrect then None else Some("Failed question: " + PyText(d.question));
    Update(d.concept, delta, mistake)
  }

  /** The updates of a whole grading, one per detail, in order. */
  function UpdatesFor(details: seq<QuizRunner.Detail>): (us: seq<Update>)
    ensures |us| == |details|
    ensures forall i :: 0 <= i < |details| ==> us[i] == UpdateFor(details[i])
  {
    seq(|details|, i requires 0 <= i < |details| => UpdateFor(details[i]))
  }

  /** The mastery table after the updates, applied first to last. */
  function ApplyAll(rows: seq<MasteryRow>, studentId: string, us: seq<Update>, now: int): seq<MasteryRow> {
    if us == [] then rows
    else AfterUpdate(ApplyAll(rows, studentId, us[..|us| - 1], now), studentId, us[|us| - 1], now)
  }

  /** A whole batch of updates keeps the primary key and the score range. */
  lemma {:induction false} ApplyAllKeepsInvariant(rows: seq<MasteryRow>, studentId: string, us: seq<Update>, now: int)
    requires KeysDistinct(rows) && ScoresClamped(rows)
    ensures KeysDistinct(ApplyAll(rows, studentId, us, now)) && ScoresClamped(ApplyAll(rows, studentId, us, now))
  {
    if us != [] {
      ApplyAllKeepsInvariant(rows, studentId, us[..|us| - 1], now);
      AfterUpdateKeepsInvariant(ApplyAll(rows, studentId, us[..|us| - 1], now), studentId, us[|us| - 1], now);
    }
  }

  /** A row whose pair no update names survives the whole batch. */
  lemma {:induction false} UntouchedRowsSurvive(rows: seq<MasteryRow>, studentId: string, us: seq<Update>, now: int,
                                                r: MasteryRow)
    requires r in rows
    requires forall k :: 0 <= k < |us| ==> !Matches(r, studentId, us[k].conceptId)
    ensures r in ApplyAll(rows, studentId, us, now)
  {
    if us != [] {
      UntouchedRowsSurvive(rows, studentId, us[..|us| - 1], now, r);
      UpdateTouchesOnlyItsRow(ApplyAll(rows, studentId, us[..|us| - 1], now), studentId, us[|us| - 1], now);
    }
  }

  class Tracker {
    const memory: Bank

    constructor (memory: Bank)
      ensures this.memory == memory
    {
      this.memory := memory;
    }

    /** `update_progress`: one mastery update per detail, in order. The
        clock is read once for the whole batch. */
    method UpdateProgress(studentId: string, details: seq<QuizRunner.Detail>, now: int)
      requires memory.Valid()
      modifies memory`mastery
      ensures memory.Valid()
      ensures memory.mastery == ApplyAll(old(memory.mastery), studentId, UpdatesFor(details), now)
    {
      var i := 0;
      while i < |details|
        invariant 0 <= i <= |details|
        invariant memory.Valid()
        invariant memory.mastery == ApplyAll(old(memory.mastery), studentId, UpdatesFor(details[..i]), now)
      {
        var detail := details[i];
        var delta := if detail.isCorrect then CorrectDelta else WrongDelta;
        var mistake := if detail.isCorrect then None else Some("Failed question: " + PyText(detail.question));
        memory.UpdateConceptMastery(studentId, detail.concept, delta, mistake, now);
        assert UpdatesFor(details[..i + 1]) == UpdatesFor(details[..i]) + [UpdateFor(detail)];
        i := i + 1;
      }
      assert details[..|details|] == details;
    }

    /** `get_student_status`: the memory bank's rows for that student. */
    function StudentStatus(studentId: string): (rs: seq<Mastery>)
      reads this, memory
      ensures forall m :: m in rs <==> exists r :: r in memory.mastery && r.studentId == studentId && m == Report(r)
    {
      memory.StudentMastery(studentId)
    }
  }
}

=== FILE: quiz_runner.dfy ===
/** Grading of a generated practice set: every question of every concept
    group is judged against the student's answer (the empty string when
    there is none), counted, and reported in group-then-question order.
    Whether two answers are equivalent is decided by a symbolic algebra
    check, which is a parameter here. */
module QuizRunner {
  import opened Wrappers
  import opened Seqs

  /** A practice question; its text may be absent. */
  datatype PracticeQuestion = PracticeQuestion(question: Option<string>, answer: string)

  /** A group of questions about one concept (`"questions"` defaults to `[]`). */
  datatype ConceptGroup = ConceptGroup(concept: Option<string>, questions: seq<PracticeQuestion>)

  /** One entry of `details`. */
  datatype Detail = Detail(
    question: Option<string>, studentAnswer: string, correctAnswer: string, isCorrect: bool, concept: Option<string>)

  datatype Grading = Grading(score: nat, total: nat, details: seq<Detail>)

  /** `student_answers.get(q_text, "")`. */
  function StudentAnswer(answers: map<string, string>, q: PracticeQuestion): string {
    if q.question.Some? && q.question.value in answers then answers[q.question.value] else ""
  }

  /** The detail recorded for question `q` of group `g`. */
  function Judge(g: ConceptGroup, q: PracticeQuestion, answers: map<string, string>,
                 equivalent: (string, string) -> bool): Detail
  {
    var a := StudentAnswer(answers, q);
    Detail(q.question, a, q.answer, equivalent(a, q.answer), g.concept)
  }

  /** The details of one group, question by question. */
  function GroupDetails(g: ConceptGroup, answers: map<string, string>, equivalent: (string, string) -> bool)
    : (ds: seq<Detail>)
    ensures |ds| == |g.questions|
    ensures forall k :: 0 <= k < |ds| ==> ds[k] == Judge(g, g.questions[k], answers, equivalent)
  {
    seq(|g.questions|, k requires 0 <= k < |g.questions| => Judge(g, g.questions[k], answers, equivalent))
  }

  /** The details of all groups, group after group. */
  function AllDetails(groups: seq<ConceptGroup>, answers: map<string, string>, equivalent: (string, string) -> bool)
    : seq<Detail>
  {
    if groups == [] then []
    else AllDetails(groups[..|groups| - 1], answers, equivalent) + GroupDetails(groups[|groups| - 1], answers, equivalent)
  }

  /** Number of questions over all groups. */
  function TotalQuestions(groups: seq<ConceptGroup>): nat {
    if groups == [] then 0 else TotalQuestions(groups[..|groups| - 1]) + |groups[|groups| - 1].questions|
  }

  predicate Correct(d: Detail) {
    d.isCorrect
  }

  /** There is one detail per question. */
  lemma {:induction false} OneDetailPerQuestion(groups: seq<ConceptGroup>, answers: map<string, string>,
                                                equivalent: (string, string) -> bool)
    ensures |AllDetails(groups, answers, equivalent)| == TotalQuestions(groups)
  {
    if groups != [] {
      OneDetailPerQuestion(groups[..|groups| - 1], answers, equivalent);
    }
  }

  /** Question `qi` of group `gi` is judged at position "questions of the
      earlier groups + qi": details come in group-then-question order. */
  lemma {:induction false} DetailsInOrder(groups: seq<ConceptGroup>, answers: map<string, string>,
                                          equivalent: (string, string) -> bool, gi: nat, qi: nat)
    requires gi < |groups| && qi < |groups[gi].questions|
    ensures TotalQuestions(groups[..gi]) + qi < |AllDetails(groups, answers, equivalent)|
    ensures AllDetails(groups, answers, equivalent)[TotalQuestions(groups[..gi]) + qi]
            == Judge(groups[gi], groups[gi].questions[qi], answers, equivalent)
    decreases |groups|
  {
    var init := groups[..|groups| - 1];
    OneDetailPerQuestion(init, answers, equivalent);
    if gi == |groups| - 1 {
      assert groups[..gi] == init;
    } else {
      DetailsInOrder(init, answers, equivalent, gi, qi);
      assert init[..gi] == groups[..gi];
      assert init[gi] == groups[gi];
    }
  }

  /** A question nobody answered is judged against the empty string. */
  lemma UnansweredJudgedAgainstEmpty(groups: seq<ConceptGroup>, answers: map<string, string>,
                                     equivalent: (string, string) -> bool, gi: nat, qi: nat)
    requires gi < |groups| && qi < |groups[gi].questions|
    requires groups[gi].questions[qi].question.None? || groups[gi].questions[qi].question.value !in answers
    ensures TotalQuestions(groups[..gi]) + qi < |AllDetails(groups, answers, equivalent)|
    ensures var d := AllDetails(groups, answers, equivalent)[TotalQuestions(groups[..gi]) + qi];
            d.studentAnswer == "" && d.isCorrect == equivalent("", groups[gi].questions[qi].answer)
  {
    DetailsInOrder(groups, answers, equivalent, gi, qi);
  }

  /** Grading one more group extends the details of the groups before it. */
  lemma GroupStep(groups: seq<ConceptGroup>, answers: map<string, string>,
                  equivalent: (string, string) -> bool, i: nat)
    requires i < |groups|
    ensures AllDetails(groups[..i + 1], answers, equivalent)
            == AllDetails(groups[..i], answers, equivalent) + GroupDetails(groups[i], answers, equivalent)
    ensures TotalQuestions(groups[..i + 1]) == TotalQuestions(groups[..i]) + |groups[i].questions|
  {
    assert groups[..i + 1][..i] == groups[..i];
  }

  /** `grade_quiz`: a missing practice set grades as nothing. */
  method GradeQuiz(practiceSet: Option<seq<ConceptGroup>>, answers: map<string, string>,
                   equivalent: (string, string) -> bool) returns (r: Grading)
    ensures r.details == AllDetails(practiceSet.GetOr([]), answers, equivalent)
    ensures r.total == |r.details| == TotalQuestions(practiceSet.GetOr([]))
    ensures r.score == Count(r.details, Correct) && r.score <= r.total
    ensures practiceSet.None? ==> r == Grading(0, 0, [])
  {
    var groups := practiceSet.GetOr([]);
    var score: nat := 0;
    var total: nat := 0;
    var details: seq<Detail> := [];
    var i := 0;
    while i < |groups|
      invariant 0 <= i <= |groups|
      invariant details == AllDetails(groups[..i], answers, equivalent)
      invariant total == |details| == TotalQuestions(groups[..i])
      invariant score == Count(details, Correct)
    {
      ghost var before := details;
      score, total, details := GradeGroup(groups[i], answers, equivalent, score, total, details);
      CountConcat(before, GroupDetails(groups[i], answers, equivalent), Correct);
      GroupStep(groups, answers, equivalent, i);
      i := i + 1;
    }
    assert groups[..|groups|] == groups;
    r := Grading(score, total, details);
  }

  /** The inner loop of `grade_quiz`: judge the questions of one group,
      counting and recording each. */
  method GradeGroup(g: ConceptGroup, answers: map<string, string>, equivalent: (string, string) -> bool,
                    score0: nat, total0: nat, details0: seq<Detail>)
    returns (score: nat, total: nat, details: seq<Detail>)
    ensures details == details0 + GroupDetails(g, answers, equivalent)
    ensures total == total0 + |g.questions|
    ensures score == score0 + Count(GroupDetails(g, answers, equivalent), Correct)
  {
    score, total, details := score0, total0, details0;
    ghost var judged := GroupDetails(g, answers, equivalent);
    var j := 0;
    while j < |g.questions|
      invariant 0 <= j <= |g.questions|
      invariant details == details0 + judged[..j]
      invariant total == total0 + j
      invariant score == score0 + Count(judged[..j], Correct)
    {
      var d := Judge(g, g.questions[j], answers, equivalent);
      assert d == judged[j];
      CountPrefixStep(judged, Correct, j);
      total := total + 1;
      if d.isCorrect {
        score := score + 1;
      }
      details := details + [d];
      PrefixStep(judged, j);
      assert score == score0 + Count(judged[..j + 1], Correct);
      j := j + 1;
    }
    assert judged[..|g.questions|] == judged;
  }
}

=== FILE: ranking.dfy ===
/** Stable selection of the `k` entries with the smallest keys, in ascending
    key order with ties kept in input order. This is what Python's
    `sorted(xs, key=f)[:k]` (a stable sort followed by a slice) returns, and,
    with the keys negated, what `ORDER BY t DESC LIMIT k` returns when equal
    `t` keep insertion order. Results are indices into the key sequence. */
module Ranking {

  /** Index `i` comes before index `j` in a stable ascending sort of `keys`. */
  predicate Before(keys: seq<real>, i: nat, j: nat)
    requires i < |keys| && j < |keys|
  {
    keys[i] < keys[j] || (keys[i] == keys[j] && i < j)
  }

  predicate InRange(keys: seq<real>, cand: seq<nat>) {
    forall i :: 0 <= i < |cand| ==> cand[i] < |keys|
  }

  predicate Distinct(s: seq<nat>) {
    forall i, j :: 0 <= i < j < |s| ==> s[i] != s[j]
  }

  /** Position in `cand` of the candidate that comes first in the stable order. */
  function ArgMinAt(keys: seq<real>, cand: seq<nat>): (p: nat)
    requires InRange(keys, cand) && |cand| > 0
    ensures p < |cand|
    ensures forall q :: 0 <= q < |cand| && cand[q] != cand[p] ==> Before(keys, cand[p], cand[q])
    decreases |cand|
  {
    if |cand| == 1 then 0
    else
      assert forall q :: 1 <= q < |cand| ==> cand[q] == cand[1..][q - 1];
      var p' := ArgMinAt(keys, cand[1..]);
      if cand[0] == cand[1..][p'] || Before(keys, cand[0], cand[1..][p']) then 0 else p' + 1
  }

  /** `cand` without its entry at position `p`. */
  function RemoveAt(cand: seq<nat>, p: nat): (rest: seq<nat>)
    requires p < |cand|
    ensures |rest| == |cand| - 1
    ensures forall i :: 0 <= i < |rest| ==> rest[i] == if i < p then cand[i] else cand[i + 1]
    ensures forall c :: c in cand && c != cand[p] ==> c in rest
    ensures Distinct(cand) ==> Distinct(rest) && cand[p] !in rest
  {
    var rest := cand[..p] + cand[p + 1..];
    assert forall i :: 0 <= i < |cand| && i != p ==> cand[i] == rest[if i < p then i else i - 1];
    rest
  }

  /** What `TopK` promises of `r` for candidates `cand` and bound `k`. */
  predicate IsTopK(keys: seq<real>, cand: seq<nat>, k: nat, r: seq<nat>)
    requires InRange(keys, cand)
  {
    && |r| == (if k < |cand| then k else |cand|)
    && (forall i :: 0 <= i < |r| ==> r[i] in cand)
    && (forall i :: 0 <= i < |r| ==> r[i] < |keys|)
    && (forall i, j :: 0 <= i < j < |r| ==> Before(keys, r[i], r[j]))
    && (forall i, c :: 0 <= i < |r| && c in cand && c !in r ==> c < |keys| && Before(keys, r[i], c))
  }

  /** Putting the first candidate in front of the top `k - 1` of the others
      gives the top `k`. */
  lemma TopKStep(keys: seq<real>, cand: seq<nat>, k: nat, p: nat, tail: seq<nat>)
    requires InRange(keys, cand) && Distinct(cand) && k > 0 && p < |cand|
    requires forall q :: 0 <= q < |cand| && cand[q] != cand[p] ==> Before(keys, cand[p], cand[q])
    requires InRange(keys, RemoveAt(cand, p)) && IsTopK(keys, RemoveAt(cand, p), k - 1, tail)
    ensures IsTopK(keys, cand, k, [cand[p]] + tail)
  {
    var rest := RemoveAt(cand, p);
    var r := [cand[p]] + tail;
    assert forall i :: 1 <= i < |r| ==> r[i] == tail[i - 1];
    assert forall c :: c in rest ==> c in cand;
    assert forall c :: c in cand ==> c < |keys|;
    forall i, c | 0 <= i < |r| && c in cand && c !in r
      ensures c < |keys| && Before(keys, r[i], c)
    {
      assert c != cand[p] && c in rest;
      if i == 0 {
        var q :| 0 <= q < |cand| && cand[q] == c;
      }
    }
  }

  /** The first `k` candidates of `cand` in the stable order. */
  function TopK(keys: seq<real>, cand: seq<nat>, k: nat): (r: seq<nat>)
    requires InRange(keys, cand) && Distinct(cand)
    ensures IsTopK(keys, cand, k, r)
    decreases k
  {
    if k == 0 || |cand| == 0 then []
    else
      var p := ArgMinAt(keys, cand);
      var rest := RemoveAt(cand, p);
      var tail := TopK(keys, rest, k - 1);
      TopKStep(keys, cand, k, p, tail);
      [cand[p]] + tail
  }

  function Range(n: nat): (r: seq<nat>)
    ensures |r| == n && forall i :: 0 <= i < n ==> r[i] == i
  {
    if n == 0 then [] else Range(n - 1) + [n - 1]
  }

  /** Indices of the `k` smallest keys in stable ascending order:
      `sorted(range(len(keys)), key=keys.__getitem__)[:k]`. */
  function Lowest(keys: seq<real>, k: nat): (r: seq<nat>)
    ensures |r| == if k < |keys| then k else |keys|
    ensures forall i :: 0 <= i < |r| ==> r[i] < |keys|
    ensures forall i, j :: 0 <= i < j < |r| ==> Before(keys, r[i], r[j])
    ensures forall i, c :: 0 <= i < |r| && 0 <= c < |keys| && c !in r ==> Before(keys, r[i], c)
  {
    var all := Range(|keys|);
    assert forall c :: 0 <= c < |keys| ==> c in all by {
      forall c | 0 <= c < |keys| ensures c in all { assert all[c] == c; }
    }
    var r := TopK(keys, all, k);
    assert IsTopK(keys, all, k, r);
    r
  }

  /** Entries with equal keys keep their input order: if the later one is
      selected, so is the earlier one, and it is listed first. */
  lemma LowestIsStable(keys: seq<real>, k: nat, a: nat, b: nat)
    requires a < b < |keys| && keys[a] == keys[b]
    requires b in Lowest(keys, k)
    ensures a in Lowest(keys, k)
    ensures forall i, j ::
              && 0 <= i < |Lowest(keys, k)| && 0 <= j < |Lowest(keys, k)|
              && Lowest(keys, k)[i] == a && Lowest(keys, k)[j] == b
              ==> i < j
  {
  }
}

=== FILE: scheduler_agent.dfy ===
/** Chooses the focus of the next practice session: the three concepts with
    the lowest mastery, by a stable ascending sort on the score. */
module SchedulerAgent {
  import opened Wrappers
  import opened Ranking
  import MemoryBank

  /** How many concepts a session focuses on. */
  const FocusSize: nat := 3

  function Scores(status: seq<MemoryBank.Mastery>): (keys: seq<real>)
    ensures |keys| == |status|
    ensures forall i :: 0 <= i < |status| ==> keys[i] == status[i].masteryScore
  {
    seq(|status|, i requires 0 <= i < |status| => status[i].masteryScore)
  }

  /** Positions in `status` of the chosen concepts, weakest first: there
      are `min(3, n)` of them, all different, and none has a higher score
      than a concept left out. */
  function FocusPositions(status: seq<MemoryBank.Mastery>): (ps: seq<nat>)
    ensures |ps| == if |status| < FocusSize then |status| else FocusSize
    ensures forall i :: 0 <= i < |ps| ==> ps[i] < |status|
    ensures forall i, j :: 0 <= i < j < |ps| ==> ps[i] != ps[j]
    ensures forall i, j :: 0 <= i < j < |ps| ==> status[ps[i]].masteryScore <= status[ps[j]].masteryScore
    ensures forall i, c :: 0 <= i < |ps| && 0 <= c < |status| && c !in ps ==>
              status[ps[i]].masteryScore <= status[c].masteryScore
  {
    var keys := Scores(status);
    var ps := Lowest(keys, FocusSize);
    forall i, j | 0 <= i < j < |ps|
      ensures ps[i] != ps[j] && status[ps[i]].masteryScore <= status[ps[j]].masteryScore
    {
      assert Before(keys, ps[i], ps[j]);
    }
    forall i, c | 0 <= i < |ps| && 0 <= c < |status| && c !in ps
      ensures status[ps[i]].masteryScore <= status[c].masteryScore
    {
      assert Before(keys, ps[i], c);
    }
    ps
  }

  /** The concept ids at the given positions, in order. */
  function ConceptsAt(status: seq<MemoryBank.Mastery>, ps: seq<nat>): (ids: seq<Option<string>>)
    requires forall i :: 0 <= i < |ps| ==> ps[i] < |status|
    ensures |ids| == |ps| && forall i :: 0 <= i < |ps| ==> ids[i] == status[ps[i]].conceptId
  {
    seq(|ps|, i requires 0 <= i < |ps| => status[ps[i]].conceptId)
  }

  /** `schedule_next_session`'s `next_session_focus`: the concept ids at
      those positions. */
  function NextSessionFocus(status: seq<MemoryBank.Mastery>): (focus: seq<Option<string>>)
    ensures |focus| == if |status| < FocusSize then |status| else FocusSize
    ensures forall i :: 0 <= i < |focus| ==> focus[i] == status[FocusPositions(status)[i]].conceptId
  {
    ConceptsAt(status, FocusPositions(status))
  }

  /** Equal scores keep their input order: if the later of two equally
      weak concepts is chosen, so is the earlier one, and it comes first. */
  lemma FocusIsStable(status: seq<MemoryBank.Mastery>, a: nat, b: nat)
    requires a < b < |status| && status[a].masteryScore == status[b].masteryScore
    requires b in FocusPositions(status)
    ensures a in FocusPositions(status)
    ensures forall i, j ::
              && 0 <= i < |FocusPositions(status)| && 0 <= j < |FocusPositions(status)|
              && FocusPositions(status)[i] == a && FocusPositions(status)[j] == b
              ==> i < j
  {
    LowestIsStable(Scores(status), FocusSize, a, b);
  }
}

=== FILE: seqs.dfy ===
/** Sequence helpers shared by the modules: selection by a predicate (a list
    comprehension with an `if`, or a `WHERE` clause) and counting. */
module Seqs {

  /** The elements of `s` that satisfy `p`, in order. */
  function Filter<T(!new)>(s: seq<T>, p: T -> bool): (r: seq<T>)
    ensures |r| <= |s|
    ensures (exists x :: x in s && !p(x)) ==> |r| < |s|
    ensures forall x :: x in r <==> x in s && p(x)
  {
    if s == [] then []
    else if p(s[0]) then [s[0]] + Filter(s[1..], p)
    else Filter(s[1..], p)
  }

  /** How many elements of `s` satisfy `p`; defined from the back so that a
      loop over a prefix adds one element at a time. */
  function Count<T>(s: seq<T>, p: T -> bool): (c: nat)
    ensures c <= |s|
  {
    if s == [] then 0
    else Count(s[..|s| - 1], p) + (if p(s[|s| - 1]) then 1 else 0)
  }

  /** Counting over one more element of a prefix. */
  lemma CountPrefixStep<T>(s: seq<T>, p: T -> bool, i: nat)
    requires i < |s|
    ensures Count(s[..i + 1], p) == Count(s[..i], p) + (if p(s[i]) then 1 else 0)
  {
    assert s[..i + 1][..i] == s[..i];
  }

  /** Counting over one more element at the back. */
  lemma CountAppend<T>(s: seq<T>, x: T, p: T -> bool)
    ensures Count(s + [x], p) == Count(s, p) + (if p(x) then 1 else 0)
  {
    assert (s + [x])[..|s|] == s;
  }

  /** A prefix one longer is the prefix and the next element. */
  lemma PrefixStep<T>(s: seq<T>, i: nat)
    requires i < |s|
    ensures s[..i + 1] == s[..i] + [s[i]]
  {
  }

  /** Counting over a concatenation adds the counts. */
  lemma {:induction false} CountConcat<T>(a: seq<T>, b: seq<T>, p: T -> bool)
    ensures Count(a + b, p) == Count(a, p) + Count(b, p)
    decreases |b|
  {
    if b == [] {
      assert a + b == a;
    } else {
      CountConcat(a, b[..|b| - 1], p);
      assert (a + b)[..|a + b| - 1] == a + b[..|b| - 1];
    }
  }

  /** Filtering one more element at the back: it is kept exactly when it
      satisfies `p`, after the elements kept before it. */
  lemma {:induction false} FilterAppend<T(!new)>(s: seq<T>, x: T, p: T -> bool)
    ensures Filter(s + [x], p) == Filter(s, p) + (if p(x) then [x] else [])
  {
    if s != [] {
      assert (s + [x])[1..] == s[1..] + [x];
      FilterAppend(s[1..], x, p);
    }
  }

  /** A filter that rejects nothing returns its input unchanged. */
  lemma {:induction false} FilterAll<T(!new)>(s: seq<T>, p: T -> bool)
    requires forall i :: 0 <= i < |s| ==> p(s[i])
    ensures Filter(s, p) == s
  {
    if s != [] {
      FilterAll(s[1..], p);
    }
  }
}

=== FILE: text.dfy ===
/** String operations the backend borrows from Python's `str` and the client
    from JavaScript's `String`, written out so that their contracts can be
    stated: whitespace stripping, ASCII case mapping, prefix/suffix tests,
    substring search, `replace`, `join`, and decimal rendering of indices. */
module Text {

  /** The characters Python's `str.isspace()` accepts, i.e. the ones
      `str.strip()` removes when called without arguments. */
  predicate IsPyWhitespace(c: char) {
    || ('\t' <= c <= '\r')
    || ('\U{001C}' <= c <= ' ')
    || c == '\U{0085}' || c == '\U{00A0}' || c == '\U{1680}'
    || ('\U{2000}' <= c <= '\U{200A}')
    || c == '\U{2028}' || c == '\U{2029}' || c == '\U{202F}' || c == '\U{205F}' || c == '\U{3000}'
  }

  /** The characters JavaScript's `String.prototype.trim()` removes. */
  predicate IsJsWhitespace(c: char) {
    || ('\t' <= c <= '\r')
    || c == ' ' || c == '\U{00A0}' || c == '\U{1680}'
    || ('\U{2000}' <= c <= '\U{200A}')
    || c == '\U{2028}' || c == '\U{2029}' || c == '\U{202F}' || c == '\U{205F}' || c == '\U{3000}'
    || c == '\U{FEFF}'
  }

  predicate AllPyWhitespace(s: string) {
    forall i :: 0 <= i < |s| ==> IsPyWhitespace(s[i])
  }

  /** `input.trim()` is the empty (falsy) string exactly when every character is trimmed. */
  predicate IsBlankJs(s: string) {
    forall i :: 0 <= i < |s| ==> IsJsWhitespace(s[i])
  }

  /** Number of whitespace characters at the front of `s`. */
  function LeadingWhitespace(s: string): (n: nat)
    ensures n <= |s|
    ensures AllPyWhitespace(s[..n])
    ensures n < |s| ==> !IsPyWhitespace(s[n])
  {
    if |s| > 0 && IsPyWhitespace(s[0]) then
      var m := LeadingWhitespace(s[1..]);
      assert s[..m + 1] == [s[0]] + s[1..][..m];
      m + 1
    else 0
  }

  /** Number of whitespace characters at the end of `s`. */
  function TrailingWhitespace(s: string): (n: nat)
    ensures n <= |s|
    ensures AllPyWhitespace(s[|s| - n..])
    ensures n < |s| ==> !IsPyWhitespace(s[|s| - 1 - n])
  {
    if |s| > 0 && IsPyWhitespace(s[|s| - 1]) then
      var t := s[..|s| - 1];
      var m := TrailingWhitespace(t);
      TrailingStep(s, m);
      m + 1
    else 0
  }

  /** A whitespace run before the last character, which is whitespace too,
      makes one longer run. */
  lemma TrailingStep(s: string, m: nat)
    requires |s| > 0 && m < |s| && IsPyWhitespace(s[|s| - 1])
    requires AllPyWhitespace(s[..|s| - 1][|s| - 1 - m..])
    ensures AllPyWhitespace(s[|s| - (m + 1)..])
  {
    var t := s[..|s| - 1];
    var u := s[|s| - (m + 1)..];
    forall j | 0 <= j < |u| ensures IsPyWhitespace(u[j]) {
      if j < m {
        assert u[j] == t[|t| - m..][j];
      }
    }
  }

  /** Python `s.strip()`: `s` with surrounding whitespace removed. The
      result is a slice of `s`, everything cut away is whitespace, and the
      result neither starts nor ends with whitespace. */
  function Strip(s: string): (r: string)
    ensures |r| <= |s|
    ensures r == [] || (!IsPyWhitespace(r[0]) && !IsPyWhitespace(r[|r| - 1]))
    ensures exists i :: 0 <= i <= |s| - |r| && StrippedAt(s, i, r)
  {
    var i := LeadingWhitespace(s);
    var t := s[i..];
    var r := t[..|t| - TrailingWhitespace(t)];
    assert s[i..i + |r|] == r;
    assert s[i + |r|..] == t[|t| - TrailingWhitespace(t)..];
    assert StrippedAt(s, i, r);
    r
  }

  /** `s` is `r` surrounded by whitespace, with `r` starting at index `i`. */
  predicate StrippedAt(s: string, i: nat, r: string) {
    && i + |r| <= |s|
    && s[i..i + |r|] == r
    && AllPyWhitespace(s[..i])
    && AllPyWhitespace(s[i + |r|..])
  }

  /** A non-whitespace character of `s` lies inside the part `StrippedAt` keeps. */
  lemma NonWhitespaceInside(s: string, i: nat, r: string)
    requires StrippedAt(s, i, r)
    ensures forall k :: 0 <= k < |s| && !IsPyWhitespace(s[k]) ==> i <= k < i + |r|
  {
    assert forall k :: 0 <= k < i ==> s[k] == s[..i][k];
    assert forall k :: i + |r| <= k < |s| ==> s[k] == s[i + |r|..][k - (i + |r|)];
  }

  lemma AllPyWhitespaceConcat(a: string, b: string)
    requires AllPyWhitespace(a) && AllPyWhitespace(b)
    ensures AllPyWhitespace(a + b)
  {
    assert forall k :: 0 <= k < |a| + |b| ==> (a + b)[k] == if k < |a| then a[k] else b[k - |a|];
  }

  /** Strip is determined by its contract: any way of writing `s` as
      whitespace + `r` + whitespace, with `r` not starting or ending in
      whitespace, gives `Strip(s) == r`. */
  lemma StripUnique(s: string, i: nat, r: string)
    requires StrippedAt(s, i, r)
    requires r == [] || (!IsPyWhitespace(r[0]) && !IsPyWhitespace(r[|r| - 1]))
    ensures Strip(s) == r
  {
    var r' := Strip(s);
    var j :| 0 <= j <= |s| - |r'| && StrippedAt(s, j, r');
    NonWhitespaceInside(s, i, r);
    NonWhitespaceInside(s, j, r');
    assert r != [] ==> s[i] == r[0] && s[i + |r| - 1] == r[|r| - 1];
    assert r' != [] ==> s[j] == r'[0] && s[j + |r'| - 1] == r'[|r'| - 1];
    assert r != [] ==> j <= i < j + |r'|;
    assert r' != [] ==> i <= j < i + |r|;
    assert r != [] ==> i + |r| <= j + |r'|;
    assert r' != [] ==> j + |r'| <= i + |r|;
  }

  /** Whitespace around `s` extends the whitespace around its stripped part. */
  lemma PaddedStrippedAt(p: string, s: string, q: string, i: nat, r: string)
    requires AllPyWhitespace(p) && AllPyWhitespace(q) && StrippedAt(s, i, r)
    ensures StrippedAt(p + s + q, |p| + i, r)
  {
    var x := p + s + q;
    var k := |p| + i;
    forall j | 0 <= j < k ensures IsPyWhitespace(x[..k][j]) {
      if j < |p| {
        assert x[..k][j] == p[j];
      } else {
        assert x[..k][j] == s[..i][j - |p|];
      }
    }
    var tail := x[k + |r|..];
    var n := |s| - (i + |r|);
    forall j | 0 <= j < |tail| ensures IsPyWhitespace(tail[j]) {
      if j < n {
        assert tail[j] == s[i + |r|..][j];
      } else {
        assert tail[j] == q[j - n];
      }
    }
    forall j | 0 <= j < |r| ensures x[k..k + |r|][j] == r[j] {
      assert x[k..k + |r|][j] == s[i..i + |r|][j];
    }
  }

  /** Surrounding whitespace never changes what `strip()` returns. */
  lemma StripIgnoresPadding(p: string, s: string, q: string)
    requires AllPyWhitespace(p) && AllPyWhitespace(q)
    ensures Strip(p + s + q) == Strip(s)
  {
    var r := Strip(s);
    var i :| 0 <= i <= |s| - |r| && StrippedAt(s, i, r);
    PaddedStrippedAt(p, s, q, i, r);
    StripUnique(p + s + q, |p| + i, r);
  }

  /** Stripping twice is stripping once. */
  lemma StripIdempotent(s: string)
    ensures Strip(Strip(s)) == Strip(s)
  {
    var r := Strip(s);
    assert r[0..0 + |r|] == r;
    assert r[..0] == [] && r[0 + |r|..] == [];
    StripUnique(r, 0, r);
  }

  /** ASCII upper-casing of one character. */
  function UpperChar(c: char): char {
    if 'a' <= c <= 'z' then (c as int - 32) as char else c
  }

  /** ASCII lower-casing of one character. */
  function LowerChar(c: char): char {
    if 'A' <= c <= 'Z' then (c as int + 32) as char else c
  }

  /** `s.upper()`, on the ASCII letters. */
  function Upper(s: string): (r: string)
    ensures |r| == |s|
    ensures forall i :: 0 <= i < |s| ==> r[i] == UpperChar(s[i])
  {
    seq(|s|, i requires 0 <= i < |s| => UpperChar(s[i]))
  }

  /** `s.lower()`, on the ASCII letters. */
  function Lower(s: string): (r: string)
    ensures |r| == |s|
    ensures forall i :: 0 <= i < |s| ==> r[i] == LowerChar(s[i])
  {
    seq(|s|, i requires 0 <= i < |s| => LowerChar(s[i]))
  }

  /** Two strings that differ only in the case of ASCII letters upper-case alike. */
  lemma UpperIgnoresCase(s: string)
    ensures Upper(Lower(s)) == Upper(s)
  {
  }

  lemma LowerCharWhitespace(c: char)
    ensures IsPyWhitespace(LowerChar(c)) <==> IsPyWhitespace(c)
  {
  }

  /** Lower-casing keeps the split of `s` into whitespace, `r`, whitespace. */
  lemma LowerStrippedAt(s: string, i: nat, r: string)
    requires StrippedAt(s, i, r)
    ensures StrippedAt(Lower(s), i, Lower(r))
  {
    var l := Lower(s);
    forall k | 0 <= k < i ensures IsPyWhitespace(l[..i][k]) {
      assert s[..i][k] == s[k];
      LowerCharWhitespace(s[k]);
    }
    var tail := l[i + |r|..];
    forall k | 0 <= k < |tail| ensures IsPyWhitespace(tail[k]) {
      assert s[i + |r|..][k] == s[i + |r| + k];
      LowerCharWhitespace(s[i + |r| + k]);
    }
    forall k | 0 <= k < |r| ensures l[i..i + |r|][k] == Lower(r)[k] {
      assert s[i..i + |r|][k] == s[i + k];
    }
  }

  /** Python `str.lower()` keeps whitespace whitespace and the rest not, so
      lower-casing commutes with stripping. */
  lemma StripLower(s: string)
    ensures Strip(Lower(s)) == Lower(Strip(s))
  {
    var r := Strip(s);
    var i :| 0 <= i <= |s| - |r| && StrippedAt(s, i, r);
    LowerStrippedAt(s, i, r);
    var lr := Lower(r);
    if r != [] {
      assert lr[0] == LowerChar(r[0]) && lr[|lr| - 1] == LowerChar(r[|r| - 1]);
      LowerCharWhitespace(r[0]);
      LowerCharWhitespace(r[|r| - 1]);
    } else {
      assert lr == [];
    }
    StripUnique(Lower(s), i, lr);
  }

  predicate StartsWith(s: string, prefix: string) {
    |prefix| <= |s| && s[..|prefix|] == prefix
  }

  predicate EndsWith(s: string, suffix: string) {
    |suffix| <= |s| && s[|s| - |suffix|..] == suffix
  }

  /** Python `sub in s`. */
  predicate Contains(s: string, sub: string)
    decreases |s|
  {
    StartsWith(s, sub) || (|s| > 0 && Contains(s[1..], sub))
  }

  /** `sub` occurs in `s` starting at index `i`. */
  predicate OccursAt(s: string, sub: string, i: int) {
    0 <= i <= |s| - |sub| && s[i..i + |sub|] == sub
  }

  /** `Contains` holds exactly when `sub` occurs at some index of `s`. */
  lemma {:induction false} ContainsIffOccurs(s: string, sub: string)
    ensures Contains(s, sub) <==> exists i :: OccursAt(s, sub, i)
    decreases |s|
  {
    assert StartsWith(s, sub) <==> OccursAt(s, sub, 0);
    if |s| > 0 {
      ContainsIffOccurs(s[1..], sub);
      forall i | OccursAt(s[1..], sub, i) ensures OccursAt(s, sub, i + 1) {
        assert s[1..][i..i + |sub|] == s[i + 1..i + 1 + |sub|];
      }
      forall i | OccursAt(s, sub, i) && i > 0 ensures OccursAt(s[1..], sub, i - 1) {
        assert s[1..][i - 1..i - 1 + |sub|] == s[i..i + |sub|];
      }
    }
  }

  /** Python `sep.join(parts)`. */
  function Join(parts: seq<string>, sep: string): string {
    if |parts| == 0 then ""
    else if |parts| == 1 then parts[0]
    else parts[0] + sep + Join(parts[1..], sep)
  }

  /** The pieces of `s` between the occurrences of `pat` that a left-to-right
      scan finds, as Python's `s.split(pat)` returns them. */
  function Split(s: string, pat: string): (pieces: seq<string>)
    requires |pat| > 0
    ensures |pieces| >= 1
    decreases |s|
  {
    if |s| < |pat| then [s]
    else if s[..|pat|] == pat then [""] + Split(s[|pat|..], pat)
    else
      var rest := Split(s[1..], pat);
      [[s[0]] + rest[0]] + rest[1..]
  }

  /** Python `s.replace(pat, rep)` for a non-empty `pat`. */
  function ReplaceAll(s: string, pat: string, rep: string): string
    requires |pat| > 0
    decreases |s|
  {
    if |s| < |pat| then s
    else if s[..|pat|] == pat then rep + ReplaceAll(s[|pat|..], pat, rep)
    else [s[0]] + ReplaceAll(s[1..], pat, rep)
  }

  lemma JoinExtendFirst(c: string, parts: seq<string>, sep: string)
    requires |parts| >= 1
    ensures Join([c + parts[0]] + parts[1..], sep) == c + Join(parts, sep)
  {
    var l := [c + parts[0]] + parts[1..];
    if |parts| > 1 {
      assert l[1..] == parts[1..];
    }
  }

  /** Splitting on `pat` and joining with `pat` gives back the original. */
  lemma {:induction false} SplitJoin(s: string, pat: string)
    requires |pat| > 0
    ensures Join(Split(s, pat), pat) == s
    decreases |s|
  {
    if |s| < |pat| {
    } else if s[..|pat|] == pat {
      var rest := Split(s[|pat|..], pat);
      SplitJoin(s[|pat|..], pat);
      assert ([""] + rest)[1..] == rest;
      assert s == pat + s[|pat|..];
    } else {
      var rest := Split(s[1..], pat);
      SplitJoin(s[1..], pat);
      JoinExtendFirst([s[0]], rest, pat);
      assert s == [s[0]] + s[1..];
    }
  }

  /** `replace` puts `rep` exactly where `split` cuts. */
  lemma {:induction false} ReplaceIsJoinOfSplit(s: string, pat: string, rep: string)
    requires |pat| > 0
    ensures ReplaceAll(s, pat, rep) == Join(Split(s, pat), rep)
    decreases |s|
  {
    if |s| < |pat| {
    } else if s[..|pat|] == pat {
      var rest := Split(s[|pat|..], pat);
      ReplaceIsJoinOfSplit(s[|pat|..], pat, rep);
      assert ([""] + rest)[1..] == rest;
    } else {
      var rest := Split(s[1..], pat);
      ReplaceIsJoinOfSplit(s[1..], pat, rep);
      JoinExtendFirst([s[0]], rest, rep);
    }
  }

  /** A string never contains a longer one. */
  lemma {:induction false} ContainsNeedsRoom(s: string, sub: string)
    ensures Contains(s, sub) ==> |sub| <= |s|
    decreases |s|
  {
    if |s| > 0 {
      ContainsNeedsRoom(s[1..], sub);
    }
  }

  lemma JoinStartsWithFirst(parts: seq<string>, sep: string)
    requires |parts| >= 1
    ensures StartsWith(Join(parts, sep), parts[0])
  {
  }

  /** No piece of a split contains the pattern: every occurrence of `pat`
      in `s` is one that `Split` cuts at (and `ReplaceAll` replaces). */
  lemma {:induction false} SplitPiecesAreFree(s: string, pat: string, k: nat)
    requires |pat| > 0
    requires k < |Split(s, pat)|
    ensures !Contains(Split(s, pat)[k], pat)
    decreases |s|
  {
    var pieces := Split(s, pat);
    if |s| < |pat| {
      ContainsNeedsRoom(s, pat);
    } else if s[..|pat|] == pat {
      var rest := Split(s[|pat|..], pat);
      if k > 0 {
        SplitPiecesAreFree(s[|pat|..], pat, k - 1);
        assert pieces[k] == rest[k - 1];
      } else {
        ContainsNeedsRoom("", pat);
      }
    } else {
      var rest := Split(s[1..], pat);
      if k > 0 {
        SplitPiecesAreFree(s[1..], pat, k);
        assert pieces[k] == rest[k];
      } else {
        var first := [s[0]] + rest[0];
        SplitPiecesAreFree(s[1..], pat, 0);
        assert first[1..] == rest[0];
        // first is a prefix of s, and s does not start with pat
        SplitJoin(s[1..], pat);
        JoinStartsWithFirst(rest, pat);
        assert s[1..][..|rest[0]|] == rest[0];
        assert s[..|first|] == first;
        assert |pat| <= |first| ==> s[..|pat|] == first[..|pat|];
        assert !StartsWith(first, pat);
      }
    }
  }

  function DigitChar(d: nat): char
    requires d < 10
  {
    ('0' as int + d) as char
  }

  predicate IsDigits(s: string) {
    forall i :: 0 <= i < |s| ==> '0' <= s[i] <= '9'
  }

  /** Decimal rendering of a natural number: Python `str(i)`, JavaScript `String(i)`. */
  function NatToString(n: nat): (s: string)
    ensures |s| >= 1 && IsDigits(s)
    decreases n
  {
    if n < 10 then [DigitChar(n)] else NatToString(n / 10) + [DigitChar(n % 10)]
  }

  /** The number a string of decimal digits denotes. */
  function DecimalValue(s: string): nat
    requires IsDigits(s)
  {
    if s == [] then 0 else 10 * DecimalValue(s[..|s| - 1]) + (s[|s| - 1] as int - '0' as int)
  }

  /** Reading back a rendered number gives the number. */
  lemma {:induction false} DecimalRoundTrip(n: nat)
    ensures DecimalValue(NatToString(n)) == n
    decreases n
  {
    var s := NatToString(n);
    if n >= 10 {
      DecimalRoundTrip(n / 10);
      assert s[..|s| - 1] == NatToString(n / 10);
    }
  }

  /** Distinct numbers render to distinct strings, so the string keys
      `str(i)` of distinct question indices never collide. */
  lemma NatToStringInjective(a: nat, b: nat)
    ensures NatToString(a) == NatToString(b) ==> a == b
  {
    DecimalRoundTrip(a);
    DecimalRoundTrip(b);
  }

  /** No character of `s` is `c`. */
  predicate Avoids(s: string, c: char) {
    forall i :: 0 <= i < |s| ==> s[i] != c
  }

  /** Two texts without `c` joined have none either. */
  lemma AvoidsConcat(a: string, b: string, c: char)
    requires Avoids(a, c) && Avoids(b, c)
    ensures Avoids(a + b, c)
  {
    assert forall i :: |a| <= i < |a + b| ==> (a + b)[i] == b[i - |a|];
  }

  /** A string without the first character of `pat` is one piece. */
  lemma {:induction false} SplitFree(a: string, pat: string)
    requires |pat| > 0 && Avoids(a, pat[0])
    ensures Split(a, pat) == [a]
    decreases |a|
  {
    if |a| >= |pat| {
      assert a[..|pat|][0] == a[0];
      SplitFree(a[1..], pat);
      assert [a[0]] + a[1..] == a;
    }
  }

  /** A piece without the first character of `pat`, then `pat`, is cut off
      as the first piece. */
  lemma {:induction false} SplitFreeHead(a: string, pat: string, rest: string)
    requires |pat| > 0 && Avoids(a, pat[0])
    ensures Split(a + pat + rest, pat) == [a] + Split(rest, pat)
    decreases |a|
  {
    var s := a + pat + rest;
    if a == [] {
      assert s[..|pat|] == pat && s[|pat|..] == rest;
    } else {
      assert s[..|pat|][0] == a[0];
      assert s[1..] == a[1..] + pat + rest;
      SplitFreeHead(a[1..], pat, rest);
      assert [a[0]] + a[1..] == a;
    }
  }

  /** Joining pieces that avoid the first character of the separator and
      splitting again gives the pieces back. */
  lemma {:induction false} JoinSplit(parts: seq<string>, sep: string)
    requires |sep| > 0 && |parts| >= 1
    requires forall k :: 0 <= k < |parts| ==> Avoids(parts[k], sep[0])
    ensures Split(Join(parts, sep), sep) == parts
    decreases |parts|
  {
    if |parts| == 1 {
      SplitFree(parts[0], sep);
    } else {
      JoinSplit(parts[1..], sep);
      SplitFreeHead(parts[0], sep, Join(parts[1..], sep));
      assert [parts[0]] + parts[1..] == parts;
    }
  }

  /** `replace` leaves a prefix without the first character of `pat` alone. */
  lemma {:induction false} ReplaceSkipsFreePrefix(p: string, s: string, pat: string, rep: string)
    requires |pat| > 0 && Avoids(p, pat[0])
    ensures ReplaceAll(p + s, pat, rep) == p + ReplaceAll(s, pat, rep)
    decreases |p|
  {
    var x := p + s;
    if p == [] {
      assert x == s;
    } else {
      assert x[1..] == p[1..] + s;
      ReplaceSkipsFreePrefix(p[1..], s, pat, rep);
      if |x| >= |pat| {
        assert x[..|pat|][0] == p[0];
        assert ReplaceAll(x, pat, rep) == [p[0]] + (p[1..] + ReplaceAll(s, pat, rep));
      } else {
        ReplaceShort(s, pat, rep);
      }
      assert [p[0]] + p[1..] == p;
    }
  }

  lemma ReplaceShort(s: string, pat: string, rep: string)
    requires |pat| > 0 && |s| < |pat|
    ensures ReplaceAll(s, pat, rep) == s
  {
  }
}

=== FILE: transcript.dfy ===
/** The chat transcript and analysis bodies exchanged between the chat
    client, the analysis view and the `/chat/analyze` handler. JSON objects
    are records whose optional keys are `Option`s: `None` is a key that is
    absent (JavaScript drops keys whose value is `undefined`). */
module Transcript {
  import opened Wrappers

  /** A JSON value found under the `is_correct` key of a message. */
  datatype Flag =
    | FlagBool(b: bool)
    | FlagText(s: string)
    /** `null`, a number, or any other JSON value. */
    | FlagOther

  /** One transcript entry: `role` is "ai" or "user"; `isCorrect` is the
      tutor model's verdict carried by an ai reply, when the reply had one. */
  datatype ChatMessage = ChatMessage(role: string, content: string, isCorrect: Option<Flag>)

  /** The `session_data` object of an analyze request. */
  datatype SessionData = SessionData(
    subject: Option<string>,
    difficulty: Option<string>,
    gradeLevel: Option<string>,
    messages: Option<seq<ChatMessage>>)

  /** A session object with none of the keys the server reads. */
  const NoSessionData: SessionData := SessionData(None, None, None, None)

  /** An entry of an analysis' recommendation list: the server sends
      objects, the client's own fallback plain strings. */
  datatype Recommendation =
    | Link(title: string, channel: string, query: string)
    | Note(text: string)

  /** The body of an analysis. */
  datatype Analysis = Analysis(
    overallScore: int,
    strengths: seq<string>,
    weaknesses: seq<string>,
    recommendations: seq<Recommendation>)
}

=== FILE: user_database.dfy ===
/** The SQLite store of accounts, learning sessions and daily-challenge
    attempts, with its tables held as sequences in row-id order. Timestamps
    (`CURRENT_TIMESTAMP`, whole UTC seconds) are passed in as `now`. */
module UserDatabase {
  import opened Wrappers
  import opened Seqs
  import Ranking

  /** Grade level reported when the stored one is empty. */
  const DefaultGradeLevel: string := "College Year 1"

  /** Seconds per day: `DATE(completed_at)` is the day number of a timestamp. */
  const SecondsPerDay: nat := 86400

  datatype UserRow = UserRow(id: nat, name: string, email: string, passwordHash: string, gradeLevel: string)
  datatype SessionRow = SessionRow(userId: int, subject: string, difficulty: string, score: int, completedAt: int, data: string)
  datatype AttemptRow = AttemptRow(userId: int, windowId: int, score: real, completedAt: int)

  /** What a successful registration or login reports about the account. */
  datatype UserInfo = UserInfo(id: nat, name: string, email: string, gradeLevel: string)
  /** One entry of a user's session history. */
  datatype SessionInfo = SessionInfo(subject: string, difficulty: string, score: int, completedAt: int, data: string)
  /** The fields of a game attempt that are read back. */
  datatype LastAttempt = LastAttempt(score: real, completedAt: int, windowId: int)

  /** Python's `x or "College Year 1"` on a grade level: the empty string is falsy. */
  function GradeOrDefault(g: string): (r: string)
    ensures r != ""
    ensures g == "" ==> r == DefaultGradeLevel
    ensures g != "" ==> r == g
  {
    if g == "" then DefaultGradeLevel else g
  }

  /** Position of the first row with this e-mail and password hash. */
  function FindLogin(rows: seq<UserRow>, email: string, h: string): (i: Option<nat>)
    ensures i.Some? ==> i.value < |rows| && rows[i.value].email == email && rows[i.value].passwordHash == h
    ensures i.Some? ==> forall j :: 0 <= j < i.value ==> !(rows[j].email == email && rows[j].passwordHash == h)
    ensures i.None? <==> forall j :: 0 <= j < |rows| ==> !(rows[j].email == email && rows[j].passwordHash == h)
  {
    if rows == [] then None
    else if rows[0].email == email && rows[0].passwordHash == h then Some(0)
    else match FindLogin(rows[1..], email, h)
      case None =>
        assert forall j :: 1 <= j < |rows| ==> rows[j] == rows[1..][j - 1];
        None
      case Some(k) =>
        assert forall j :: 1 <= j <= k + 1 ==> rows[j] == rows[1..][j - 1];
        Some(k + 1)
  }

  /** Keys under which a stable ascending sort lists the latest time first. */
  function NewestFirstKeys(times: seq<int>): (keys: seq<real>)
    ensures |keys| == |times|
    ensures forall i :: 0 <= i < |times| ==> keys[i] == -(times[i] as real)
  {
    seq(|times|, i requires 0 <= i < |times| => -(times[i] as real))
  }

  /** Positions of `ORDER BY t DESC LIMIT limit` over the times `times`; a
      negative SQLite limit means no limit. Equal times keep row order. */
  function NewestIndices(times: seq<int>, limit: int): (r: seq<nat>)
    ensures |r| == if 0 <= limit < |times| then limit else |times|
    ensures forall i :: 0 <= i < |r| ==> r[i] < |times|
    ensures forall i, j :: 0 <= i < j < |r| ==> times[r[i]] > times[r[j]] || (times[r[i]] == times[r[j]] && r[i] < r[j])
    ensures forall i, c :: 0 <= i < |r| && 0 <= c < |times| && c !in r ==> times[c] <= times[r[i]]
  {
    var keys := NewestFirstKeys(times);
    var k := if limit < 0 then |times| else limit;
    var r := Ranking.Lowest(keys, k);
    assert forall i, j :: 0 <= i < |times| && 0 <= j < |times| && Ranking.Before(keys, i, j) ==>
      times[i] > times[j] || (times[i] == times[j] && i < j);
    r
  }

  /** Sessions of one user, in row order. */
  function SessionsOf(rows: seq<SessionRow>, userId: int): (r: seq<SessionRow>)
    ensures forall i :: 0 <= i < |r| ==> r[i] in rows && r[i].userId == userId
    ensures forall x :: x in rows && x.userId == userId ==> x in r
  {
    if rows == [] then []
    else
      var rest := SessionsOf(rows[1..], userId);
      assert forall x :: x in rows ==> x == rows[0] || x in rows[1..];
      if rows[0].userId == userId then [rows[0]] + rest else rest
  }

  function SessionTimes(rows: seq<SessionRow>): (t: seq<int>)
    ensures |t| == |rows| && forall i :: 0 <= i < |rows| ==> t[i] == rows[i].completedAt
  {
    seq(|rows|, i requires 0 <= i < |rows| => rows[i].completedAt)
  }

  /** The rows at the given positions. */
  function Pick(mine: seq<SessionRow>, idx: seq<nat>): (r: seq<SessionRow>)
    requires forall i :: 0 <= i < |idx| ==> idx[i] < |mine|
    ensures |r| == |idx| && forall i :: 0 <= i < |idx| ==> r[i] == mine[idx[i]]
  {
    seq(|idx|, i requires 0 <= i < |idx| => mine[idx[i]])
  }

  /** The positions `ORDER BY completed_at DESC LIMIT limit` picks among
      the user's sessions. */
  function NewestPositions(rows: seq<SessionRow>, userId: int, limit: int): (idx: seq<nat>)
    ensures |idx| == if 0 <= limit < |SessionsOf(rows, userId)| then limit else |SessionsOf(rows, userId)|
    ensures forall i :: 0 <= i < |idx| ==> idx[i] < |SessionsOf(rows, userId)|
  {
    NewestIndices(SessionTimes(SessionsOf(rows, userId)), limit)
  }

  /** The picked rows are rows of the user, newest first. */
  lemma NewestPicked(rows: seq<SessionRow>, userId: int, limit: int)
    ensures var r := Pick(SessionsOf(rows, userId), NewestPositions(rows, userId, limit));
            && (forall i :: 0 <= i < |r| ==> r[i] in rows && r[i].userId == userId)
            && (forall i, j :: 0 <= i < j < |r| ==> r[i].completedAt >= r[j].completedAt)
  {
    var mine := SessionsOf(rows, userId);
    var times := SessionTimes(mine);
    var idx := NewestPositions(rows, userId, limit);
    var r := Pick(mine, idx);
    forall i | 0 <= i < |r| ensures r[i] in rows && r[i].userId == userId {
      assert r[i] == mine[idx[i]];
    }
    forall i, j | 0 <= i < j < |r| ensures r[i].completedAt >= r[j].completedAt {
      assert times[idx[i]] >= times[idx[j]];
    }
  }

  /** The sessions of `userId` that `ORDER BY completed_at DESC LIMIT limit`
      selects: `limit` of them, or all when there are fewer or `limit` is negative, newest
      first, and none left out that is newer than one selected. */
  function NewestSessions(rows: seq<SessionRow>, userId: int, limit: int): (r: seq<SessionRow>)
    ensures |r| == if 0 <= limit < |SessionsOf(rows, userId)| then limit else |SessionsOf(rows, userId)|
    ensures forall i :: 0 <= i < |r| ==> r[i] in rows && r[i].userId == userId
    ensures forall i, j :: 0 <= i < j < |r| ==> r[i].completedAt >= r[j].completedAt
  {
    NewestPicked(rows, userId, limit);
    Pick(SessionsOf(rows, userId), NewestPositions(rows, userId, limit))
  }

  /** No session of the user that `NewestSessions` leaves out is newer than
      one it selects. */
  lemma NewestSessionsComplete(rows: seq<SessionRow>, userId: int, limit: int, x: SessionRow)
    requires x in rows && x.userId == userId && x !in NewestSessions(rows, userId, limit)
    ensures forall i :: 0 <= i < |NewestSessions(rows, userId, limit)| ==> x.completedAt <= NewestSessions(rows, userId, limit)[i].completedAt
  {
    var mine := SessionsOf(rows, userId);
    var times := SessionTimes(mine);
    var idx := NewestIndices(times, limit);
    var r := NewestSessions(rows, userId, limit);
    assert r == Pick(mine, idx);
    var c :| 0 <= c < |mine| && mine[c] == x;
    assert forall j :: 0 <= j < |idx| ==> idx[j] != c;
    assert times[c] == x.completedAt;
  }

  /** The day number of each session, in row order. */
  function DaysOf(rows: seq<SessionRow>): (d: seq<int>)
    ensures forall x :: x in d <==> exists r :: r in rows && x == r.completedAt / SecondsPerDay
  {
    var d := seq(|rows|, i requires 0 <= i < |rows| => rows[i].completedAt / SecondsPerDay);
    assert forall r :: r in rows ==> exists i :: 0 <= i < |rows| && rows[i] == r && d[i] == r.completedAt / SecondsPerDay;
    d
  }

  function ToInfo(row: SessionRow): SessionInfo {
    SessionInfo(row.subject, row.difficulty, row.score, row.completedAt, row.data)
  }

  /** The rows as `get_user_sessions` reports them, in the same order. */
  function Infos(rows: seq<SessionRow>): (r: seq<SessionInfo>)
    ensures |r| == |rows| && forall i :: 0 <= i < |rows| ==> r[i] == ToInfo(rows[i])
  {
    seq(|rows|, i requires 0 <= i < |rows| => ToInfo(rows[i]))
  }

  /** The loop of `get_user_sessions` that turns each fetched row into a
      dict, appended in fetch order. */
  method CopyInfos(rows: seq<SessionRow>) returns (out: seq<SessionInfo>)
    ensures out == Infos(rows)
  {
    out := [];
    var i := 0;
    while i < |rows|
      invariant 0 <= i <= |rows|
      invariant |out| == i && forall k :: 0 <= k < i ==> out[k] == ToInfo(rows[k])
    {
      out := out + [ToInfo(rows[i])];
      i := i + 1;
    }
  }

  /** The largest element of a non-empty sequence. */
  function SeqMax(s: seq<int>): (m: int)
    requires s != []
    ensures m in s && forall x :: x in s ==> x <= m
  {
    if |s| == 1 then s[0]
    else
      var m' := SeqMax(s[1..]);
      assert forall x :: x in s ==> x == s[0] || x in s[1..];
      if s[0] < m' then m' else s[0]
  }

  predicate StrictlyDecreasing(d: seq<int>) {
    forall i, j :: 0 <= i < j < |d| ==> d[i] > d[j]
  }

  /** `SELECT DISTINCT … ORDER BY … DESC` over a list of day numbers. */
  function DescendingDistinct(days: seq<int>): (d: seq<int>)
    ensures StrictlyDecreasing(d)
    ensures forall x :: x in d <==> x in days
    decreases |days|
  {
    if days == [] then []
    else
      var m := SeqMax(days);
      var rest := DescendingDistinct(Filter(days, (x: int) => x != m));
      var d := [m] + rest;
      assert forall i :: 1 <= i < |d| ==> d[i] == rest[i - 1] && rest[i - 1] in rest;
      d
  }

  /** Number of leading adjacent pairs of `d` that are exactly one day apart. */
  function ConsecutiveRun(d: seq<int>): (n: nat)
    ensures |d| == 0 ==> n == 0
    ensures |d| > 0 ==> n <= |d| - 1
    ensures forall i :: 0 <= i < n ==> d[i] - d[i + 1] == 1
    ensures n + 1 < |d| ==> d[n] - d[n + 1] != 1
  {
    if |d| < 2 || d[0] - d[1] != 1 then 0
    else
      var n' := ConsecutiveRun(d[1..]);
      assert forall i :: 1 <= i <= n' + 1 && i < |d| ==> d[i] == d[1..][i - 1];
      n' + 1
  }

  /** The days a streak covers are the most recent day and the ones right before it. */
  lemma {:induction false} RunIsConsecutiveDays(d: seq<int>, i: nat)
    requires i <= ConsecutiveRun(d) && |d| > 0
    ensures d[i] == d[0] - i
  {
    if i > 0 {
      RunIsConsecutiveDays(d, i - 1);
    }
  }

  /** The streak `calculate_streak` reports for descending distinct day
      numbers `dates` when today is day `today`. */
  function Streak(dates: seq<int>, today: int): nat {
    if dates == [] || today - dates[0] > 1 then 0 else 1 + ConsecutiveRun(dates)
  }

  class UserDb {
    /** SHA-256 of a password, as a hex string. */
    const hash: string -> string
    var users: seq<UserRow>
    var sessions: seq<SessionRow>
    var attempts: seq<AttemptRow>
    /** The next `AUTOINCREMENT` id of the users table. */
    var nextUserId: nat

    /** E-mails are unique (the `UNIQUE` column) and ids are below the counter. */
    ghost predicate Valid()
      reads this
    {
      && (forall i, j :: 0 <= i < j < |users| ==> users[i].email != users[j].email)
      && (forall i :: 0 <= i < |users| ==> 1 <= users[i].id < nextUserId)
      && nextUserId >= 1
    }

    constructor (hash: string -> string)
      ensures Valid()
      ensures this.hash == hash
      ensures users == [] && sessions == [] && attempts == [] && nextUserId == 1
    {
      this.hash := hash;
      users := [];
      sessions := [];
      attempts := [];
      nextUserId := 1;
    }

    predicate EmailTaken(email: string)
      reads this
    {
      exists i :: 0 <= i < |users| && users[i].email == email
    }

    /** `login_user`: the account whose e-mail and password hash both match,
        with an empty grade level reported as the default. */
    function LoginUser(email: string, password: string): (r: Result<UserInfo, string>)
      reads this
      ensures r.Success? <==> exists i :: 0 <= i < |users| && users[i].email == email && users[i].passwordHash == hash(password)
      ensures r.Failure? ==> r.error == "Invalid credentials"
      ensures r.Success? ==> r.value.email == email && r.value.gradeLevel != ""
      ensures r.Success? ==>
        exists i :: 0 <= i < |users| && users[i].email == email && users[i].passwordHash == hash(password)
                    && r.value == UserInfo(users[i].id, users[i].name, users[i].email, GradeOrDefault(users[i].gradeLevel))
    {
      match FindLogin(users, email, hash(password))
      case None => Failure("Invalid credentials")
      case Some(i) =>
        var u := users[i];
        Success(UserInfo(u.id, u.name, u.email, GradeOrDefault(u.gradeLevel)))
    }

    /** `register_user`: insert a row, or fail on a duplicate e-mail without
        changing anything. A registered account can then log in. */
    method RegisterUser(name: string, email: string, password: string, gradeLevel: string)
      returns (r: Result<UserInfo, string>)
      requires Valid()
      modifies this
      ensures Valid()
      ensures sessions == old(sessions) && attempts == old(attempts)
      ensures old(EmailTaken(email)) ==> r == Failure("Email already registered") && users == old(users) && nextUserId == old(nextUserId)
      ensures !old(EmailTaken(email)) ==>
        && r == Success(UserInfo(old(nextUserId), name, email, gradeLevel))
        && users == old(users) + [UserRow(old(nextUserId), name, email, hash(password), gradeLevel)]
        && nextUserId == old(nextUserId) + 1
      ensures r.Success? ==> LoginUser(email, password) == Success(UserInfo(r.value.id, name, email, GradeOrDefault(gradeLevel)))
    {
      if EmailTaken(email) {
        return Failure("Email already registered");
      }
      var row := UserRow(nextUserId, name, email, hash(password), gradeLevel);
      users := users + [row];
      r := Success(UserInfo(nextUserId, name, email, gradeLevel));
      nextUserId := nextUserId + 1;
      assert users[|users| - 1] == row;
      assert forall j :: 0 <= j < |users| - 1 ==> users[j] == old(users)[j] && users[j].email != email;
    }

    /** `save_session`: append one session row stamped `now`. */
    method SaveSession(userId: int, subject: string, difficulty: string, score: int, data: string, now: int)
      modifies this`sessions
      ensures sessions == old(sessions) + [SessionRow(userId, subject, difficulty, score, now, data)]
    {
      sessions := sessions + [SessionRow(userId, subject, difficulty, score, now, data)];
    }

    /** The rows `get_user_sessions` returns, as result entries. */
    function RecentSessions(userId: int, limit: int): (r: seq<SessionInfo>)
      reads this
    {
      Infos(NewestSessions(sessions, userId, limit))
    }

    /** `get_user_sessions`: copy the selected rows into the result list. */
    method GetUserSessions(userId: int, limit: int) returns (out: seq<SessionInfo>)
      ensures out == RecentSessions(userId, limit)
      ensures |out| == if 0 <= limit < |SessionsOf(sessions, userId)| then limit else |SessionsOf(sessions, userId)|
      ensures forall i, j :: 0 <= i < j < |out| ==> out[i].completedAt >= out[j].completedAt
    {
      var rows := NewestSessions(sessions, userId, limit);
      out := CopyInfos(rows);
    }

    /** Distinct session days of a user, most recent first. */
    function SessionDays(userId: int): (d: seq<int>)
      reads this
      ensures StrictlyDecreasing(d)
    {
      DescendingDistinct(DaysOf(SessionsOf(sessions, userId)))
    }

    /** `calculate_streak`: 0 without sessions or when the last session day is
        more than one day before `today`; otherwise 1 plus the number of
        leading days that directly follow each other. */
    method CalculateStreak(userId: int, today: int) returns (streak: nat)
      ensures streak == Streak(SessionDays(userId), today)
    {
      var dates := SessionDays(userId);
      streak := StreakOf(dates, today);
    }

    /** `record_game_attempt`: append one attempt stamped `now`. */
    method RecordGameAttempt(userId: int, windowId: int, score: real, now: int) returns (ok: bool)
      modifies this`attempts
      ensures ok
      ensures attempts == old(attempts) + [AttemptRow(userId, windowId, score, now)]
      ensures HasPlayedWindow(userId, windowId)
      ensures forall u, w :: (u != userId || w != windowId) ==> (HasPlayedWindow(u, w) <==> old(HasPlayedWindow(u, w)))
    {
      attempts := attempts + [AttemptRow(userId, windowId, score, now)];
      ok := true;
      assert attempts[|attempts| - 1].userId == userId && attempts[|attempts| - 1].windowId == windowId;
      forall u, w | u != userId || w != windowId
        ensures HasPlayedWindow(u, w) <==> old(HasPlayedWindow(u, w))
      {
        assert forall i :: 0 <= i < |old(attempts)| ==> attempts[i] == old(attempts)[i];
      }
    }

    /** `has_played_window`: some attempt of this user in this window exists. */
    predicate HasPlayedWindow(userId: int, windowId: int)
      reads this
    {
      exists i :: 0 <= i < |attempts| && attempts[i].userId == userId && attempts[i].windowId == windowId
    }

    /** `get_last_game_attempt`: the user's attempt with the latest time, or
        None when the user has none. */
    function LastGameAttempt(userId: int): (r: Option<LastAttempt>)
      reads this
      ensures r.None? <==> forall x :: x in attempts ==> x.userId != userId
      ensures r.Some? ==>
        exists x :: x in attempts && x.userId == userId && r.value == LastAttempt(x.score, x.completedAt, x.windowId)
      ensures r.Some? ==> forall x :: x in attempts && x.userId == userId ==> x.completedAt <= r.value.completedAt
    {
      match Latest(attempts, userId)
      case None => None
      case Some(x) => Some(LastAttempt(x.score, x.completedAt, x.windowId))
    }
  }

  /** The latest of the attempts of `userId` in `rows`, the earliest row
      among equal times, or None if the user has none. */
  function Latest(rows: seq<AttemptRow>, userId: int): (r: Option<AttemptRow>)
    ensures r.None? <==> forall x :: x in rows ==> x.userId != userId
    ensures r.Some? ==> r.value in rows && r.value.userId == userId
    ensures r.Some? ==> forall x :: x in rows && x.userId == userId ==> x.completedAt <= r.value.completedAt
  {
    if rows == [] then None
    else
      var init := rows[..|rows| - 1];
      var last := rows[|rows| - 1];
      assert rows == init + [last];
      var best := Latest(init, userId);
      if last.userId != userId then best
      else if best.None? || last.completedAt > best.value.completedAt then Some(last)
      else best
  }

  /** The counting part of `calculate_streak`, over the user's distinct
      session days, most recent first. */
  method StreakOf(dates: seq<int>, today: int) returns (streak: nat)
    ensures streak == Streak(dates, today)
  {
    if |dates| == 0 {
      return 0;
    }
    var mostRecent := dates[0];
    if today - mostRecent > 1 {
      return 0;
    }
    streak := 1;
    var i := 0;
    var broken := false;
    while i < |dates| - 1 && !broken
      invariant 0 <= i <= |dates| - 1
      invariant !broken ==> streak == 1 + i && forall k :: 0 <= k < i ==> dates[k] - dates[k + 1] == 1
      invariant broken ==> streak == 1 + ConsecutiveRun(dates)
      decreases |dates| - i, if broken then 0 else 1
    {
      if dates[i] - dates[i + 1] == 1 {
        streak := streak + 1;
        i := i + 1;
      } else {
        RunStopsAt(dates, i);
        broken := true;
      }
    }
    if !broken {
      RunReachesEnd(dates);
    }
  }

  /** What `calculate_streak` reports is bounded by the number of session
      days, needs a session today or yesterday, and counts only days that
      directly follow each other back from the most recent one. */
  lemma StreakFacts(dates: seq<int>, today: int)
    ensures Streak(dates, today) <= |dates|
    ensures Streak(dates, today) > 0 ==> today - dates[0] <= 1
    ensures forall i :: 0 <= i < Streak(dates, today) ==> dates[i] == dates[0] - i
  {
    forall i | 0 <= i < Streak(dates, today) ensures dates[i] == dates[0] - i {
      RunIsConsecutiveDays(dates, i);
    }
  }

  /** If the pair at `i` is not one day apart, the run stops there. */
  lemma RunStopsAt(d: seq<int>, i: nat)
    requires i + 1 < |d| && d[i] - d[i + 1] != 1
    requires forall k :: 0 <= k < i ==> d[k] - d[k + 1] == 1
    ensures ConsecutiveRun(d) == i
  {
  }

  /** If every adjacent pair is one day apart, the run covers them all. */
  lemma RunReachesEnd(d: seq<int>)
    requires |d| > 0
    requires forall k :: 0 <= k < |d| - 1 ==> d[k] - d[k + 1] == 1
    ensures ConsecutiveRun(d) == |d| - 1
  {
  }
}

=== FILE: wrappers.dfy ===
/** Optional values and success/failure results, used wherever the service
    returns `None` or raises an error that a caller observes. */
module Wrappers {

  datatype Option<+T> = None | Some(value: T) {
    function GetOr(default: T): T {
      match this
      case Some(v) => v
      case None => default
    }
  }

  datatype Result<+R, +E> = Success(value: R) | Failure(error: E)
}
